=== FILE: README.md ===
# Prospection application: a Dafny model

The prospection application lets a bank's field agents record prospects
(people met during a campaign, an agent's own planning or a cultural
event) by filling in a questionnaire, and lets the hierarchy above them
(branch heads, supervisors, regional heads, headquarters) follow those
records. Headquarters maintains the questionnaire itself: it creates
questions of five types (free text, number, phone, single choice,
multiple choice), deactivates, reactivates and reorders them.

This project models the core of that application as pure Dafny functions
over immutable values, and proves what each operation promises:

- **Server side.**
  - The enums: roles and their levels, prospection statuses and their
    life cycle, question types and their validation patterns, prospection
    categories and their first assignment.
  - The question entity and the stored answer entity, with its own
    validation and display form.
  - The question catalogue service over the `questions` table: creation,
    deactivation, reactivation, reordering, statistics and vetting.
  - The prospection service: validation of a submission, answer storage,
    assignment, visibility and the agent's list.
  - Account creation.
  - The revoked-token set, the bearer-header parser and the request
    filter that installs an authenticated user.
- **Client side.**
  - The two session stores kept in `localStorage`.
  - The API service's authorisation header, reply reading, one-shot token
    refresh and display helpers.
  - The sign-up form with its cascading selects, and the role gating of
    the dashboard.
  - The intake page: validation, the multiple-choice encoding, submission
    and reset.
  - The agent's record list with its search and filters.
  - The question-creation form and its inactive count.

Modules follow the program's files:

- Shared building blocks:
  - `Wrappers`: `Option`, `Result` and the Java/HTTP error kinds.
  - `Strings`: Java and JavaScript trim, split, join, case and search.
  - `JavaInt`: `Integer.parseInt`.
  - `Patterns`: the three regular expressions.
  - `PhoneFormat`: the pairwise phone display.
  - `Collections`, `Sorting`: filters, subsequences, an insertion sort by key.
- The enums: `Roles`, `Statuts`, `QuestionTypes`, `ProspectionTypes`.
- The entities: `Users`, `QuestionEntity`, `Answers`.
- The server services: `QuestionCatalogue`, `Prospections`,
  `UserRegistration`, `TokenBlacklist`, `BearerHeader`, `JwtFilter`.
- The client: `LocalStore`, `LegacySession`, `AppSession`,
  `ClientService`, `Registration`, `DashboardViews`, `IntakeForm`,
  `MyRecords`, `QuestionForm`.

Modelling conventions:

- **Null and exceptions.** A Java or JavaScript `null` is `None`. An
  exception is a `Failure` carrying its kind and message.
  `NullReference` stands for a `NullPointerException`.
- **Storage.** Repositories and tables are sequences of rows. A query is
  a function of the rows.
- **Outside effects.** The network, the clock, the password encoder and
  the JWT library are parameters.
- **React.** A state update, and the effect it triggers, is one
  transition on a state value.
- **Answer map.** The submitted answer map (a `HashMap`) is a sequence of
  entries with distinct keys, so every iteration order is covered.
- **Repository methods.** The prospection repository's
  `findByAgentIdWithHierarchie` and `findByCreatorIdWithHierarchie` are
  called by the service but not defined in `ProspectionRepository.java`.
  They are modelled by what their names say: the records assigned to, or
  created by, the agent.
- **Table operations.** Deactivation, reactivation and reordering require
  distinct primary keys. The identity column guarantees this for every
  table the database can hold.

Several proved facts record behaviour of the code as written that a reader
might not expect:

- A free-text answer must parse as a 32-bit integer to be stored (the TEXT
  clause of `Answers.EstValide`).
- The service and the entity disagree on untrimmed phone numbers.
- The client and the server disagree on what a number is.
- Clearing the region in the sign-up form keeps a stale branch choice,
  so the form can still be sent.
- Reordering with a partial id list can give two active questions the
  same position.
- The two client session stores use different token keys.
- The client does not refuse repeated options; the server does.

Each of these is stated by a member named in the table below.

## Model

| member | source | states |
|---|---|---|
| Roles.FromName | backend/src/main/java/com/prospection/prospectionbackend/enums/Role.java:3-8 | only the five constant names are accepted, and the role returned carries that exact name |
| Roles.Level | backend/src/main/java/com/prospection/prospectionbackend/enums/Role.java:4-8 | the hierarchy level each constant is declared with; `Roles.LevelsFollowDeclarationOrder` proves it is the position in declaration order |
| Roles.LevelsFollowDeclarationOrder | backend/src/main/java/com/prospection/prospectionbackend/enums/Role.java:4-8 | the i-th declared constant has hierarchy level i + 1, and every role is declared |
| Roles.NameRoundTrip | backend/src/main/java/com/prospection/prospectionbackend/enums/Role.java:4-8 | every role's name reads back as that role |
| Roles.IsHigherThan | backend/src/main/java/com/prospection/prospectionbackend/enums/Role.java:25-27 | a strictly greater level; `Roles.HigherIsStrictTotalOrder` proves it a strict total order |
| Roles.IsLowerThan | backend/src/main/java/com/prospection/prospectionbackend/enums/Role.java:29-31 | a strictly smaller level; `Roles.LowerIsConverseOfHigher` proves it the converse of `IsHigherThan` |
| Roles.HigherIsStrictTotalOrder | backend/src/main/java/com/prospection/prospectionbackend/enums/Role.java:25-27 | `isHigherThan` is irreflexive, asymmetric, transitive and total on distinct roles |
| Roles.LowerIsConverseOfHigher | backend/src/main/java/com/prospection/prospectionbackend/enums/Role.java:25-31 | a is lower than b exactly when b is higher than a |
| Roles.FilterBelow | backend/src/main/java/com/prospection/prospectionbackend/enums/Role.java:33-37 | the stream filter keeps exactly the listed roles whose level is below the bound |
| Roles.LowerRoles | backend/src/main/java/com/prospection/prospectionbackend/enums/Role.java:33-37 | the declared constants of smaller level; `Roles.LowerRolesExact` proves it holds exactly the lower roles in order |
| Roles.LowerRolesExact | backend/src/main/java/com/prospection/prospectionbackend/enums/Role.java:33-37 | `getLowerRoles` returns exactly the strictly lower roles, never the role itself, and they are the first level - 1 constants in declaration order |
| Roles.LowerRolesExtremes | backend/src/main/java/com/prospection/prospectionbackend/enums/Role.java:33-37 | AGENT has no lower role; SIEGE has the four others in hierarchy order |
| Statuts.TransitionsPossibles | backend/src/main/java/com/prospection/prospectionbackend/enums/StatutProspection.java:20-52 | the listed transitions have no repeats and are exactly the moves `peutTransitionnerVers` allows, so the two tables agree |
| Statuts.CanTransition | backend/src/main/java/com/prospection/prospectionbackend/enums/StatutProspection.java:20-35 | the allowed moves, status by status; `Statuts.TransitionsPossibles` proves the listed table agrees with it |
| Statuts.NoSelfLoopNoReturnToNouveau | backend/src/main/java/com/prospection/prospectionbackend/enums/StatutProspection.java:20-35 | no status may move to itself and none may move back to NOUVEAU |
| Statuts.FinalIffNoTransition | backend/src/main/java/com/prospection/prospectionbackend/enums/StatutProspection.java:37-60 | CONVERTI, the final status, is exactly the one with no transition and is inactive; ABANDONNE is inactive but can be reopened |
| Statuts.EstFinal | backend/src/main/java/com/prospection/prospectionbackend/enums/StatutProspection.java:54-56 | only CONVERTI is final; `Statuts.FinalIffNoTransition` proves these are the statuses with no way out |
| Statuts.EstActif | backend/src/main/java/com/prospection/prospectionbackend/enums/StatutProspection.java:58-60 | every status but CONVERTI and ABANDONNE is active; `Statuts.FinalIffNoTransition` relates it to the transitions |
| Statuts.ConvertiReachable | backend/src/main/java/com/prospection/prospectionbackend/enums/StatutProspection.java:20-35 | every status reaches CONVERTI in at most two allowed moves |
| Statuts.CssClassInjective | backend/src/main/java/com/prospection/prospectionbackend/enums/StatutProspection.java:10-14 | two statuses with the same colour class are the same status |
| QuestionTypes.FromName | backend/src/main/java/com/prospection/prospectionbackend/enums/QuestionType.java:7-12 | only the five type names are accepted, and the type returned carries that exact name |
| QuestionTypes.ExactlyFiveTypes | backend/src/main/java/com/prospection/prospectionbackend/enums/QuestionType.java:7-12 | there are five question types, each listed once |
| QuestionTypes.RequiresOptions | backend/src/main/java/com/prospection/prospectionbackend/enums/QuestionType.java:23-25 | CHOICE and MULTIPLE_CHOICE need options; `QuestionEntity.HasOptionsAgreesWithType` and `QuestionForm.NeedsOptionsAgreesWithServer` compare the other copies with it |
| QuestionTypes.ValidationPattern | backend/src/main/java/com/prospection/prospectionbackend/enums/QuestionType.java:28-37 | a pattern exists exactly for PHONE and NUMBER; PHONE's accepts exactly 06 or 07 followed by eight digits, NUMBER's exactly non-empty digit strings, and every string either accepts is all digits |
| QuestionTypes.ValidationMessage | backend/src/main/java/com/prospection/prospectionbackend/enums/QuestionType.java:40-49 | the generic "Format invalide" message is given exactly to the types without a pattern |
| ProspectionTypes.FromName | backend/src/main/java/com/prospection/prospectionbackend/enums/TypeProspection.java:9-12 | only the three category names are accepted, and the category returned carries that exact name |
| ProspectionTypes.AssignationInitiale | backend/src/main/java/com/prospection/prospectionbackend/enums/TypeProspection.java:17-28 | the first assignee is always the name of a real role, and it is AGENT exactly for PLANNING_AGENT |
| ProspectionTypes.AssignationRoles | backend/src/main/java/com/prospection/prospectionbackend/enums/TypeProspection.java:17-28 | campaigns go to the branch head, plannings to the agent, cultural events to the regional head |
| ProspectionTypes.Workflow | backend/src/main/java/com/prospection/prospectionbackend/enums/TypeProspection.java:30-41 | every category has a non-empty workflow, and only PLANNING_AGENT's is direct |
| QuestionEntity.NewQuestion | backend/src/main/java/com/prospection/prospectionbackend/entities/Question.java:37-55 | a new question is active, not required and has no options |
| QuestionEntity.HasOptions | backend/src/main/java/com/prospection/prospectionbackend/entities/Question.java:68-70 | the entity's own choice-type test; `QuestionEntity.HasOptionsAgreesWithType` proves it equal to the type's `requiresOptions` |
| QuestionEntity.HasOptionsAgreesWithType | backend/src/main/java/com/prospection/prospectionbackend/entities/Question.java:68-70 | `hasOptions` agrees with the type's `requiresOptions` |
| QuestionEntity.AddOption | backend/src/main/java/com/prospection/prospectionbackend/entities/Question.java:58-61 | the option, now pointing back at the question, is appended and nothing else changes |
| QuestionEntity.RemoveOption | backend/src/main/java/com/prospection/prospectionbackend/entities/Question.java:63-66 | the first element that is the same object as the option leaves the list, the others keep their order, and nothing changes when the object is absent; the option loses its back-reference |
| QuestionEntity.AddThenRemoveOption | backend/src/main/java/com/prospection/prospectionbackend/entities/Question.java:58-66 | adding an option object not yet in the list and removing it again restores the question |
| QuestionEntity.RemoveByIdentity | backend/src/main/java/com/prospection/prospectionbackend/entities/Question.java:63-66 | removal compares objects, not fields: of two options with equal fields, removing the later keeps the earlier |
| Patterns.PhoneIsDigits | frontend/src/services/ProspectionService.ts:297-303 | every phone number the phone pattern accepts is also accepted by the number pattern |
| Patterns.IsPhone | frontend/src/services/ProspectionService.ts:297-299 | the phone pattern (06 or 07, then eight ASCII digits, nothing else) as a character predicate; `Patterns.PhoneIsDigits` and `PhoneFormat.FormatPhoneRoundTrip` state its consequences |
| Patterns.IsDigits | frontend/src/services/ProspectionService.ts:301-303 | `^\d+$` as a character predicate; `JavaInt.ParseIntOfNatToString` and `IntakeForm.NumberCheckDisagreement` relate it to `parseInt` |
| Patterns.IsEmail | frontend/src/services/ProspectionService.ts:293-295 | the e-mail pattern as a split at an '@' and a dot; `Patterns.EmailShape` states the shape of every accepted address |
| Patterns.EmailShape | frontend/src/services/ProspectionService.ts:293-295 | an accepted address has exactly one '@' after a non-empty local part, a dot at least two places after it followed only by two or more letters, and no character outside the two classes |
| Patterns.PhoneExamples | frontend/src/services/ProspectionService.ts:297-299 | 06 and 07 numbers of ten digits pass; a 05 prefix, nine or eleven digits, or a space fail |
| Patterns.EmailExamples | frontend/src/services/ProspectionService.ts:293-295 | "a@b.co" passes; a missing top-level domain, an empty local part or a one-letter top-level domain fail |
| JavaInt.ParseInt | backend/src/main/java/com/prospection/prospectionbackend/entities/Reponse.java:97-107 | a string is accepted exactly when it is one or more ASCII digits, optionally after a single + or -, and its signed value lies in the 32-bit range; the value is the digits read in base ten, negated after a minus |
| JavaInt.ParseIntOfNatToString | backend/src/main/java/com/prospection/prospectionbackend/entities/Reponse.java:97-107 | the decimal rendering of every n up to 2^31 - 1 parses back to n |
| JavaInt.ParseIntAcceptsOptionalSign | backend/src/main/java/com/prospection/prospectionbackend/entities/Reponse.java:97-107 | "42", "-7" and "+7" parse to 42, -7 and 7 |
| JavaInt.ParseIntLeadingZeros | backend/src/main/java/com/prospection/prospectionbackend/entities/Reponse.java:97-107 | leading zeros and a signed zero are accepted: "007" is 7 and "-0" is 0 |
| JavaInt.ParseIntRejects | backend/src/main/java/com/prospection/prospectionbackend/entities/Reponse.java:97-107 | the empty string, a lone sign, a trailing letter and a leading space do not parse |
| JavaInt.ParseIntBounds | backend/src/main/java/com/prospection/prospectionbackend/entities/Reponse.java:97-107 | both 32-bit bounds parse and one past the maximum does not |
| Strings.JavaSplit | backend/src/main/java/com/prospection/prospectionbackend/entities/Reponse.java:123-136 | no piece contains the separator; without a separator the string is its only piece; otherwise no empty piece ends the list |
| Strings.JavaSplitTrailingSeparator | backend/src/main/java/com/prospection/prospectionbackend/entities/Reponse.java:153-158 | separator-free pieces joined with a trailing separator split back into those pieces |
| Strings.JavaSplitOfSeparatorsIsEmpty | backend/src/main/java/com/prospection/prospectionbackend/entities/Reponse.java:123-136 | a string made only of separators splits into no piece |
| Strings.BlanknessDisagrees | backend/src/main/java/com/prospection/prospectionbackend/entities/Reponse.java:72-74 | Java and JavaScript trimming disagree on blankness: a no-break space is blank only for JavaScript, U+0001 only for Java |
| Strings.JavaTrim | backend/src/main/java/com/prospection/prospectionbackend/entities/Reponse.java:72-74 | the result is empty exactly when every character is at most U+0020, and otherwise starts and ends with a character above it |
| Strings.JsTrim | frontend/src/components/QuestionManagement.tsx:173-178 | the result is empty exactly when every character is JavaScript white space, and otherwise starts and ends with another character |
| PhoneFormat.FormatPhone | frontend/src/services/ProspectionService.ts:306-315 | a ten-character number is shown as fourteen characters: its characters in order with a space at every third position; anything else is shown unchanged |
| PhoneFormat.FormatPhoneRoundTrip | backend/src/main/java/com/prospection/prospectionbackend/entities/Reponse.java:162-171 | removing the spaces from a formatted ten-character number without spaces gives the number back |
| Answers.EstValide | backend/src/main/java/com/prospection/prospectionbackend/entities/Reponse.java:80-141 | no question means invalid; a blank answer is valid exactly when optional; otherwise TEXT and NUMBER answers must parse as integers once trimmed, PHONE answers must match once trimmed, CHOICE answers must equal an option value, and every trimmed MULTIPLE_CHOICE piece must be an option value |
| Answers.EstVide | backend/src/main/java/com/prospection/prospectionbackend/entities/Reponse.java:72-74 | no value, or a value Java trims to nothing; `Answers.EstValide` accepts an empty answer exactly for an optional question |
| Answers.TextAnswerMustBeNumeric | backend/src/main/java/com/prospection/prospectionbackend/entities/Reponse.java:97-107 | a free-text answer "Bonjour" is refused even on an optional question, while " 42 " is accepted |
| Answers.CommasOnlyAccepted | backend/src/main/java/com/prospection/prospectionbackend/entities/Reponse.java:123-136 | the multiple-choice answer ",," names no option and is accepted |
| Answers.ChoiceComparedUntrimmed | backend/src/main/java/com/prospection/prospectionbackend/entities/Reponse.java:118-121 | a single choice is compared untrimmed: "Oui" passes and " Oui" fails |
| Answers.ValeurFormatee | backend/src/main/java/com/prospection/prospectionbackend/entities/Reponse.java:147-176 | a blank answer shows "-"; a missing question is a null dereference; a phone is shown in pairs; a multiple choice with a comma shows its pieces joined by ", "; anything else is shown as stored |
| Answers.MultipleChoiceDisplayKeepsPieces | backend/src/main/java/com/prospection/prospectionbackend/entities/Reponse.java:153-158 | when the last piece is not empty, the display lists exactly the submitted pieces |
| Answers.MultipleChoiceDisplay | backend/src/main/java/com/prospection/prospectionbackend/entities/Reponse.java:153-158 | a multiple-choice answer with a comma is shown as its Java split pieces joined by ", " |
| Answers.TrailingCommaDropped | backend/src/main/java/com/prospection/prospectionbackend/entities/Reponse.java:153-158 | a trailing comma vanishes from the display: the pieces before it are shown |
| Answers.PhoneDisplayRoundTrip | backend/src/main/java/com/prospection/prospectionbackend/entities/Reponse.java:162-171 | the displayed form of a ten-character phone answer gives the stored answer back once the spaces are removed |
| QuestionCatalogue.IndexOfId | backend/src/main/java/com/prospection/prospectionbackend/services/QuestionService.java:97 | the row found has the key asked for, and nothing is found only when no row has that key |
| QuestionCatalogue.MaxOrdre | backend/src/main/java/com/prospection/prospectionbackend/repositories/QuestionRepository.java:35-36 | 0 for an empty table, otherwise the largest position of any row, active or not |
| QuestionCatalogue.NextId | backend/src/main/java/com/prospection/prospectionbackend/entities/Question.java:22-24 | the key the identity column hands out is unused and above every existing key |
| QuestionCatalogue.UpdateOrdre | backend/src/main/java/com/prospection/prospectionbackend/repositories/QuestionRepository.java:43-45 | the update query: the row with the key gets the new ordre; `QuestionCatalogue.RenumberPlaces` states its effect over a list |
| QuestionCatalogue.DecrementOrdreFrom | backend/src/main/java/com/prospection/prospectionbackend/repositories/QuestionRepository.java:52-54 | the update query: rows after the given ordre move up one; `QuestionCatalogue.DesactiverPreservesValidAndOrder` states its effect |
| QuestionCatalogue.ActiveByOrdre | backend/src/main/java/com/prospection/prospectionbackend/repositories/QuestionRepository.java:18-19 | exactly the active rows, sorted by position, as many as `countByActifTrue` counts |
| QuestionCatalogue.AllByOrdre | backend/src/main/java/com/prospection/prospectionbackend/repositories/QuestionRepository.java:22-23 | a permutation of every row, sorted by position |
| QuestionCatalogue.FindAllById | backend/src/main/java/com/prospection/prospectionbackend/services/QuestionService.java:134 | exactly the stored rows whose key is listed |
| QuestionCatalogue.StoredOptionsSound | backend/src/main/java/com/prospection/prospectionbackend/services/QuestionService.java:55-66 | each stored option is a trimmed non-blank submitted value, numbered by its submitted position and owned by the new question |
| QuestionCatalogue.StoredOptions | backend/src/main/java/com/prospection/prospectionbackend/services/QuestionService.java:55-66 | the option rows saved for a new question, never more than submitted; `StoredOptionsSound`, `StoredOptionsOrdered` and `StoredOptionsComplete` characterise them |
| QuestionCatalogue.StoredOptionsOrdered | backend/src/main/java/com/prospection/prospectionbackend/services/QuestionService.java:55-66 | stored options keep the submission order |
| QuestionCatalogue.StoredOptionsComplete | backend/src/main/java/com/prospection/prospectionbackend/services/QuestionService.java:55-66 | every non-blank submitted value is stored at its position |
| QuestionCatalogue.CreateQuestion | backend/src/main/java/com/prospection/prospectionbackend/services/QuestionService.java:28-75 | non-headquarters users are refused; a blank text, fewer than two options, repeated options or a null option fail with their messages; success holds exactly otherwise, and the new row has a fresh key, position max + 1, is active, required only when asked, owned by the creator, and carries the stored options |
| QuestionCatalogue.CreatePreservesValid | backend/src/main/java/com/prospection/prospectionbackend/services/QuestionService.java:45-75 | creation keeps keys unique, active positions distinct and options owned, and places the new question after every existing one |
| QuestionCatalogue.Desactiver | backend/src/main/java/com/prospection/prospectionbackend/services/QuestionService.java:93-106 | refused for non-headquarters, for an unknown key and for an inactive question; otherwise only that row turns inactive and every row placed after it moves up one place |
| QuestionCatalogue.DesactiverPreservesValidAndOrder | backend/src/main/java/com/prospection/prospectionbackend/repositories/QuestionRepository.java:52-54 | after deactivation the table is still valid and the remaining active questions keep their relative order |
| QuestionCatalogue.Activer | backend/src/main/java/com/prospection/prospectionbackend/services/QuestionService.java:108-121 | refused for non-headquarters, for an unknown key and for an active question; otherwise only that row turns active, at position max + 1 |
| QuestionCatalogue.ActiverPreservesValid | backend/src/main/java/com/prospection/prospectionbackend/services/QuestionService.java:108-121 | reactivation keeps the table valid and places the question after every other active one |
| QuestionCatalogue.DesactiverThenActiver | backend/src/main/java/com/prospection/prospectionbackend/services/QuestionService.java:93-121 | deactivating then reactivating a question brings it back active, behind every other active question |
| QuestionCatalogue.Renumber | backend/src/main/java/com/prospection/prospectionbackend/services/QuestionService.java:138-143 | only positions change, every row stays where it is in the table |
| QuestionCatalogue.RenumberPlaces | backend/src/main/java/com/prospection/prospectionbackend/services/QuestionService.java:138-143 | with no repeated key, the i-th listed question ends at position i + 1 and unlisted rows keep theirs |
| QuestionCatalogue.Reorganiser | backend/src/main/java/com/prospection/prospectionbackend/services/QuestionService.java:127-145 | refused for non-headquarters and for an empty list; succeeds exactly when the keys are distinct and all in use; then each listed question takes its place in the list |
| QuestionCatalogue.FoundCount | backend/src/main/java/com/prospection/prospectionbackend/services/QuestionService.java:134-137 | the rows found are as many as the distinct listed keys in use |
| QuestionCatalogue.FoundAllIff | backend/src/main/java/com/prospection/prospectionbackend/services/QuestionService.java:134-137 | as many rows are found as keys listed exactly when no key repeats and every key is in use |
| QuestionCatalogue.ReorganiserAllActivesPreservesValid | backend/src/main/java/com/prospection/prospectionbackend/services/QuestionService.java:127-145 | a list naming every active question renumbers the form as 1..n and keeps the table valid |
| QuestionCatalogue.ReorganiserPartialListCollides | backend/src/main/java/com/prospection/prospectionbackend/services/QuestionService.java:138-143 | a list that leaves out an active question can give two active questions the same position |
| QuestionCatalogue.ValiderCreationQuestionnaire | backend/src/main/java/com/prospection/prospectionbackend/services/QuestionService.java:166-197 | a null text throws on a non-empty table; a stored text, compared trimmed and ignoring case, is refused; a null type then throws; choice types need at least two non-blank options; other types must have none; success holds exactly otherwise |
| QuestionCatalogue.IsQuestionDupliquee | backend/src/main/java/com/prospection/prospectionbackend/services/QuestionService.java:166-170 | some stored text equals the given one once both are trimmed, ignoring case; `QuestionCatalogue.ExistingTextRefused` applies it |
| QuestionCatalogue.ExistingTextRefused | backend/src/main/java/com/prospection/prospectionbackend/services/QuestionService.java:166-175 | the text of any stored question, active or not, is refused |
| QuestionCatalogue.VettingIgnoresDuplicates | backend/src/main/java/com/prospection/prospectionbackend/services/QuestionService.java:172-197 | vetting accepts repeated options that creation then refuses |
| QuestionForm.InitialForm | frontend/src/components/QuestionManagement.tsx:132-138 | the form starts as a TEXT question, not required, with two empty options |
| QuestionForm.ServerTypeTable | backend/src/main/java/com/prospection/prospectionbackend/enums/QuestionType.java:7-25 | the type table has one entry per server type, giving its `requiresOptions` |
| QuestionForm.NeedsOptionsAgreesWithServer | frontend/src/components/QuestionManagement.tsx:142-143 | with the server's table loaded, options are needed exactly for the two choice types |
| QuestionForm.NeedsOptions | frontend/src/components/QuestionManagement.tsx:142-143 | the type table's flag for the selected type, false when absent; `QuestionForm.NeedsOptionsAgreesWithServer` compares it with the server |
| QuestionForm.HandleOptionChange | frontend/src/components/QuestionManagement.tsx:150-154 | only the edited entry changes |
| QuestionForm.AddOption | frontend/src/components/QuestionManagement.tsx:156-158 | one empty entry is appended |
| QuestionForm.RemoveOption | frontend/src/components/QuestionManagement.tsx:160-165 | an entry is removed only while more than two remain |
| QuestionForm.EditsKeepTwoOptions | frontend/src/components/QuestionManagement.tsx:132-165 | the option list never drops below two entries |
| QuestionForm.NonBlank | frontend/src/components/QuestionManagement.tsx:177-182 | exactly the entries that are not blank once trimmed |
| QuestionForm.Prepare | frontend/src/components/QuestionManagement.tsx:167-187 | a blank question or fewer than two non-blank options for a choice type stops with its message; otherwise the payload carries the fields and the non-blank options, or none for other types |
| QuestionForm.SentOptions | frontend/src/components/QuestionManagement.tsx:177-187 | the options sent are the non-blank entries in order, at least two for a choice type and none otherwise |
| QuestionForm.HandleSubmit | frontend/src/components/QuestionManagement.tsx:167-210 | a failed check sends nothing; the form is reset only on success; a rejection or a throw keeps the form and shows the error |
| QuestionForm.RepeatedOptionsPassTheForm | frontend/src/components/QuestionManagement.tsx:177-187 | repeated options pass the form and are refused by the service |
| QuestionForm.Statistiques | backend/src/main/java/com/prospection/prospectionbackend/services/QuestionService.java:147-151 | the totals are the number of rows and the number of active rows |
| QuestionForm.ActiveInactiveSplit | frontend/src/components/QuestionManagement.tsx:463 | active and inactive rows add up to the table |
| QuestionForm.InactiveCountIsInactiveRows | frontend/src/components/QuestionManagement.tsx:463 | the displayed inactive count is the number of inactive rows and never negative |
| QuestionForm.InactiveCount | frontend/src/components/QuestionManagement.tsx:463 | the total minus the active count, a missing field read as 0; `QuestionForm.InactiveCountIsInactiveRows` proves it the number of inactive rows |
| Prospections.Get | backend/src/main/java/com/prospection/prospectionbackend/services/ProspectionService.java:118-120 | a value found belongs to an entry with that key, and a missing key gives null |
| Prospections.RequiredActives | backend/src/main/java/com/prospection/prospectionbackend/services/ProspectionService.java:113-116 | exactly the active required questions |
| Prospections.ValiderDonnees | backend/src/main/java/com/prospection/prospectionbackend/services/ProspectionService.java:103-139 | a null category, then a null or empty map, then the first unanswered required question, then the first format failure are reported; success holds exactly when the category is set, the map non-empty, every required question answered and every entry well-formed |
| Prospections.RequiredCheck | backend/src/main/java/com/prospection/prospectionbackend/services/ProspectionService.java:118-123 | passes exactly when every listed question is answered, and otherwise reports the first unanswered one in list order |
| Prospections.FormatCheck | backend/src/main/java/com/prospection/prospectionbackend/services/ProspectionService.java:125-139 | passes exactly when every entry passes its per-type check, and otherwise reports the first failing entry |
| Prospections.RequiredActivesAnswered | backend/src/main/java/com/prospection/prospectionbackend/services/ProspectionService.java:113-123 | answering every question the ordered query returns is answering every active required question |
| Prospections.CreerReponses | backend/src/main/java/com/prospection/prospectionbackend/services/ProspectionService.java:75-100 | succeeds exactly when every entry names a known question and passes the entity's check; then the stored answers are the kept entries |
| Prospections.KeptAnswersMembers | backend/src/main/java/com/prospection/prospectionbackend/services/ProspectionService.java:75-100 | an answer is stored exactly when some kept entry gives it |
| Prospections.CreerReponsesSound | backend/src/main/java/com/prospection/prospectionbackend/services/ProspectionService.java:75-100 | every stored answer passes the entity's own validation |
| Prospections.StoredValuesTrimmed | backend/src/main/java/com/prospection/prospectionbackend/services/ProspectionService.java:75-100 | stored values are trimmed |
| Prospections.KeptAnswersKeys | backend/src/main/java/com/prospection/prospectionbackend/services/ProspectionService.java:75-100 | every stored answer names a question that was a key of the map |
| Prospections.KeptAnswersOnePerQuestion | backend/src/main/java/com/prospection/prospectionbackend/entities/Reponse.java:10-14 | with unique map keys no question receives two answers, as the unique constraint requires |
| Prospections.TextAcceptedByServiceRefusedByEntity | backend/src/main/java/com/prospection/prospectionbackend/services/ProspectionService.java:142-169 | free text passes the service's type check but is refused when stored |
| Prospections.ServiceCheckImpliesEntityCheck | backend/src/main/java/com/prospection/prospectionbackend/services/ProspectionService.java:142-169 | for PHONE, NUMBER and CHOICE with trimmed options, the service's check implies the entity's |
| Prospections.ValiderReponseSelonType | backend/src/main/java/com/prospection/prospectionbackend/services/ProspectionService.java:142-168 | the service's per-type check on the untrimmed value; `Prospections.ServiceCheckImpliesEntityCheck` and `Prospections.TextAcceptedByServiceRefusedByEntity` compare it with the entity's |
| Prospections.PhonePaddingDisagreement | backend/src/main/java/com/prospection/prospectionbackend/services/ProspectionService.java:142-169 | a space-padded phone number is refused by the service yet accepted by the entity |
| Prospections.AssignerSelonType | backend/src/main/java/com/prospection/prospectionbackend/services/ProspectionService.java:179-199 | a planning record is assigned to its creator as ASSIGNE; any other stays unassigned and NOUVEAU; nothing else changes |
| Prospections.AssignmentAgreesWithType | backend/src/main/java/com/prospection/prospectionbackend/services/ProspectionService.java:179-199 | a record is assigned at creation exactly when the category's first assignee is AGENT |
| Prospections.CreerProspection | backend/src/main/java/com/prospection/prospectionbackend/services/ProspectionService.java:33-72 | only agents may create; validation errors, then answer-storage errors, pass through unchanged; a created record carries the creator's hierarchy, the category's assignment and status, and the kept answers |
| Prospections.PeutVoir | backend/src/main/java/com/prospection/prospectionbackend/services/ProspectionService.java:247-274 | headquarters sees everything; each other role sees the records of its own branch, supervision or region, and an agent sees its own; a missing link is a null dereference |
| Prospections.CreatedRecordVisibleUpTheHierarchy | backend/src/main/java/com/prospection/prospectionbackend/services/ProspectionService.java:247-274 | a record created by a placed agent is visible to that agent and to every head above them |
| Prospections.AgentRecords | backend/src/main/java/com/prospection/prospectionbackend/services/ProspectionService.java:221-238 | exactly the records assigned to or created by the agent, each once |
| Prospections.NewestFirstKeepsRecords | backend/src/main/java/com/prospection/prospectionbackend/services/ProspectionService.java:221-238 | sorting newest first keeps the records and their uniqueness |
| Prospections.ProspectionsAgent | backend/src/main/java/com/prospection/prospectionbackend/services/ProspectionService.java:221-238 | only agents may list; the list holds their records, each once, newest first |
| UserRegistration.FindById | backend/src/main/java/com/prospection/prospectionbackend/services/UserRegistrationService.java:52-76 | the region, supervision or branch found has the id asked for; none is found only for a null id or an id no row has |
| UserRegistration.Placement | backend/src/main/java/com/prospection/prospectionbackend/services/UserRegistrationService.java:52-76 | each role reads only the id of its own level and takes the links above it; headquarters gets none |
| UserRegistration.CreateUser | backend/src/main/java/com/prospection/prospectionbackend/services/UserRegistrationService.java:34-79 | a taken e-mail is refused with its message; a null role throws; otherwise the user is active, with the given fields, the default phone when none is given, the encoded password and the role's placement |
| UserRegistration.CreatedUserIsPlaced | backend/src/main/java/com/prospection/prospectionbackend/services/UserRegistrationService.java:52-76 | a created user's links agree with each other and never go below the role's level |
| UserRegistration.KnownIdIsHonoured | backend/src/main/java/com/prospection/prospectionbackend/services/UserRegistrationService.java:53-62 | a known branch id links an agent or branch head to that branch, its supervision and its region |
| UserRegistration.Save | backend/src/main/java/com/prospection/prospectionbackend/services/UserRegistrationService.java:78 | the new user joins the stored users; the other tables are unchanged |
| UserRegistration.SecondSignUpRefused | backend/src/main/java/com/prospection/prospectionbackend/services/UserRegistrationService.java:37-39 | once saved, the same e-mail is refused whatever else is sent |
| TokenBlacklist.BlacklistToken | backend/src/main/java/com/prospection/prospectionbackend/services/TokenBlacklistService.java:15-17 | the token becomes revoked and no other token changes status |
| TokenBlacklist.BlacklistTokens | backend/src/main/java/com/prospection/prospectionbackend/services/TokenBlacklistService.java:19-26 | each non-null token becomes revoked and nothing else does |
| TokenBlacklist.BlacklistOnlyGrows | backend/src/main/java/com/prospection/prospectionbackend/services/TokenBlacklistService.java:9-26 | no operation removes a token, adding twice is adding once, and two nulls change nothing |
| TokenBlacklist.IsTokenBlacklisted | backend/src/main/java/com/prospection/prospectionbackend/services/TokenBlacklistService.java:11-13 | membership in the revoked set; `TokenBlacklist.BlacklistToken` and `JwtFilter.RevokedTokenNeverAuthenticates` state what it decides |
| BearerHeader.ExtractTokenFromHeader | backend/src/main/java/com/prospection/prospectionbackend/utils/JwtUtil.java:80-85 | a token is found exactly when the header starts with "Bearer ", and the header is that prefix followed by the token |
| BearerHeader.ExtractBuiltHeader | backend/src/main/java/com/prospection/prospectionbackend/utils/JwtUtil.java:80-85 | every token, even the empty one, is recovered from the header built from it |
| BearerHeader.ExtractRejects | backend/src/main/java/com/prospection/prospectionbackend/utils/JwtUtil.java:80-85 | no header, a lower-case scheme and the scheme without its space give no token |
| JwtFilter.ShouldNotFilterCases | backend/src/main/java/com/prospection/prospectionbackend/config/JwtAuthenticationFilter.java:136-158 | the filter is skipped exactly for preflight requests, the listed public paths and the two public prefixes; the refresh, logout and `/api/structure/` paths are filtered |
| JwtFilter.ShouldNotFilter | backend/src/main/java/com/prospection/prospectionbackend/config/JwtAuthenticationFilter.java:136-158 | the skipped paths and preflight requests; `JwtFilter.ShouldNotFilterCases` lists them |
| JwtFilter.DoFilter | backend/src/main/java/com/prospection/prospectionbackend/config/JwtAuthenticationFilter.java:36-132 | the authentication changes only from none to a user, and only for a filtered request with a bearer token that is not revoked |
| JwtFilter.DoFilterAuthenticatesIff | backend/src/main/java/com/prospection/prospectionbackend/config/JwtAuthenticationFilter.java:36-132 | a user is installed exactly when the request is filtered, the token is present, not revoked, names a known user and verifies; that user is the one installed |
| JwtFilter.RevokedTokenNeverAuthenticates | backend/src/main/java/com/prospection/prospectionbackend/config/JwtAuthenticationFilter.java:55-61 | a revoked token never changes the authentication |
| JwtFilter.RevokedSessionRejected | backend/src/main/java/com/prospection/prospectionbackend/config/JwtAuthenticationFilter.java:55-61 | once a session's tokens are revoked, its access token authenticates nobody |
| LocalStore.GetItem | frontend/src/services/AuthService.ts:7-13 | a value is read exactly when the key is stored, and it is the stored value |
| LocalStore.Item | frontend/src/services/AuthService.ts:29-31 | a value counts exactly when it is stored and non-empty |
| LocalStore.SetGetRemove | frontend/src/services/AuthService.ts:7-27 | a written key reads back its value, a removed key reads null, and other keys are unaffected |
| LegacySession.SaveToken | frontend/src/services/AuthService.ts:7-9 | the token is stored under `auth_token` and nothing else changes |
| LegacySession.SaveUser | frontend/src/services/AuthService.ts:15-17 | the user is stored under `auth_user` and nothing else changes; the shell's own store (App.tsx lines 86-88) writes the user the same way, so both use this one definition |
| LegacySession.Logout | frontend/src/services/AuthService.ts:24-27 | the two keys are removed and nothing else changes |
| LegacySession.SaveThenGet | frontend/src/services/AuthService.ts:7-31 | a saved token reads back, and the session is authenticated exactly when it is non-empty |
| LegacySession.GetUser | frontend/src/services/AuthService.ts:19-22 | the stored user, absent for a missing or empty entry; `LegacySession.SaveThenGet` reads a saved user back |
| LegacySession.IsAuthenticated | frontend/src/services/AuthService.ts:29-31 | a non-empty token is stored; `LegacySession.LogoutEndsSession` and `AppSession.StoresDisagreeOnToken` use it |
| LegacySession.LogoutEndsSession | frontend/src/services/AuthService.ts:24-31 | after logout there is no session and no user, and the newer store's tokens are untouched |
| AppSession.SaveTokens | frontend/src/App.tsx:74-77 | both tokens are stored under their keys and nothing else changes |
| AppSession.Logout | frontend/src/App.tsx:95-112 | the server is told the tokens held, then the three keys are removed whatever it answered, and nothing else changes |
| AppSession.LogoutEndsSession | frontend/src/App.tsx:95-117 | after logout the store is unauthenticated, with no user and no refresh token |
| AppSession.IsAuthenticated | frontend/src/App.tsx:115-117 | a non-empty access token is stored; `AppSession.LogoutEndsSession` proves logout clears it |
| AppSession.Login | frontend/src/App.tsx:133-158 | the error is cleared before the request; an accepted reply stores both tokens and the user, hands the user over and shows no error; a refused reply leaves the store unchanged and shows its message; a throw leaves the store unchanged with the error cleared |
| AppSession.Restore | frontend/src/App.tsx:838-845 | a user is restored exactly when an access token and a user are both stored |
| AppSession.LoginThenRestore | frontend/src/App.tsx:838-845 | a successful login restores the same user after a reload |
| AppSession.LogoutThenRestore | frontend/src/App.tsx:838-845 | nothing is restored after logout |
| AppSession.StoresDisagreeOnToken | frontend/src/App.tsx:69-84 | both stores share the user key but not the token key, so a shell login leaves the older store unauthenticated |
| AppSession.HandleLogout | frontend/src/App.tsx:861-865 | the session ends and the login screen comes back |
| ClientService.AuthBearer | frontend/src/services/ProspectionService.ts:96-102 | a bearer is sent exactly when a non-empty access token is stored, and it is that token |
| ClientService.HandleResponse | frontend/src/services/ProspectionService.ts:104-120 | success follows the status; a success carries the body; a failure carries the body's message when non-empty, the generic one otherwise, and the body's kind |
| ClientService.FailureMessageNeverEmpty | frontend/src/services/ProspectionService.ts:104-120 | a failure always has a non-empty message |
| ClientService.FetchWithRetry | frontend/src/services/ProspectionService.ts:124-158 | the original request goes first; at most one refresh and one retry follow, only after a 401 outside `/auth/` with a refresh token stored; a new token is stored and used by the retry; without one, the first status and store are kept |
| ClientService.RefreshedTokenIsUsed | frontend/src/services/ProspectionService.ts:137-149 | after a refresh the retry and every later request carry the new token |
| ClientService.AuthPathsNeverRetried | frontend/src/services/ProspectionService.ts:124-127 | requests to the authentication endpoints are sent once |
| ClientService.StatutColor | frontend/src/services/ProspectionService.ts:317-332 | each status code gets the status's own class; any other code gets the default one |
| ClientService.StatutColorsDistinct | frontend/src/services/ProspectionService.ts:317-332 | the five statuses get five different classes, none the default |
| ClientService.DefaultColorUnused | frontend/src/services/ProspectionService.ts:317-332 | no status is drawn with the default class |
| ClientService.TypeIcon | frontend/src/services/ProspectionService.ts:334-345 | each category code gets its icon; an unknown code gets the default one |
| ClientService.TypeIconsDistinct | frontend/src/services/ProspectionService.ts:334-345 | the three categories get three different icons, none the default |
| Registration.NeedsAreNested | frontend/src/App.tsx:369-371 | a role that needs a branch needs a supervision, one that needs a supervision needs a region, headquarters needs none, and each need follows the role's level |
| Registration.Initial | frontend/src/App.tsx:352-358 | the form starts with the agent role and no hierarchy choice |
| Registration.IsFormValidIff | frontend/src/App.tsx:373-377 | the form may be sent exactly when the four text fields are filled and the deepest choice the role needs is made |
| Registration.IsFormValid | frontend/src/App.tsx:373-377 | the form's own sendability test; `Registration.IsFormValidIff` characterises it by the deepest level the role needs |
| Registration.ChangeRegion | frontend/src/App.tsx:298-310 | a new region clears the lower choices, empties the branch list and loads supervisions; clearing the region only empties the lists; the same region changes nothing |
| Registration.ChangeSupervision | frontend/src/App.tsx:312-322 | a new supervision clears the branch choice and loads branches; clearing it only empties the branch list; the region side is untouched |
| Registration.RegionChangeBlocksBranchRoles | frontend/src/App.tsx:298-310 | moving to another region blocks sending for a role that needs a branch |
| Registration.ClearedRegionKeepsStaleBranch | frontend/src/App.tsx:298-310 | clearing the region keeps the earlier branch choice, so an agent's form can still be sent with no region selected |
| Registration.CascadeCanBeCompleted | frontend/src/App.tsx:298-322 | after a region change, choosing a supervision then a branch makes an agent's form sendable again |
| Registration.Submit | frontend/src/App.tsx:330-367 | success resets the form and shows the server's message; a refusal or a connection error keeps the form and shows the error |
| Registration.SubmittedFormIsCleared | frontend/src/App.tsx:352-358 | after a successful sign-up the form cannot be sent again as it is |
| DashboardViews.Navigation | frontend/src/App.tsx:597-636 | the overview comes first; the agent area is offered only to agents and question management only to headquarters |
| DashboardViews.Rendered | frontend/src/App.tsx:660-824 | a part is drawn exactly when it is the current view and the role allows it |
| DashboardViews.RenderedIsOffered | frontend/src/App.tsx:597-636 | any view reached through an offered button is drawn, and only it |
| IntakeForm.ClientTypesExceedServerTypes | frontend/src/pages/agent/NouvelleProspection.tsx:8 | the page knows eight types; exactly EMAIL, DATE and TEXTAREA have no server counterpart, and each other one names its server type |
| IntakeForm.ErrorKey | frontend/src/pages/agent/NouvelleProspection.tsx:89-118 | a question's error key never collides with the category or general keys |
| IntakeForm.ErrorKeyInjective | frontend/src/pages/agent/NouvelleProspection.tsx:89-118 | different questions have different error keys |
| IntakeForm.QuestionError | frontend/src/pages/agent/NouvelleProspection.tsx:89-118 | only required questions are checked; an unanswered one is required; otherwise each format message appears exactly when its untrimmed format check fails |
| IntakeForm.CollectErrors | frontend/src/pages/agent/NouvelleProspection.tsx:89-118 | the keys of the result are those of the base and those of the flagged questions |
| IntakeForm.CollectErrorsKeepsBase | frontend/src/pages/agent/NouvelleProspection.tsx:89-118 | entries no question overwrites keep their value |
| IntakeForm.CollectErrorsOwnMessage | frontend/src/pages/agent/NouvelleProspection.tsx:89-118 | with distinct ids, each flagged question's entry holds its own message |
| IntakeForm.ValiderFormulaire | frontend/src/pages/agent/NouvelleProspection.tsx:89-118 | the new errors replace the old ones; the category error appears exactly when none is chosen; the general key is never set; the form passes exactly when no error remains |
| IntakeForm.ValidationPassesIff | frontend/src/pages/agent/NouvelleProspection.tsx:89-118 | the form passes exactly when a category is chosen and no question is flagged |
| IntakeForm.ValidationErrorsPerQuestion | frontend/src/pages/agent/NouvelleProspection.tsx:89-118 | each question's error is present exactly when it is flagged, with its own message; optional questions have none |
| IntakeForm.NumberCheckDisagreement | frontend/src/pages/agent/NouvelleProspection.tsx:128-130 | the page refuses "-7", which the server parses, and accepts "2147483648", which the server cannot parse |
| IntakeForm.OptionalQuestionsUnchecked | frontend/src/pages/agent/NouvelleProspection.tsx:89-118 | a malformed answer to an optional question passes the page |
| IntakeForm.HandleReponseChange | frontend/src/pages/agent/NouvelleProspection.tsx:73-87 | only that answer changes, only that question's error is dropped, and nothing else changes |
| IntakeForm.Selections | frontend/src/pages/agent/NouvelleProspection.tsx:291-308 | no selection contains a comma, and there are none exactly for the empty answer |
| IntakeForm.SelectionsOfJoin | frontend/src/pages/agent/NouvelleProspection.tsx:291-308 | comma-free selections read back as themselves, except a lone empty one |
| IntakeForm.Toggle | frontend/src/pages/agent/NouvelleProspection.tsx:291-308 | the answer after a checkbox change; `IntakeForm.ToggleOnAppends`, `ToggleOffRemoves` and `ToggleOnOffRestores` state its effect |
| IntakeForm.ToggleOnAppends | frontend/src/pages/agent/NouvelleProspection.tsx:291-308 | checking an option appends it |
| IntakeForm.ToggleOffRemoves | frontend/src/pages/agent/NouvelleProspection.tsx:291-308 | unchecking removes every occurrence of the option and keeps every other non-empty selection |
| IntakeForm.ToggleOnOffRestores | frontend/src/pages/agent/NouvelleProspection.tsx:291-308 | checking then unchecking a new comma-free option gives the answer back |
| IntakeForm.Soumettre | frontend/src/pages/agent/NouvelleProspection.tsx:132-183 | nothing is sent unless validation passes; the payload carries the category, the answers and the trimmed comment or null; success clears the form and shows the banner; a duplicate warning only clears the errors; other failures show the server's message or the default one; an unreachable server shows the connection error |
| IntakeForm.SubmittedFormMustBeRefilled | frontend/src/pages/agent/NouvelleProspection.tsx:132-183 | after a successful submission the same form cannot be sent again |
| IntakeForm.Reinitialiser | frontend/src/pages/agent/NouvelleProspection.tsx:444-449 | the reset clears answers, category, comment and errors, and keeps the banner |
| IntakeForm.ResetThenValidate | frontend/src/pages/agent/NouvelleProspection.tsx:444-449 | after a reset, validation flags every required question |
| MyRecords.Filtered | frontend/src/pages/agent/MesProspections.tsx:107-118 | a record is shown exactly when it matches the search and both selects |
| MyRecords.MatchSearch | frontend/src/pages/agent/MesProspections.tsx:108-112 | the search test per record; `MyRecords.SearchIgnoresTermCase` and `MyRecords.SearchExamples` state its behaviour |
| MyRecords.FilteredKeepsOrder | frontend/src/pages/agent/MesProspections.tsx:107-118 | the shown list keeps the loaded order, and with no search or filter it is the whole list |
| MyRecords.Counter | frontend/src/pages/agent/MesProspections.tsx:235 | the count shown never exceeds the count loaded, and they are equal with no filter |
| MyRecords.SearchIgnoresTermCase | frontend/src/pages/agent/MesProspections.tsx:108-112 | for a record without a phone the case of the search term does not matter |
| MyRecords.SearchExamples | frontend/src/pages/agent/MesProspections.tsx:108-112 | a name matches ignoring case, a phone matches a substring, and a record with no fields matches no non-empty term |

## Left out

- **Transport and security plumbing.** HTTP, JSON and the controllers are
  not modelled. Nor are `SecurityConfig` and the pass-through filter in
  `security/`. The server calls are replaced by the replies they give.
- **External libraries.** JWT signing and verification, BCrypt and the
  Spring authentication manager are external. They appear as function
  parameters.
- **Login, refresh and logout on the server.** These live in
  `services/AuthService.java` and are not part of this model. Its
  `logout` (lines 118-121) never fills the revoked-token set. The filter
  is modelled for any set, so `JwtFilter.RevokedSessionRejected` states
  what would happen once tokens are revoked.
- **Clocks and timers.** Creation dates, the success banner's timeout and
  `window.confirm` are left out. Dates are numbers supplied by the
  caller.
- **Ties between equal dates.** The agent's list goes through a `HashSet`
  before sorting, so records with equal dates come in no fixed order.
  The model fixes one order and proves only the order by date.
- **Ties between equal positions.** `ORDER BY ordre` leaves the order of
  questions with the same position open, and a partial reordering can
  create such ties. The model keeps their storage order and proves only
  the order by position.
- **Concurrency.** The revoked-token set is an unsynchronised `HashSet`;
  concurrent access is left out.
- **Integer overflow.** Positions and keys are unbounded integers; Java
  `Integer` and `Long` overflow is not modelled.
- **Unicode.**
  - Strings are sequences of code points. JavaScript and Java lengths
    count UTF-16 units instead, which differs only outside the Basic
    Multilingual Plane.
  - `toLowerCase` and `equalsIgnoreCase` are modelled on ASCII letters
    only.
  - `Integer.parseInt` is modelled on ASCII digits only, though Java
    also accepts other Unicode digits.
- **Unmodelled operations.**
  - `getFormulaireVide` and `getProspectionAvecReponses` only read.
  - The per-type breakdown in `getStatistiques` is out of scope.
  - `extraireInfosProspect` is out of scope.
  - The question page has its own `getAuthHeaders`, reading
    `auth_token`; it is not modelled.
  - The loading flags of the forms are not modelled, nor are messages
    that only clear themselves (the success banner's timeout, an error
    cleared on input). The banners set after a submission are modelled.
- QuestionCatalogue.CreateQuestion: takes the question type as a value,
  so the `NullPointerException` of a null type at
  `QuestionService.java:36` is not modelled.
- QuestionForm.HandleOptionChange: requires an index of a rendered entry.
  JavaScript would extend the array with holes for a larger index, which
  the page never sends.
- QuestionCatalogue.Desactiver: requires distinct keys, which the
  identity column guarantees. The same holds for
  `QuestionCatalogue.Activer` and `QuestionCatalogue.Reorganiser`.

=== FILE: answers.dfy ===
/** A stored answer (entity `Reponse`): its emptiness test, its own
    validation against the question type, and its display form. */
module Answers {
  import opened Wrappers
  import opened Strings
  import opened QuestionTypes
  import opened QuestionEntity
  import JavaInt
  import Patterns
  import PhoneFormat

  /** `question` and `valeur` may be Java `null` (`None`). */
  datatype Reponse = Reponse(question: Option<Question>, valeur: Option<string>)

  /** `estVide`: no value, or only blanks. */
  predicate EstVide(r: Reponse) {
    r.valeur.None? || IsJavaBlank(r.valeur.value)
  }

  /** Some option of `q` has exactly the value `v` (case and blanks count). */
  predicate HasOptionValue(q: Question, v: string) {
    exists k :: 0 <= k < |q.options| && q.options[k].valeur == v
  }

  /** Every comma-separated piece of `v`, trimmed, is an option value of
      `q`. Java's split drops the trailing empty pieces. */
  predicate AllSelectionsAreOptions(q: Question, v: string) {
    var pieces := JavaSplit(v, ',');
    forall i :: 0 <= i < |pieces| ==> HasOptionValue(q, JavaTrim(pieces[i]))
  }

  /** `estValide`. Question types fall through as written in the entity:
      a TEXT answer goes through the NUMBER check. */
  function EstValide(r: Reponse): (ok: bool)
    ensures r.question.None? ==> !ok
    ensures r.question.Some? && EstVide(r) ==> (ok <==> !r.question.value.obligatoire)
    ensures r.question.Some? && !EstVide(r) ==>
              var q := r.question.value;
              var v := r.valeur.value;
              && (q.qtype == Text || q.qtype == Number ==> (ok <==> JavaInt.ParseInt(JavaTrim(v)).Some?))
              && (q.qtype == Phone ==> (ok <==> Patterns.IsPhone(JavaTrim(v))))
              && (q.qtype == Choice ==> (ok <==> HasOptionValue(q, v)))
              && (q.qtype == MultipleChoice ==> (ok <==> AllSelectionsAreOptions(q, v)))
  {
    match r.question
    case None => false
    case Some(q) =>
      if q.obligatoire && EstVide(r) then false
      else if !q.obligatoire && EstVide(r) then true
      else
        var v := r.valeur.value;
        match q.qtype
        case Text => JavaInt.ParseInt(JavaTrim(v)).Some?
        case Number => JavaInt.ParseInt(JavaTrim(v)).Some?
        case Phone => Patterns.IsPhone(JavaTrim(v))
        case Choice => HasOptionValue(q, v)
        case MultipleChoice => AllSelectionsAreOptions(q, v)
  }

  /** A free-text answer that is not a number is refused, even when the
      question is optional. */
  lemma TextAnswerMustBeNumeric(q: Question)
    requires q.qtype == Text
    ensures !EstValide(Reponse(Some(q), Some("Bonjour")))
    ensures EstValide(Reponse(Some(q), Some(" 42 ")))
  {
    TrimNoop("Bonjour", IsJavaSpace);
    assert !IsAsciiDigit("Bonjour"[0]);
    TrimPadded(' ', "42", ' ', IsJavaSpace);
    assert [' '] + "42" + [' '] == " 42 ";
    JavaInt.ParseIntAcceptsOptionalSign();
  }

  /** A multiple-choice answer made only of commas names no option at all
      and is accepted. */
  lemma CommasOnlyAccepted(q: Question)
    requires q.qtype == MultipleChoice
    ensures EstValide(Reponse(Some(q), Some(",,")))
  {
    assert !IsJavaBlank(",,") by { assert !IsJavaSpace(",,"[0]); }
    assert ",," == seq(2, _ => ',');
    JavaSplitOfSeparatorsIsEmpty(2, ',');
  }

  /** A single choice is compared untrimmed: padding makes a valid option
      invalid. */
  lemma ChoiceComparedUntrimmed(q: Question)
    requires q.qtype == Choice
    requires |q.options| == 1 && q.options[0].valeur == "Oui"
    ensures EstValide(Reponse(Some(q), Some("Oui")))
    ensures !EstValide(Reponse(Some(q), Some(" Oui")))
  {
    assert !IsJavaBlank("Oui") by { assert !IsJavaSpace("Oui"[0]); }
    assert !IsJavaBlank(" Oui") by { assert !IsJavaSpace(" Oui"[1]); }
    assert q.options[0].valeur == "Oui";
  }

  /** `getValeurFormatee`: "-" for an empty answer; otherwise the question
      type decides. Reading the type of a missing question is a null
      dereference. */
  function ValeurFormatee(r: Reponse): (f: Result<string>)
    ensures EstVide(r) ==> f == Success("-")
    ensures !EstVide(r) && r.question.None? ==> f == Failure(NullReference)
    ensures !EstVide(r) && r.question.Some? ==>
              var v := r.valeur.value;
              && f.Success?
              && (r.question.value.qtype == Phone ==> f.value == PhoneFormat.FormatPhone(v))
              && (r.question.value.qtype == MultipleChoice && ',' in v ==>
                    f.value == Join(JavaSplit(v, ','), ", "))
              && (r.question.value.qtype !in {Phone, MultipleChoice} || (r.question.value.qtype == MultipleChoice && ',' !in v) ==>
                    f.value == v)
  {
    if EstVide(r) then Success("-")
    else match r.question
      case None => Failure(NullReference)
      case Some(q) =>
        var v := r.valeur.value;
        ContainsChar(v, ',');
        match q.qtype
        case MultipleChoice => if Contains(v, ",") then Success(Join(JavaSplit(v, ','), ", ")) else Success(v)
        case Phone => Success(PhoneFormat.FormatPhone(v))
        case _ => Success(v)
  }

  /** `s` contains the one-character string `[c]` exactly when `c` occurs in it. */
  lemma ContainsChar(s: string, c: char)
    ensures Contains(s, [c]) <==> c in s
  {
    if c in s {
      var k :| 0 <= k < |s| && s[k] == c;
      assert OccursAt(s, [c], k);
    }
    if Contains(s, [c]) {
      var k :| 0 <= k <= |s| - 1 && OccursAt(s, [c], k);
      assert s[k..k + 1][0] == s[k];
    }
  }

  /** For a multiple-choice answer whose last piece is not empty, the
      display form lists exactly the submitted pieces, separated by ", ". */
  lemma MultipleChoiceDisplayKeepsPieces(q: Question, v: string)
    requires q.qtype == MultipleChoice && !IsJavaBlank(v) && ',' in v
    requires SplitAll(v, ',')[|SplitAll(v, ',')| - 1] != ""
    ensures ValeurFormatee(Reponse(Some(q), Some(v))) == Success(Join(SplitAll(v, ','), ", "))
  {
    ContainsChar(v, ',');
  }

  /** A multiple-choice answer with a comma is shown as its Java split
      pieces joined by ", ". */
  lemma MultipleChoiceDisplay(q: Question, v: string)
    requires q.qtype == MultipleChoice && !IsJavaBlank(v) && ',' in v
    ensures ValeurFormatee(Reponse(Some(q), Some(v))) == Success(Join(JavaSplit(v, ','), ", "))
  {
  }

  /** A trailing comma disappears from the display form: the pieces
      before it are shown joined by ", ". */
  lemma TrailingCommaDropped(q: Question, xs: seq<string>)
    requires q.qtype == MultipleChoice
    requires |xs| >= 1 && xs[|xs| - 1] != ""
    requires forall i :: 0 <= i < |xs| ==> ',' !in xs[i]
    ensures ValeurFormatee(Reponse(Some(q), Some(Join(xs, ",") + ","))) == Success(Join(xs, ", "))
  {
    var v := Join(xs, ",") + ",";
    assert v[|v| - 1] == ',';
    assert !IsJavaBlank(v) by { assert !IsJavaSpace(v[|v| - 1]); }
    MultipleChoiceDisplay(q, v);
    JavaSplitTrailingSeparator(xs, ',');
  }

  /** A ten-character phone answer is shown in pairs; removing the spaces
      gives the stored answer back. */
  lemma PhoneDisplayRoundTrip(q: Question, v: string)
    requires q.qtype == Phone && |v| == 10 && ' ' !in v && !IsJavaBlank(v)
    ensures ValeurFormatee(Reponse(Some(q), Some(v))).Success?
    ensures PhoneFormat.Remove(ValeurFormatee(Reponse(Some(q), Some(v))).value, ' ') == v
  {
    PhoneFormat.FormatPhoneRoundTrip(v);
  }
}

=== FILE: appsession.dfy ===
/** The session store of the application shell (`AuthService` in
    `App.tsx`): access and refresh tokens under their own keys, the user
    under `auth_user`; the login form's success condition, logout, and the
    session restored at start-up. */
module AppSession {
  import opened Wrappers
  import opened LocalStore
  import LegacySession

  const KeyAccess := "access_token"
  const KeyRefresh := "refresh_token"
  /** Both session stores keep the user under the same key. */
  const KeyUser := LegacySession.KeyUser

  /** `saveTokens`. */
  function SaveTokens(store: Store, access: string, refresh: string): (r: Store)
    ensures GetItem(r, KeyAccess) == Some(access) && GetItem(r, KeyRefresh) == Some(refresh)
    ensures forall k :: k != KeyAccess && k != KeyRefresh ==> GetItem(r, k) == GetItem(store, k)
  {
    store[KeyAccess := access][KeyRefresh := refresh]
  }

  function GetAccessToken(store: Store): Option<string> { GetItem(store, KeyAccess) }
  function GetRefreshToken(store: Store): Option<string> { GetItem(store, KeyRefresh) }

  /** `getUser`: `null` unless a non-empty value is stored. */
  function GetUser(store: Store): Option<string> { Item(store, KeyUser) }

  /** `isAuthenticated`: `!!getAccessToken()`. */
  predicate IsAuthenticated(store: Store) { Item(store, KeyAccess).Some? }

  /** The call `logout` makes to the server, with the tokens it held. */
  datatype LogoutCall = LogoutCall(accessToken: Option<string>, refreshToken: Option<string>)

  /** `logout`: the server is told the two tokens, then the three keys are
      removed whatever the server call did. */
  function Logout(store: Store): (r: (Store, LogoutCall))
    ensures r.1 == LogoutCall(GetAccessToken(store), GetRefreshToken(store))
    ensures KeyAccess !in r.0 && KeyRefresh !in r.0 && KeyUser !in r.0
    ensures forall k :: k !in {KeyAccess, KeyRefresh, KeyUser} ==> GetItem(r.0, k) == GetItem(store, k)
  {
    (store - {KeyAccess, KeyRefresh, KeyUser}, LogoutCall(GetAccessToken(store), GetRefreshToken(store)))
  }

  lemma LogoutEndsSession(store: Store)
    ensures !IsAuthenticated(Logout(store).0) && GetUser(Logout(store).0).None?
    ensures GetRefreshToken(Logout(store).0).None?
  {
  }

  // ---------------------------------------------------------------------
  // Login
  // ---------------------------------------------------------------------

  /** The login reply as the form reads it; `None` fields are absent. */
  datatype LoginReply = LoginReply(
    success: bool,
    accessToken: Option<string>,
    refreshToken: Option<string>,
    utilisateur: Option<string>,
    message: Option<string>)

  /** The login form after a submission: the store, the user handed to the
      application, and the error shown (`None` for a reply without a
      message, which leaves the error `undefined`). */
  datatype LoginOutcome = LoginOutcome(store: Store, user: Option<string>, error: Option<string>)

  /** The error the form shows once it has been cleared. */
  const NoError: Option<string> := Some("")

  predicate Accepted(reply: LoginReply) {
    && reply.success
    && reply.accessToken.Some? && reply.accessToken.value != ""
    && reply.refreshToken.Some? && reply.refreshToken.value != ""
    && reply.utilisateur.Some?
  }

  /** `handleSubmit` of the login form; `None` is a request that throws.
      The error is cleared before the request is sent, so only a refused
      reply leaves a message on screen. */
  function Login(store: Store, reply: Option<LoginReply>): (r: LoginOutcome)
    ensures reply.Some? && Accepted(reply.value) ==>
              && r.user == reply.value.utilisateur && r.error == NoError
              && GetAccessToken(r.store) == reply.value.accessToken
              && GetRefreshToken(r.store) == reply.value.refreshToken
              && GetItem(r.store, KeyUser) == reply.value.utilisateur
    ensures reply.Some? && !Accepted(reply.value) ==>
              r == LoginOutcome(store, None, reply.value.message)
    ensures reply.None? ==> r == LoginOutcome(store, None, NoError)
  {
    match reply
    case None => LoginOutcome(store, None, NoError)
    case Some(rep) =>
      if Accepted(rep) then
        var saved := LegacySession.SaveUser(SaveTokens(store, rep.accessToken.value, rep.refreshToken.value), rep.utilisateur.value);
        LoginOutcome(saved, rep.utilisateur, NoError)
      else LoginOutcome(store, None, rep.message)
  }

  /** The login button is enabled once both fields are filled. */
  predicate LoginFormValid(email: string, motDePasse: string) {
    email != "" && motDePasse != ""
  }

  /** `App`'s start-up effect: a user is restored only when an access token
      and a stored user are both present. */
  function Restore(store: Store): (r: Option<string>)
    ensures r.Some? <==> Item(store, KeyAccess).Some? && Item(store, KeyUser).Some?
    ensures r.Some? ==> r == GetUser(store)
  {
    if Item(store, KeyAccess).Some? && GetUser(store).Some? then GetUser(store) else None
  }

  /** A successful login survives a reload: the stored session restores
      the same user. */
  lemma LoginThenRestore(store: Store, reply: LoginReply)
    requires Accepted(reply) && reply.utilisateur.value != ""
    ensures Restore(Login(store, Some(reply)).store) == reply.utilisateur
  {
  }

  /** After logout nothing is restored. */
  lemma LogoutThenRestore(store: Store)
    ensures Restore(Logout(store).0).None?
  {
  }

  /** The two session stores share the user key but not the token key: a
      login through the shell leaves the older store unauthenticated, so
      the pages that read `auth_token` send no valid bearer. */
  lemma StoresDisagreeOnToken(reply: LoginReply)
    requires Accepted(reply)
    ensures KeyUser == LegacySession.KeyUser && KeyAccess != LegacySession.KeyToken
    ensures var s := Login(map[], Some(reply)).store;
            IsAuthenticated(s) && !LegacySession.IsAuthenticated(s) && LegacySession.GetToken(s).None?
  {
  }

  // ---------------------------------------------------------------------
  // Application shell
  // ---------------------------------------------------------------------

  datatype Screen = LoginScreen | RegisterScreen

  /** The shell: which public screen is shown and the signed-in user. */
  datatype Shell = Shell(screen: Screen, user: Option<string>, store: Store)

  /** `handleLogout`: the session ends and the login screen comes back. */
  function HandleLogout(s: Shell): (r: Shell)
    ensures r.user.None? && r.screen == LoginScreen && !IsAuthenticated(r.store)
    ensures r.store == Logout(s.store).0
  {
    Shell(LoginScreen, None, Logout(s.store).0)
  }
}

=== FILE: catalogue.dfy ===
/** The question catalogue: the `questions` table as the repository sees
    it and the service operations of `QuestionService` that create,
    deactivate, reactivate, renumber and vet questions. The table is a
    sequence of rows in storage order; every service call is a function
    from the table before the call to the table after it, and a failing
    call leaves the table unchanged (each service method runs in one
    transaction). */
module QuestionCatalogue {
  import opened Wrappers
  import opened Strings
  import opened Roles
  import opened QuestionTypes
  import opened QuestionEntity
  import opened Collections
  import opened Sorting
  import Users

  type Table = seq<Question>

  // ---------------------------------------------------------------------
  // Table invariants
  // ---------------------------------------------------------------------

  /** Primary keys are unique. */
  predicate IdsDistinct(t: Table) {
    forall i, j :: 0 <= i < j < |t| ==> t[i].id != t[j].id
  }

  /** No two active questions share a position in the form. */
  predicate ActiveOrdresDistinct(t: Table) {
    forall i, j :: 0 <= i < j < |t| && t[i].actif && t[j].actif ==> t[i].ordre != t[j].ordre
  }

  /** Every stored option points back at the question holding it. */
  predicate OptionsOwned(t: Table) {
    forall i, k :: 0 <= i < |t| && 0 <= k < |t[i].options| ==> t[i].options[k].question == Some(t[i].id)
  }

  predicate Valid(t: Table) {
    IdsDistinct(t) && ActiveOrdresDistinct(t) && OptionsOwned(t)
  }

  // ---------------------------------------------------------------------
  // Repository queries
  // ---------------------------------------------------------------------

  /** Position of the row with primary key `id` (`findById`). */
  function IndexOfId(t: Table, id: int): (r: Option<nat>)
    ensures r.Some? ==> r.value < |t| && t[r.value].id == id
    ensures r.None? <==> forall i :: 0 <= i < |t| ==> t[i].id != id
  {
    if t == [] then None
    else if t[0].id == id then Some(0)
    else match IndexOfId(t[1..], id)
      case None => None
      case Some(k) => Some(k + 1)
  }

  /** The set of primary keys in use. */
  function IdSet(t: Table): (s: set<int>)
    ensures forall i :: 0 <= i < |t| ==> t[i].id in s
    ensures forall id :: id in s ==> exists i :: 0 <= i < |t| && t[i].id == id
  {
    if t == [] then {} else {t[0].id} + IdSet(t[1..])
  }

  /** `findMaxOrdre`: `COALESCE(MAX(ordre), 0)` over every row, active or not. */
  function MaxOrdre(t: Table): (m: int)
    ensures t == [] ==> m == 0
    ensures forall i :: 0 <= i < |t| ==> t[i].ordre <= m
    ensures t != [] ==> exists i :: 0 <= i < |t| && t[i].ordre == m
  {
    if t == [] then 0
    else if |t| == 1 then t[0].ordre
    else
      var rest := MaxOrdre(t[1..]);
      if t[0].ordre >= rest then t[0].ordre else rest
  }

  /** The key the database's identity column hands out next: one past the
      largest key in use. */
  function NextId(t: Table): (id: int)
    ensures id !in IdSet(t)
    ensures forall i :: 0 <= i < |t| ==> t[i].id < id
  {
    if t == [] then 1
    else
      var rest := NextId(t[1..]);
      if t[0].id >= rest then t[0].id + 1 else rest
  }

  function Actives(t: Table): (r: seq<Question>)
    ensures |r| <= |t|
    ensures forall q :: q in r <==> q in t && q.actif
  {
    if t == [] then []
    else (if t[0].actif then [t[0]] else []) + Actives(t[1..])
  }

  function OrdreOf(q: Question): int { q.ordre }

  /** `findAllActiveOrderByOrdre`: the active rows by ascending position
      (rows with equal positions keep their storage order). */
  function ActiveByOrdre(t: Table): (r: seq<Question>)
    ensures SortedBy(r, OrdreOf)
    ensures forall q :: q in r <==> q in t && q.actif
    ensures |r| == CountActive(t)
  {
    var a := Actives(t);
    var r := SortBy(a, OrdreOf);
    assert forall q :: q in r <==> q in multiset(r);
    assert forall q :: q in a <==> q in multiset(a);
    r
  }

  /** `findAllOrderByOrdre`: every row by ascending position. */
  function AllByOrdre(t: Table): (r: seq<Question>)
    ensures SortedBy(r, OrdreOf)
    ensures multiset(r) == multiset(t)
  {
    SortBy(t, OrdreOf)
  }

  /** `countByActifTrue`. */
  function CountActive(t: Table): (n: nat)
    ensures n <= |t|
  {
    |Actives(t)|
  }

  /** `findAllById`: the stored rows whose key is among `ids`, each once. */
  function FindAllById(t: Table, ids: seq<int>): (r: seq<Question>)
    ensures forall q :: q in r <==> q in t && q.id in ids
  {
    if t == [] then []
    else (if t[0].id in ids then [t[0]] else []) + FindAllById(t[1..], ids)
  }

  /** `updateOrdre(id, n)`: only the ordre of the row with key `id` changes. */
  function UpdateOrdre(t: Table, id: int, n: int): Table {
    seq(|t|, i requires 0 <= i < |t| => if t[i].id == id then t[i].(ordre := n) else t[i])
  }

  /** `decrementOrdreFrom(k)`: every row placed after `k` moves up one place. */
  function DecrementOrdreFrom(t: Table, k: int): Table {
    seq(|t|, i requires 0 <= i < |t| => if t[i].ordre > k then t[i].(ordre := t[i].ordre - 1) else t[i])
  }

  // ---------------------------------------------------------------------
  // Messages
  // ---------------------------------------------------------------------

  const MsgCreationRefusee := "Vous ne pouvez pas cr\U{E9}er des questions"
  const MsgTexteObligatoire := "le texte de la question est obligatoire"
  const MsgDeuxOptions := "les options n\U{E9}cessitent au moins 2 options"
  const MsgOptionsDoublons := "Les options ne peuvent pas contenir des doublons"
  const MsgDesactivationRefusee := "Vous ne pouvez pas d\U{E9}sactiver une question"
  const MsgQuestionNonTrouvee := "Question non trouv\U{E9}e"
  const MsgDejaDesactivee := "La question est d\U{E8}j\U{E0} d\U{E9}sactiv\U{E9}e"
  const MsgActivationRefusee := "Vous ne pouvez pas activer une question"
  const MsgDejaActive := "Cette question est g\U{E9}j\U{E0} active"
  const MsgReorganisationRefusee := "Vous ne pouvez pas reorganiser une question"
  const MsgListeVide := "La liste des questions ne peut pas \U{EA}tre vide"
  const MsgQuestionsAbsentes := "Une ou plusieurs questions ne sont pas pr\U{E9}sentes"
  const MsgExisteDeja := "Cette question existe d\U{E9}j\U{E0}"
  const MsgChoixDeuxOptions := "Les questions \U{E0} choix n\U{E9}cessitent au moins 2 options"
  const MsgOptionsVides := "Toutes les options doivent avoir du contenu"
  const MsgPasDOptions := "Ce type de question ne doit pas avoir d'options"

  // ---------------------------------------------------------------------
  // createQuestion
  // ---------------------------------------------------------------------

  predicate AllPresent(xs: seq<Option<string>>) {
    forall i :: 0 <= i < |xs| ==> xs[i].Some?
  }

  function Present(xs: seq<Option<string>>): (r: seq<string>)
    requires AllPresent(xs)
    ensures |r| == |xs| && forall i :: 0 <= i < |xs| ==> xs[i] == Some(r[i])
  {
    seq(|xs|, i requires 0 <= i < |xs| && AllPresent(xs) => xs[i].value)
  }

  /** The option rows stored for a new question with key `qid`: each
      submitted value trimmed, blank ones skipped, the survivors keeping
      their 1-based submission position as `ordreOption`. Each is a new
      object, told apart from the others by that position. */
  function StoredOptions(opts: seq<string>, qid: int): (r: seq<QuestionOption>)
    ensures |r| <= |opts|
  {
    if opts == [] then []
    else
      var n := |opts|;
      var earlier := StoredOptions(opts[..n - 1], qid);
      var v := JavaTrim(opts[n - 1]);
      if v == "" then earlier else earlier + [QuestionOption(n, v, n, Some(qid))]
  }

  /** `o` is the trimmed, non-blank value submitted at position
      `o.ordreOption`, owned by the question with key `qid`. */
  predicate StoredFrom(o: QuestionOption, opts: seq<string>, qid: int) {
    && 1 <= o.ordreOption <= |opts|
    && o.valeur == JavaTrim(opts[o.ordreOption - 1])
    && o.valeur != ""
    && o.question == Some(qid)
  }

  /** The stored options of a longer list extend those of its prefix. */
  lemma StoredOptionsStep(opts: seq<string>, qid: int)
    requires opts != []
    ensures var n := |opts|;
            var v := JavaTrim(opts[n - 1]);
            StoredOptions(opts, qid) == if v == "" then StoredOptions(opts[..n - 1], qid)
                                        else StoredOptions(opts[..n - 1], qid) + [QuestionOption(n, v, n, Some(qid))]
  {
  }

  /** Each stored option comes from a non-blank submitted value. */
  lemma {:induction false} StoredOptionsSound(opts: seq<string>, qid: int)
    ensures forall j :: 0 <= j < |StoredOptions(opts, qid)| ==>
              StoredFrom(StoredOptions(opts, qid)[j], opts, qid)
  {
    if opts != [] {
      var n := |opts|;
      var prefix := opts[..n - 1];
      var r := StoredOptions(opts, qid);
      var earlier := StoredOptions(prefix, qid);
      StoredOptionsSound(prefix, qid);
      StoredOptionsStep(opts, qid);
      forall j | 0 <= j < |r| ensures StoredFrom(r[j], opts, qid) {
        if j < |earlier| {
          assert r[j] == earlier[j] && StoredFrom(earlier[j], prefix, qid);
          assert prefix[r[j].ordreOption - 1] == opts[r[j].ordreOption - 1];
        }
      }
    }
  }

  /** The stored options keep the submission order. */
  lemma {:induction false} StoredOptionsOrdered(opts: seq<string>, qid: int)
    ensures forall j, k :: 0 <= j < k < |StoredOptions(opts, qid)| ==>
              StoredOptions(opts, qid)[j].ordreOption < StoredOptions(opts, qid)[k].ordreOption
  {
    if opts != [] {
      var n := |opts|;
      var prefix := opts[..n - 1];
      var earlier := StoredOptions(prefix, qid);
      StoredOptionsOrdered(prefix, qid);
      StoredOptionsStep(opts, qid);
      var v := JavaTrim(opts[n - 1]);
      if v != "" {
        StoredOptionsBounded(prefix, qid);
        AppendAbove(earlier, QuestionOption(n, v, n, Some(qid)));
      }
    }
  }

  /** Every stored option's position is one of the submitted positions. */
  lemma StoredOptionsBounded(opts: seq<string>, qid: int)
    ensures forall j :: 0 <= j < |StoredOptions(opts, qid)| ==> StoredOptions(opts, qid)[j].ordreOption <= |opts|
  {
    StoredOptionsSound(opts, qid);
    forall j | 0 <= j < |StoredOptions(opts, qid)| ensures StoredOptions(opts, qid)[j].ordreOption <= |opts| {
      assert StoredFrom(StoredOptions(opts, qid)[j], opts, qid);
    }
  }

  /** Appending an option placed after every other keeps the order. */
  lemma AppendAbove(xs: seq<QuestionOption>, o: QuestionOption)
    requires forall j, k :: 0 <= j < k < |xs| ==> xs[j].ordreOption < xs[k].ordreOption
    requires forall j :: 0 <= j < |xs| ==> xs[j].ordreOption < o.ordreOption
    ensures forall j, k :: 0 <= j < k < |xs + [o]| ==> (xs + [o])[j].ordreOption < (xs + [o])[k].ordreOption
  {
  }

  /** Every non-blank submitted value is stored, at its position. */
  lemma {:induction false} StoredOptionsComplete(opts: seq<string>, qid: int, i: nat)
    requires i < |opts| && JavaTrim(opts[i]) != ""
    ensures QuestionOption(i + 1, JavaTrim(opts[i]), i + 1, Some(qid)) in StoredOptions(opts, qid)
  {
    var n := |opts|;
    var prefix := opts[..n - 1];
    var r := StoredOptions(opts, qid);
    var earlier := StoredOptions(prefix, qid);
    var o := QuestionOption(i + 1, JavaTrim(opts[i]), i + 1, Some(qid));
    StoredOptionsStep(opts, qid);
    if i < n - 1 {
      assert prefix[i] == opts[i];
      StoredOptionsComplete(prefix, qid, i);
      assert o in earlier;
      assert r == earlier || r == earlier + [QuestionOption(n, JavaTrim(opts[n - 1]), n, Some(qid))];
    } else {
      assert r == earlier + [o];
    }
  }

  /** `createQuestion`, by the user `createur`. A `None` stands for a Java
      `null` argument. On success the result holds the new table and the
      saved question as the service returns it: its in-memory option list
      is still the empty one it was built with, the options being written
      through their own repository. */
  function CreateQuestion(t: Table, createur: Users.Utilisateur, text: Option<string>,
                          description: Option<string>, qtype: QuestionType,
                          obligatoire: Option<bool>, options: Option<seq<Option<string>>>)
    : (r: Result<(Table, Question)>)
    ensures createur.role != Siege ==> r == Failure(AccessDenied(MsgCreationRefusee))
    ensures createur.role == Siege && (text.None? || IsJavaBlank(text.value)) ==>
              r == Failure(IllegalArgument(MsgTexteObligatoire))
    ensures createur.role == Siege && text.Some? && !IsJavaBlank(text.value) && RequiresOptions(qtype) ==>
              && (options.None? || |options.value| < 2 ==> r == Failure(IllegalArgument(MsgDeuxOptions)))
              && (options.Some? && |options.value| >= 2 && !Distinct(options.value) ==>
                    r == Failure(IllegalArgument(MsgOptionsDoublons)))
              && (options.Some? && |options.value| >= 2 && Distinct(options.value) && !AllPresent(options.value) ==>
                    r == Failure(NullReference))
    ensures r.Success? <==>
              && createur.role == Siege
              && text.Some? && !IsJavaBlank(text.value)
              && (RequiresOptions(qtype) ==>
                    options.Some? && |options.value| >= 2 && Distinct(options.value) && AllPresent(options.value))
    ensures r.Success? ==>
              var (t', q) := r.value;
              && q.id !in IdSet(t)
              && q.text == text.value && q.description == description && q.qtype == qtype
              && q.ordre == MaxOrdre(t) + 1
              && q.actif
              && (q.obligatoire <==> obligatoire == Some(true))
              && q.createurId == createur.id
              && q.options == []
              && |t'| == |t| + 1 && t'[..|t|] == t
              && t'[|t|] == q.(options := t'[|t|].options)
              && (!RequiresOptions(qtype) ==> t'[|t|].options == [])
              && (RequiresOptions(qtype) ==> t'[|t|].options == StoredOptions(Present(options.value), q.id))
  {
    if createur.role != Siege then Failure(AccessDenied(MsgCreationRefusee))
    else if text.None? || IsJavaBlank(text.value) then Failure(IllegalArgument(MsgTexteObligatoire))
    else if RequiresOptions(qtype) && (options.None? || |options.value| < 2) then
      Failure(IllegalArgument(MsgDeuxOptions))
    else if RequiresOptions(qtype) && !Distinct(options.value) then
      Failure(IllegalArgument(MsgOptionsDoublons))
    else if RequiresOptions(qtype) && !AllPresent(options.value) then
      Failure(NullReference)
    else
      var q := Question(NextId(t), text.value, description, qtype, MaxOrdre(t) + 1, true,
                        obligatoire.GetOr(false), createur.id, []);
      var stored := if RequiresOptions(qtype) then StoredOptions(Present(options.value), q.id) else [];
      var t' := t + [q.(options := stored)];
      assert t'[..|t|] == t;
      Success((t', q))
  }

  /** A created question is placed after every existing one, and creation
      keeps the table valid. */
  lemma CreatePreservesValid(t: Table, createur: Users.Utilisateur, text: Option<string>,
                             description: Option<string>, qtype: QuestionType,
                             obligatoire: Option<bool>, options: Option<seq<Option<string>>>)
    requires Valid(t)
    requires CreateQuestion(t, createur, text, description, qtype, obligatoire, options).Success?
    ensures var (t', q) := CreateQuestion(t, createur, text, description, qtype, obligatoire, options).value;
            && Valid(t')
            && (forall i :: 0 <= i < |t| ==> t'[i].ordre < q.ordre)
  {
    var (t', q) := CreateQuestion(t, createur, text, description, qtype, obligatoire, options).value;
    var n := |t|;
    var row := t'[n];
    assert t' == t + [row] by { assert t'[..n] == t; }
    if RequiresOptions(qtype) {
      StoredOptionsSound(Present(options.value), q.id);
      assert forall k :: 0 <= k < |row.options| ==> StoredFrom(row.options[k], Present(options.value), q.id);
    }
    AppendRowValid(t, row);
  }

  /** A row with a fresh key, placed after every row, whose options point
      back at it, keeps the table valid when appended. */
  lemma AppendRowValid(t: Table, row: Question)
    requires Valid(t)
    requires row.id !in IdSet(t)
    requires forall i :: 0 <= i < |t| ==> t[i].ordre < row.ordre
    requires forall k :: 0 <= k < |row.options| ==> row.options[k].question == Some(row.id)
    ensures Valid(t + [row])
  {
    var t' := t + [row];
    forall i, j | 0 <= i < j < |t'|
      ensures t'[i].id != t'[j].id
      ensures t'[i].actif && t'[j].actif ==> t'[i].ordre != t'[j].ordre
    {
      assert t'[i] == t[i];
      if j == |t| {
        assert t[i].id in IdSet(t);
      } else {
        assert t'[j] == t[j];
      }
    }
    forall i, k | 0 <= i < |t'| && 0 <= k < |t'[i].options|
      ensures t'[i].options[k].question == Some(t'[i].id)
    {
      if i < |t| { assert t'[i] == t[i]; }
    }
  }

  // ---------------------------------------------------------------------
  // desactiverQuestion / activerQuestion
  // ---------------------------------------------------------------------

  /** `desactiverQuestion`: the question leaves the form and every row
      placed after it moves up one place. */
  function Desactiver(t: Table, acteur: Users.Utilisateur, id: int): (r: Result<Table>)
    requires IdsDistinct(t)
    ensures acteur.role != Siege ==> r == Failure(AccessDenied(MsgDesactivationRefusee))
    ensures acteur.role == Siege && IndexOfId(t, id).None? ==> r == Failure(IllegalArgument(MsgQuestionNonTrouvee))
    ensures acteur.role == Siege && IndexOfId(t, id).Some? && !t[IndexOfId(t, id).value].actif ==>
              r == Failure(IllegalArgument(MsgDejaDesactivee))
    ensures r.Success? <==> acteur.role == Siege && IndexOfId(t, id).Some? && t[IndexOfId(t, id).value].actif
    ensures r.Success? ==>
              var k := t[IndexOfId(t, id).value].ordre;
              && |r.value| == |t|
              && forall i :: 0 <= i < |t| ==>
                   r.value[i] == (if t[i].id == id then t[i].(actif := false)
                                  else if t[i].ordre > k then t[i].(ordre := t[i].ordre - 1)
                                  else t[i])
  {
    if acteur.role != Siege then Failure(AccessDenied(MsgDesactivationRefusee))
    else match IndexOfId(t, id)
      case None => Failure(IllegalArgument(MsgQuestionNonTrouvee))
      case Some(p) =>
        if !t[p].actif then Failure(IllegalArgument(MsgDejaDesactivee))
        else
          assert forall i :: 0 <= i < |t| && i != p ==> t[i].id != id;
          Success(DecrementOrdreFrom(t[p := t[p].(actif := false)], t[p].ordre))
  }

  /** Deactivation keeps the table valid, and the remaining active
      questions keep their relative order. */
  lemma DesactiverPreservesValidAndOrder(t: Table, acteur: Users.Utilisateur, id: int)
    requires Valid(t)
    requires Desactiver(t, acteur, id).Success?
    ensures Valid(Desactiver(t, acteur, id).value)
    ensures var t' := Desactiver(t, acteur, id).value;
            forall i, j :: 0 <= i < |t| && 0 <= j < |t| && t'[i].actif && t'[j].actif ==>
              (t'[i].ordre < t'[j].ordre <==> t[i].ordre < t[j].ordre)
  {
    var t' := Desactiver(t, acteur, id).value;
    var p := IndexOfId(t, id).value;
    var k := t[p].ordre;
    assert |t'| == |t|;
    forall i | 0 <= i < |t|
      ensures t'[i].id == t[i].id && t'[i].options == t[i].options
      ensures t'[i].actif <==> t[i].actif && i != p
      ensures t'[i].actif ==> t[i].ordre != k && t'[i].ordre == if t[i].ordre > k then t[i].ordre - 1 else t[i].ordre
    {
      if i != p {
        assert t[i].id != id;
        if t[i].actif {
          if i < p { assert t[i].ordre != k; } else { assert t[p].ordre != t[i].ordre; }
        }
      }
    }
    forall i, j | 0 <= i < |t| && 0 <= j < |t| && t'[i].actif && t'[j].actif
      ensures t'[i].ordre < t'[j].ordre <==> t[i].ordre < t[j].ordre
      ensures i != j ==> t'[i].ordre != t'[j].ordre
    {
      if i < j { assert t[i].ordre != t[j].ordre; }
      else if j < i { assert t[j].ordre != t[i].ordre; }
    }
  }

  /** `activerQuestion`: the question returns at the end of the form. */
  function Activer(t: Table, acteur: Users.Utilisateur, id: int): (r: Result<Table>)
    requires IdsDistinct(t)
    ensures acteur.role != Siege ==> r == Failure(AccessDenied(MsgActivationRefusee))
    ensures acteur.role == Siege && IndexOfId(t, id).None? ==> r == Failure(IllegalArgument(MsgQuestionNonTrouvee))
    ensures acteur.role == Siege && IndexOfId(t, id).Some? && t[IndexOfId(t, id).value].actif ==>
              r == Failure(IllegalArgument(MsgDejaActive))
    ensures r.Success? <==> acteur.role == Siege && IndexOfId(t, id).Some? && !t[IndexOfId(t, id).value].actif
    ensures r.Success? ==>
              && |r.value| == |t|
              && forall i :: 0 <= i < |t| ==>
                   r.value[i] == (if t[i].id == id then t[i].(actif := true, ordre := MaxOrdre(t) + 1) else t[i])
  {
    if acteur.role != Siege then Failure(AccessDenied(MsgActivationRefusee))
    else match IndexOfId(t, id)
      case None => Failure(IllegalArgument(MsgQuestionNonTrouvee))
      case Some(p) =>
        if t[p].actif then Failure(IllegalArgument(MsgDejaActive))
        else
          assert forall i :: 0 <= i < |t| && i != p ==> t[i].id != id;
          Success(t[p := t[p].(actif := true, ordre := MaxOrdre(t) + 1)])
  }

  /** Reactivation keeps the table valid and places the question after
      every other active one. */
  lemma ActiverPreservesValid(t: Table, acteur: Users.Utilisateur, id: int)
    requires Valid(t)
    requires Activer(t, acteur, id).Success?
    ensures Valid(Activer(t, acteur, id).value)
    ensures var t' := Activer(t, acteur, id).value;
            var p := IndexOfId(t, id).value;
            forall i :: 0 <= i < |t| && i != p && t'[i].actif ==> t'[i].ordre < t'[p].ordre
  {
  }

  /** Deactivating a question and reactivating it brings it back active
      but at the end of the form rather than at its old place. */
  lemma DesactiverThenActiver(t: Table, acteur: Users.Utilisateur, id: int)
    requires Valid(t)
    requires Desactiver(t, acteur, id).Success?
    ensures var t1 := Desactiver(t, acteur, id).value;
            IdsDistinct(t1) && Activer(t1, acteur, id).Success?
    ensures var t1 := Desactiver(t, acteur, id).value;
            var p := IndexOfId(t, id).value;
            var t2 := Activer(t1, acteur, id).value;
            && t2[p].actif
            && t2[p].ordre == MaxOrdre(t1) + 1
            && forall i :: 0 <= i < |t| && i != p && t2[i].actif ==> t2[i].ordre < t2[p].ordre
  {
    DesactiverPreservesValidAndOrder(t, acteur, id);
    var t1 := Desactiver(t, acteur, id).value;
    var p := IndexOfId(t, id).value;
    assert t1[p].id == id && !t1[p].actif;
    assert IndexOfId(t1, id) == Some(p);
    ActiverPreservesValid(t1, acteur, id);
  }

  // ---------------------------------------------------------------------
  // reorgnaiserQuestion
  // ---------------------------------------------------------------------

  /** The loop of `reorgnaiserQuestion`: the i-th listed key gets position
      i + 1, one `updateOrdre` after another. */
  function Renumber(t: Table, ids: seq<int>): (r: Table)
    ensures |r| == |t|
    ensures forall i :: 0 <= i < |t| ==> r[i] == t[i].(ordre := r[i].ordre)
    decreases |ids|
  {
    if ids == [] then t
    else UpdateOrdre(Renumber(t, ids[..|ids| - 1]), ids[|ids| - 1], |ids|)
  }

  /** With no key listed twice, each listed row ends at its place in the
      list and every other row keeps its position. */
  lemma {:induction false} RenumberPlaces(t: Table, ids: seq<int>)
    requires Distinct(ids)
    ensures var r := Renumber(t, ids);
            forall i :: 0 <= i < |t| ==>
              r[i] == (if t[i].id in ids then t[i].(ordre := FirstIndex(ids, t[i].id) + 1) else t[i])
    decreases |ids|
  {
    if ids != [] {
      var n := |ids|;
      var prefix := ids[..n - 1];
      var last := ids[n - 1];
      assert Distinct(prefix) by {
        assert forall a :: 0 <= a < n - 1 ==> prefix[a] == ids[a];
      }
      RenumberPlaces(t, prefix);
      assert last !in prefix by {
        assert forall a :: 0 <= a < n - 1 ==> prefix[a] == ids[a] && ids[a] != ids[n - 1];
      }
      assert ids == prefix + [last];
      FirstIndexUnique(ids, last, n - 1);
      forall x | x in prefix ensures FirstIndex(ids, x) == FirstIndex(prefix, x) {
        var a := FirstIndex(prefix, x);
        assert ids[..a] == prefix[..a];
        FirstIndexUnique(ids, x, a);
      }
    }
  }

  /** `reorgnaiserQuestion(ids)`. The service counts the rows found for
      `ids` and compares with the length of the list. */
  function Reorganiser(t: Table, acteur: Users.Utilisateur, ids: Option<seq<int>>): (r: Result<Table>)
    requires IdsDistinct(t)
    ensures acteur.role != Siege ==> r == Failure(AccessDenied(MsgReorganisationRefusee))
    ensures acteur.role == Siege && (ids.None? || ids.value == []) ==> r == Failure(IllegalArgument(MsgListeVide))
    ensures r.Failure? && acteur.role == Siege && ids.Some? && ids.value != [] ==>
              r == Failure(IllegalArgument(MsgQuestionsAbsentes))
    ensures r.Success? <==>
              && acteur.role == Siege && ids.Some? && ids.value != []
              && Distinct(ids.value)
              && forall x :: x in ids.value ==> x in IdSet(t)
    ensures r.Success? ==>
              && |r.value| == |t|
              && forall i :: 0 <= i < |t| ==>
                   r.value[i] == (if t[i].id in ids.value
                                  then t[i].(ordre := FirstIndex(ids.value, t[i].id) + 1)
                                  else t[i])
  {
    if acteur.role != Siege then Failure(AccessDenied(MsgReorganisationRefusee))
    else if ids.None? || ids.value == [] then Failure(IllegalArgument(MsgListeVide))
    else
      FoundAllIff(t, ids.value);
      if |FindAllById(t, ids.value)| != |ids.value| then Failure(IllegalArgument(MsgQuestionsAbsentes))
      else
        RenumberPlaces(t, ids.value);
        Success(Renumber(t, ids.value))
  }

  /** The found rows are as many as the distinct listed keys in use. */
  lemma {:induction false} FoundCount(t: Table, ids: seq<int>)
    requires IdsDistinct(t)
    ensures |FindAllById(t, ids)| == |IdSet(t) * SetOf(ids)|
  {
    if t != [] {
      var tail := t[1..];
      var s := SetOf(ids);
      TableCons(t);
      FoundCount(tail, ids);
      var x := t[0].id;
      var rest := IdSet(tail) * s;
      assert x !in rest;
      if x in ids {
        assert |FindAllById(t, ids)| == 1 + |FindAllById(tail, ids)|;
        assert IdSet(t) * s == {x} + rest;
      } else {
        assert |FindAllById(t, ids)| == |FindAllById(tail, ids)|;
        assert IdSet(t) * s == rest;
      }
    }
  }

  /** How the queries unfold on a non-empty table with unique keys. */
  lemma TableCons(t: Table)
    requires t != [] && IdsDistinct(t)
    ensures IdsDistinct(t[1..])
    ensures IdSet(t) == {t[0].id} + IdSet(t[1..])
    ensures t[0].id !in IdSet(t[1..])
  {
    var tail := t[1..];
    assert forall i :: 0 <= i < |tail| ==> tail[i] == t[i + 1];
  }

  /** As many rows are found as keys listed exactly when no key repeats
      and every key is in use. */
  lemma FoundAllIff(t: Table, ids: seq<int>)
    requires IdsDistinct(t)
    ensures |FindAllById(t, ids)| == |ids| <==> Distinct(ids) && forall x :: x in ids ==> x in IdSet(t)
  {
    FoundCount(t, ids);
    SetOfCard(ids);
    var s := SetOf(ids);
    var found := IdSet(t) * s;
    SubsetCard(found, s);
    if |FindAllById(t, ids)| == |ids| {
      SubsetOfSameSize(found, s);
      assert forall x :: x in ids ==> x in s;
    }
    if Distinct(ids) && forall x :: x in ids ==> x in IdSet(t) {
      assert forall x :: x in s ==> x in ids;
      assert found == s;
    }
  }

  /** A list naming every active question exactly once renumbers the form
      1..n and keeps the table valid. */
  lemma ReorganiserAllActivesPreservesValid(t: Table, acteur: Users.Utilisateur, ids: seq<int>)
    requires Valid(t)
    requires Reorganiser(t, acteur, Some(ids)).Success?
    requires forall i :: 0 <= i < |t| && t[i].actif ==> t[i].id in ids
    ensures var t' := Reorganiser(t, acteur, Some(ids)).value;
            && Valid(t')
            && forall i :: 0 <= i < |t| && t'[i].actif ==> 1 <= t'[i].ordre <= |ids|
  {
    var t' := Reorganiser(t, acteur, Some(ids)).value;
    forall i, j | 0 <= i < j < |t| && t'[i].actif && t'[j].actif
      ensures t'[i].ordre != t'[j].ordre
    {
      assert t[i].id != t[j].id;
      var a := FirstIndex(ids, t[i].id);
      var b := FirstIndex(ids, t[j].id);
      assert ids[a] != ids[b];
    }
  }

  /** A list that leaves out an active question can give two active
      questions the same position. */
  lemma ReorganiserPartialListCollides()
    ensures var q1 := Question(1, "Nom", None, Text, 1, true, false, 9, []);
            var q2 := Question(2, "Age", None, Number, 2, true, false, 9, []);
            var siege := Users.Utilisateur(9, "", "", "", "", "", Siege, true, None, None, None);
            && Valid([q1, q2])
            && Reorganiser([q1, q2], siege, Some([2])).Success?
            && !ActiveOrdresDistinct(Reorganiser([q1, q2], siege, Some([2])).value)
  {
    var q1 := Question(1, "Nom", None, Text, 1, true, false, 9, []);
    var q2 := Question(2, "Age", None, Number, 2, true, false, 9, []);
    var t := [q1, q2];
    assert IdSet(t) == {1, 2};
    var siege := Users.Utilisateur(9, "", "", "", "", "", Siege, true, None, None, None);
    var t' := Reorganiser(t, siege, Some([2])).value;
    assert FirstIndex([2], 2) == 0;
    assert t'[0].ordre == 1 && t'[1].ordre == 1;
  }

  // ---------------------------------------------------------------------
  // isQuestionDupliquee / validerCreationQuestionnaire
  // ---------------------------------------------------------------------

  /** `isQuestionDupliquee`: some stored question, active or not, has the
      same text up to surrounding blanks and letter case. */
  predicate IsQuestionDupliquee(t: Table, text: string) {
    exists i :: 0 <= i < |t| && EqualsIgnoreCase(JavaTrim(t[i].text), JavaTrim(text))
  }

  /** `validerCreationQuestionnaire`. A `None` text or type is a Java
      `null`: the duplicate scan dereferences the text only when there is
      a row to compare with, and the `switch` dereferences the type once
      the scan has passed. */
  function ValiderCreationQuestionnaire(t: Table, text: Option<string>, qtype: Option<QuestionType>,
                                        options: Option<seq<Option<string>>>): (r: Result<()>)
    ensures text.None? && t != [] ==> r == Failure(NullReference)
    ensures text.Some? && IsQuestionDupliquee(t, text.value) ==> r == Failure(IllegalArgument(MsgExisteDeja))
    ensures qtype.None? && !(text.None? && t != []) && !(text.Some? && IsQuestionDupliquee(t, text.value)) ==>
              r == Failure(NullReference)
    ensures r.Success? <==>
              && (text.Some? ==> !IsQuestionDupliquee(t, text.value))
              && (text.None? ==> t == [])
              && qtype.Some?
              && (RequiresOptions(qtype.value) ==>
                    options.Some? && |options.value| >= 2
                    && forall i :: 0 <= i < |options.value| ==>
                         options.value[i].Some? && !IsJavaBlank(options.value[i].value))
              && (!RequiresOptions(qtype.value) ==> options.None? || options.value == [])
    ensures r.Failure? && qtype.Some? && !(text.None? && t != []) && !(text.Some? && IsQuestionDupliquee(t, text.value)) ==>
              r.error == IllegalArgument(
                if !RequiresOptions(qtype.value) then MsgPasDOptions
                else if options.None? || |options.value| < 2 then MsgChoixDeuxOptions
                else MsgOptionsVides)
  {
    if text.None? && t != [] then Failure(NullReference)
    else if text.Some? && IsQuestionDupliquee(t, text.value) then Failure(IllegalArgument(MsgExisteDeja))
    else if qtype.None? then Failure(NullReference)
    else if RequiresOptions(qtype.value) then
      if options.None? || |options.value| < 2 then Failure(IllegalArgument(MsgChoixDeuxOptions))
      else if exists i :: 0 <= i < |options.value| &&
                (options.value[i].None? || IsJavaBlank(options.value[i].value))
      then Failure(IllegalArgument(MsgOptionsVides))
      else Success(())
    else if options.Some? && options.value != [] then Failure(IllegalArgument(MsgPasDOptions))
    else Success(())
  }

  /** The text of any stored question, active or not, is refused as a new
      question whatever the type and options. */
  lemma ExistingTextRefused(t: Table, i: nat, qtype: Option<QuestionType>, options: Option<seq<Option<string>>>)
    requires i < |t|
    ensures ValiderCreationQuestionnaire(t, Some(t[i].text), qtype, options)
              == Failure(IllegalArgument(MsgExisteDeja))
  {
    assert EqualsIgnoreCase(JavaTrim(t[i].text), JavaTrim(t[i].text));
  }

  /** Vetting accepts a blank-free option list that creation would still
      refuse for duplicates: the two checks are independent. */
  lemma VettingIgnoresDuplicates()
    ensures var opts := Some([Some("Oui"), Some("Oui")]);
            var siege := Users.Utilisateur(9, "", "", "", "", "", Siege, true, None, None, None);
            && ValiderCreationQuestionnaire([], Some("Fumeur ?"), Some(Choice), opts).Success?
            && CreateQuestion([], siege, Some("Fumeur ?"), None, Choice, None, opts)
                 == Failure(IllegalArgument(MsgOptionsDoublons))
  {
    var opts := [Some("Oui"), Some("Oui")];
    assert !Distinct(opts) by { assert opts[0] == opts[1]; }
    assert !IsJavaBlank("Oui") by { assert !IsJavaSpace("Oui"[0]); }
    assert !IsJavaBlank("Fumeur ?") by { assert !IsJavaSpace("Fumeur ?"[0]); }
  }
}

=== FILE: clientservice.dfy ===
/** The client's API service (`ProspectionService.ts`): the authorisation
    header it builds from the session store, its reading of a server reply,
    the one-shot token refresh around a request, and the display helpers
    it exports. The network is replaced by the replies it returns, given
    as parameters; the session store is a string map. */
module ClientService {
  import opened Wrappers
  import opened Strings
  import opened LocalStore
  import opened AppSession
  import Statuts
  import ProspectionTypes

  /** `getAuthHeaders`: the bearer token sent with a request, if any. */
  function AuthBearer(store: Store): (r: Option<string>)
    ensures r.Some? <==> KeyAccess in store && store[KeyAccess] != ""
    ensures r.Some? ==> r.value == store[KeyAccess]
  {
    Item(store, KeyAccess)
  }

  // ---------------------------------------------------------------------
  // handleResponse
  // ---------------------------------------------------------------------

  /** The fields of a reply body the client reads. */
  datatype Body = Body(success: Option<bool>, message: Option<string>, kind: Option<string>)

  datatype ApiResponse = ApiResponse(success: bool, data: Option<Body>, message: Option<string>, kind: Option<string>)

  const MsgErreurGenerique := "Une erreur est survenue"

  /** `handleResponse` on a reply whose body parses. */
  function HandleResponse(ok: bool, body: Body): (r: ApiResponse)
    ensures r.success <==> ok
    ensures ok ==> r.data == Some(body) && r.message == body.message && r.kind.None?
    ensures !ok ==> r.data.None? && r.kind == body.kind && r.message.Some?
    ensures !ok && body.message.Some? && body.message.value != "" ==> r.message == body.message
    ensures !ok && (body.message.None? || body.message.value == "") ==> r.message == Some(MsgErreurGenerique)
  {
    if ok then ApiResponse(true, Some(body), body.message, None)
    else
      var text := if body.message.Some? && body.message.value != "" then body.message.value else MsgErreurGenerique;
      ApiResponse(false, None, Some(text), body.kind)
  }

  /** A failure always carries a non-empty message. */
  lemma FailureMessageNeverEmpty(body: Body)
    ensures HandleResponse(false, body).message.value != ""
  {
  }

  // ---------------------------------------------------------------------
  // fetchWithRetry
  // ---------------------------------------------------------------------

  /** A request sent on the wire: the original or its retry (with the
      bearer token it carries), or the call to the refresh endpoint. */
  datatype Request =
    | Api(url: string, bearer: Option<string>)
    | RefreshCall(refreshToken: string)

  /** What the refresh endpoint does: answer with a new token, answer with
      an error status, or throw (network failure or unreadable body). */
  datatype RefreshReply = Renewed(token: string) | RefreshRefused | RefreshThrows

  /** What the retried request does: answer with a status, or throw. */
  datatype RetryReply = RetryStatus(status: int) | RetryThrows

  /** The observable result: the status returned, the store afterwards and
      the requests sent, in order. */
  datatype Fetched = Fetched(status: int, store: Store, sent: seq<Request>)

  /** The retry is attempted exactly when the first reply is 401 on a path
      outside `/auth/`. */
  predicate WantsRefresh(url: string, first: int) {
    first == 401 && !Contains(url, "/auth/")
  }

  /** `fetchWithRetry(url, init)`; `bearer` is the token `init` carries,
      `first` the status of the first reply, `refresh` and `retry` what the
      refresh call and the retry would do if made. */
  function FetchWithRetry(url: string, bearer: Option<string>, store: Store, first: int,
                          refresh: RefreshReply, retry: RetryReply): (r: Fetched)
    ensures |r.sent| >= 1 && r.sent[0] == Api(url, bearer)
    ensures |r.sent| <= 3
    ensures forall i :: 1 <= i < |r.sent| ==> (r.sent[i].RefreshCall? <==> i == 1)
    ensures !WantsRefresh(url, first) ==> r == Fetched(first, store, [Api(url, bearer)])
    ensures WantsRefresh(url, first) && Item(store, KeyRefresh).None? ==> r == Fetched(first, store, [Api(url, bearer)])
    ensures WantsRefresh(url, first) && Item(store, KeyRefresh).Some? ==>
              |r.sent| >= 2 && r.sent[1] == RefreshCall(store[KeyRefresh])
    ensures !refresh.Renewed? ==> r.status == first && r.store == store
    ensures |r.sent| == 3 ==>
              refresh.Renewed? && r.sent[2] == Api(url, Some(refresh.token))
              && r.store == store[KeyAccess := refresh.token]
              && r.status == (if retry.RetryStatus? then retry.status else first)
  {
    var original := Api(url, bearer);
    if !WantsRefresh(url, first) then Fetched(first, store, [original])
    else match Item(store, KeyRefresh)
      case None => Fetched(first, store, [original])
      case Some(token) =>
        var sent := [original, RefreshCall(token)];
        match refresh
        case RefreshRefused => Fetched(first, store, sent)
        case RefreshThrows => Fetched(first, store, sent)
        case Renewed(renewed) =>
          var stored := store[KeyAccess := renewed];
          var status := if retry.RetryStatus? then retry.status else first;
          Fetched(status, stored, sent + [Api(url, Some(renewed))])
  }

  /** After a successful refresh the client's next requests carry the new
      token, and the retry carried it too. */
  lemma RefreshedTokenIsUsed(url: string, bearer: Option<string>, store: Store, first: int,
                             renewed: string, retry: RetryReply)
    requires WantsRefresh(url, first) && Item(store, KeyRefresh).Some? && renewed != ""
    ensures var r := FetchWithRetry(url, bearer, store, first, Renewed(renewed), retry);
            |r.sent| == 3 && r.sent[2].bearer == Some(renewed) && AuthBearer(r.store) == Some(renewed)
  {
  }

  /** Requests to the authentication endpoints are never retried, whatever
      their status. */
  lemma AuthPathsNeverRetried(url: string, bearer: Option<string>, store: Store, first: int,
                              refresh: RefreshReply, retry: RetryReply)
    requires Contains(url, "/auth/")
    ensures FetchWithRetry(url, bearer, store, first, refresh, retry).sent == [Api(url, bearer)]
  {
  }

  // ---------------------------------------------------------------------
  // Display helpers
  // ---------------------------------------------------------------------

  const DefaultColor := "bg-gray-100 text-gray-800"

  /** `getStatutColor` on a status code. */
  function StatutColor(code: string): (r: string)
    ensures forall s :: code == Statuts.Name(s) ==> r == Statuts.CssClass(s)
    ensures (forall s :: code != Statuts.Name(s)) ==> r == DefaultColor
  {
    if code == Statuts.Name(Statuts.Nouveau) then Statuts.CssClass(Statuts.Nouveau)
    else if code == Statuts.Name(Statuts.Assigne) then Statuts.CssClass(Statuts.Assigne)
    else if code == Statuts.Name(Statuts.EnCours) then Statuts.CssClass(Statuts.EnCours)
    else if code == Statuts.Name(Statuts.Converti) then Statuts.CssClass(Statuts.Converti)
    else if code == Statuts.Name(Statuts.Abandonne) then Statuts.CssClass(Statuts.Abandonne)
    else DefaultColor
  }

  /** The five status codes get five different classes, none of them the
      default one. */
  lemma StatutColorsDistinct(a: Statuts.Statut, b: Statuts.Statut)
    ensures StatutColor(Statuts.Name(a)) != DefaultColor
    ensures StatutColor(Statuts.Name(a)) == StatutColor(Statuts.Name(b)) ==> a == b
  {
    assert StatutColor(Statuts.Name(a)) == Statuts.CssClass(a);
    assert StatutColor(Statuts.Name(b)) == Statuts.CssClass(b);
    if Statuts.CssClass(a) == Statuts.CssClass(b) {
      Statuts.CssClassInjective(a, b);
    }
    DefaultColorUnused(a);
  }

  /** No status is drawn with the default class. */
  lemma DefaultColorUnused(s: Statuts.Statut)
    ensures Statuts.CssClass(s) != DefaultColor
  {
    var c := Statuts.CssClass(s);
    match s
    case Converti => assert c[5] != DefaultColor[5];
    case _ => assert c[3] != DefaultColor[3];
  }

  const DefaultIcon := "\U{1F4DD}"

  /** `getTypeProspectionIcon` on a category code. */
  function TypeIcon(code: string): (r: string)
    ensures code == ProspectionTypes.Name(ProspectionTypes.PlanningAgent) ==> r == "\U{1F4C5}"
    ensures code == ProspectionTypes.Name(ProspectionTypes.CampagneProspection) ==> r == "\U{1F4E2}"
    ensures code == ProspectionTypes.Name(ProspectionTypes.EvenementCulturel) ==> r == "\U{1F3AD}"
    ensures ProspectionTypes.FromName(code).None? ==> r == DefaultIcon
  {
    match ProspectionTypes.FromName(code)
    case Some(t) =>
      (match t
       case PlanningAgent => "\U{1F4C5}"
       case CampagneProspection => "\U{1F4E2}"
       case EvenementCulturel => "\U{1F3AD}")
    case None => DefaultIcon
  }

  /** Each category has its own icon, distinct from the default one. */
  lemma TypeIconsDistinct(a: ProspectionTypes.TypeProspection, b: ProspectionTypes.TypeProspection)
    ensures TypeIcon(ProspectionTypes.Name(a)) != DefaultIcon
    ensures TypeIcon(ProspectionTypes.Name(a)) == TypeIcon(ProspectionTypes.Name(b)) ==> a == b
  {
  }
}

=== FILE: collections.dfy ===
/** Generic facts about sequences used by several services: first
    occurrence, removal of the first occurrence, absence of duplicates,
    and the set of a sequence's elements. */
module Collections {
  import opened Wrappers

  /** Index of the first element of `xs` equal to `x`. */
  function FirstIndex<T(==)>(xs: seq<T>, x: T): (i: nat)
    requires x in xs
    ensures i < |xs| && xs[i] == x && x !in xs[..i]
  {
    if xs[0] == x then 0 else 1 + FirstIndex(xs[1..], x)
  }

  /** `xs` without its first element equal to `x` (`List.remove(Object)`). */
  function RemoveFirst<T(==)>(xs: seq<T>, x: T): (r: seq<T>)
    ensures x !in xs ==> r == xs
    ensures x in xs ==> |r| == |xs| - 1 && multiset(r) == multiset(xs) - multiset{x}
    ensures x in xs ==> r == xs[..FirstIndex(xs, x)] + xs[FirstIndex(xs, x) + 1..]
  {
    if x in xs then
      var i := FirstIndex(xs, x);
      assert xs == xs[..i] + [x] + xs[i + 1..];
      xs[..i] + xs[i + 1..]
    else
      xs
  }

  lemma RemoveFirstAppended<T>(xs: seq<T>, x: T)
    requires x !in xs
    ensures RemoveFirst(xs + [x], x) == xs
  {
    var ys := xs + [x];
    assert ys[|xs|] == x && x !in ys[..|xs|];
    FirstIndexUnique(ys, x, |xs|);
    assert ys[..|xs|] == xs;
  }

  lemma FirstIndexUnique<T>(xs: seq<T>, x: T, i: nat)
    requires i < |xs| && xs[i] == x && x !in xs[..i]
    ensures FirstIndex(xs, x) == i
  {
    var j := FirstIndex(xs, x);
    assert forall k :: 0 <= k < i ==> xs[..i][k] == xs[k];
    assert forall k :: 0 <= k < j ==> xs[..j][k] == xs[k];
  }

  /** No element occurs twice (`stream().distinct().count() == size()`). */
  predicate Distinct<T(==)>(xs: seq<T>) {
    forall i, j :: 0 <= i < j < |xs| ==> xs[i] != xs[j]
  }

  function SetOf<T>(xs: seq<T>): set<T> {
    set x | x in xs
  }

  /** A sequence has at most as many distinct values as elements, and
      exactly as many when no value repeats. */
  lemma {:induction false} SetOfCard<T>(xs: seq<T>)
    ensures |SetOf(xs)| <= |xs|
    ensures |SetOf(xs)| == |xs| <==> Distinct(xs)
  {
    if xs != [] {
      var tail := xs[1..];
      SetOfCard(tail);
      DistinctCons(xs);
      assert SetOf(xs) == {xs[0]} + SetOf(tail) by {
        assert xs == [xs[0]] + tail;
      }
      if xs[0] in tail {
        assert SetOf(xs) == SetOf(tail);
      } else {
        assert xs[0] !in SetOf(tail);
      }
    }
  }

  lemma SubsetCard<T>(a: set<T>, b: set<T>)
    requires a <= b
    ensures |a| <= |b|
  {
    assert a * b == a && a + b == b && a - b == {};
    assert |b - a| + |a - b| + |a * b| == |a + b|;
  }

  /** A subset as large as its superset is the whole superset. */
  lemma SubsetOfSameSize<T>(a: set<T>, b: set<T>)
    requires a <= b && |a| == |b|
    ensures a == b
  {
    assert a * b == a && a + b == b && a - b == {};
    assert |b - a| + |a - b| + |a * b| == |a + b|;
    assert |b - a| == 0;
  }

  /** Index of the first element failing `p`, if any. */
  function FirstFailing<T>(xs: seq<T>, p: T -> bool): (r: Option<nat>)
    ensures r.None? <==> forall i :: 0 <= i < |xs| ==> p(xs[i])
    ensures r.Some? ==> r.value < |xs| && !p(xs[r.value]) && forall j :: 0 <= j < r.value ==> p(xs[j])
  {
    if xs == [] then None
    else if !p(xs[0]) then Some(0)
    else match FirstFailing(xs[1..], p)
      case None => None
      case Some(k) => Some(k + 1)
  }

  /** The elements of `xs` satisfying `p`, in order. */
  function Filter<T(!new)>(xs: seq<T>, p: T -> bool): (r: seq<T>)
    ensures |r| <= |xs|
    ensures forall x :: x in r <==> x in xs && p(x)
  {
    if xs == [] then []
    else (if p(xs[0]) then [xs[0]] else []) + Filter(xs[1..], p)
  }

  /** The elements of `xs` whose flag in `mask` is set, in their order. */
  function Select<T>(xs: seq<T>, mask: seq<bool>): (r: seq<T>)
    requires |mask| == |xs|
    ensures |r| <= |xs|
  {
    if xs == [] then []
    else (if mask[0] then [xs[0]] else []) + Select(xs[1..], mask[1..])
  }

  /** `a` is `b` with some elements deleted and the rest kept in order. */
  ghost predicate SubsequenceOf<T>(a: seq<T>, b: seq<T>) {
    exists mask: seq<bool> :: |mask| == |b| && Select(b, mask) == a
  }

  /** The flags of `p` along `xs`. */
  function Mask<T>(xs: seq<T>, p: T -> bool): (m: seq<bool>)
    ensures |m| == |xs| && forall i :: 0 <= i < |xs| ==> m[i] == p(xs[i])
  {
    seq(|xs|, i requires 0 <= i < |xs| => p(xs[i]))
  }

  /** Filtering keeps exactly the elements flagged by the predicate, so the
      result is an order-preserving subsequence; a predicate that holds
      everywhere keeps everything. */
  lemma FilterIsSelect<T(!new)>(xs: seq<T>, p: T -> bool)
    ensures Filter(xs, p) == Select(xs, Mask(xs, p))
    ensures SubsequenceOf(Filter(xs, p), xs)
    ensures (forall x :: x in xs ==> p(x)) ==> Filter(xs, p) == xs
  {
    FilterSelects(xs, p);
    if forall x :: x in xs ==> p(x) {
      FilterKeepsAll(xs, p);
    }
  }

  lemma {:induction false} FilterSelects<T(!new)>(xs: seq<T>, p: T -> bool)
    ensures Filter(xs, p) == Select(xs, Mask(xs, p))
  {
    if xs != [] {
      FilterSelects(xs[1..], p);
      assert Mask(xs, p)[1..] == Mask(xs[1..], p);
    }
  }

  lemma {:induction false} FilterKeepsAll<T(!new)>(xs: seq<T>, p: T -> bool)
    requires forall x :: x in xs ==> p(x)
    ensures Filter(xs, p) == xs
  {
    if xs != [] {
      assert xs[0] in xs;
      assert forall x :: x in xs[1..] ==> x in xs;
      FilterKeepsAll(xs[1..], p);
      assert xs == [xs[0]] + xs[1..];
    }
  }

  /** `xs` with every repeated element dropped after its first occurrence. */
  function Dedupe<T(==,!new)>(xs: seq<T>): (r: seq<T>)
    ensures Distinct(r)
    ensures forall x :: x in r <==> x in xs
    decreases |xs|
  {
    if xs == [] then []
    else
      var rest := Dedupe(xs[..|xs| - 1]);
      var last := xs[|xs| - 1];
      assert xs == xs[..|xs| - 1] + [last];
      if last in rest then rest else rest + [last]
  }

  lemma DistinctCons<T>(xs: seq<T>)
    requires xs != []
    ensures Distinct(xs) <==> xs[0] !in xs[1..] && Distinct(xs[1..])
  {
    var tl := xs[1..];
    assert forall i :: 0 <= i < |tl| ==> tl[i] == xs[i + 1];
    if xs[0] !in tl && Distinct(tl) {
      forall i, j | 0 <= i < j < |xs| ensures xs[i] != xs[j] {
        if i == 0 { assert xs[j] == tl[j - 1]; }
      }
    }
  }

  /** A sequence has no repeated element exactly when every value occurs
      in it at most once. */
  lemma {:induction false} DistinctMultiset<T>(xs: seq<T>)
    ensures Distinct(xs) <==> forall x :: multiset(xs)[x] <= 1
  {
    if xs != [] {
      var h, tl := xs[0], xs[1..];
      DistinctMultiset(tl);
      DistinctCons(xs);
      assert xs == [h] + tl;
      assert multiset(xs) == multiset{h} + multiset(tl);
      if forall x :: multiset(xs)[x] <= 1 {
        assert multiset(xs)[h] == 1 + multiset(tl)[h];
        assert multiset(tl)[h] == 0;
        assert forall x :: multiset(tl)[x] <= multiset(xs)[x];
      }
      if Distinct(xs) {
        assert h !in multiset(tl);
      }
    }
  }

  /** Reordering keeps a sequence free of repetitions. */
  lemma DistinctPermutation<T>(a: seq<T>, b: seq<T>)
    requires multiset(a) == multiset(b) && Distinct(a)
    ensures Distinct(b)
  {
    DistinctMultiset(a);
    DistinctMultiset(b);
  }
}

=== FILE: intakeform.dfy ===
/** The agent's intake page (`NouvelleProspection`): the client copy of
    the questionnaire, its validation before submission, the edits of an
    answer (including the comma-joined encoding of multiple selections),
    the submission outcome and the reset button. React state updates are
    taken as immediate transitions on a `FormState` value. */
module IntakeForm {
  import opened Wrappers
  import opened Strings
  import opened Patterns
  import QuestionTypes
  import JavaInt

  /** The eight question types the page declares. */
  datatype ClientType = CText | CNumber | CEmail | CPhone | CChoice | CMultipleChoice | CDate | CTextarea

  const AllClientTypes: seq<ClientType> :=
    [CText, CNumber, CEmail, CPhone, CChoice, CMultipleChoice, CDate, CTextarea]

  /** The server type a client type names, when the server has it. */
  function ServerType(c: ClientType): (r: Option<QuestionTypes.QuestionType>)
    ensures r.Some? ==> QuestionTypes.Name(r.value) == ClientName(c)
  {
    match c
    case CText => Some(QuestionTypes.Text)
    case CNumber => Some(QuestionTypes.Number)
    case CPhone => Some(QuestionTypes.Phone)
    case CChoice => Some(QuestionTypes.Choice)
    case CMultipleChoice => Some(QuestionTypes.MultipleChoice)
    case CEmail => None
    case CDate => None
    case CTextarea => None
  }

  function ClientName(c: ClientType): string {
    match c
    case CText => "TEXT"
    case CNumber => "NUMBER"
    case CEmail => "EMAIL"
    case CPhone => "PHONE"
    case CChoice => "CHOICE"
    case CMultipleChoice => "MULTIPLE_CHOICE"
    case CDate => "DATE"
    case CTextarea => "TEXTAREA"
  }

  /** The client type for each server type. */
  function FromServer(t: QuestionTypes.QuestionType): (c: ClientType)
    ensures ServerType(c) == Some(t)
  {
    match t
    case Text => CText
    case Number => CNumber
    case Phone => CPhone
    case Choice => CChoice
    case MultipleChoice => CMultipleChoice
  }

  /** The client knows eight types; exactly three of them (EMAIL, DATE,
      TEXTAREA) have no server counterpart, and each of the other five names
      one server type. */
  lemma ClientTypesExceedServerTypes()
    ensures |AllClientTypes| == 8
    ensures forall c :: c in AllClientTypes
    ensures forall c :: ServerType(c).None? <==> c in [CEmail, CDate, CTextarea]
    ensures forall c :: ServerType(c).Some? ==> FromServer(ServerType(c).value) == c
  {
    forall c: ClientType ensures c in AllClientTypes {
      match c
      case CText => assert AllClientTypes[0] == c;
      case CNumber => assert AllClientTypes[1] == c;
      case CEmail => assert AllClientTypes[2] == c;
      case CPhone => assert AllClientTypes[3] == c;
      case CChoice => assert AllClientTypes[4] == c;
      case CMultipleChoice => assert AllClientTypes[5] == c;
      case CDate => assert AllClientTypes[6] == c;
      case CTextarea => assert AllClientTypes[7] == c;
    }
  }

  /** A question as the form endpoint delivers it. */
  datatype ClientQuestion = ClientQuestion(id: int, qtype: ClientType, obligatoire: bool, options: seq<string>)

  predicate IdsDistinct(qs: seq<ClientQuestion>) {
    forall i, j :: 0 <= i < j < |qs| ==> qs[i].id != qs[j].id
  }

  /** The page's state: answers by question id, the chosen category (empty
      when none), the comment, the error messages by key, and the success
      banner. */
  datatype FormState = FormState(
    reponses: map<int, string>,
    typeProspection: string,
    commentaire: string,
    errors: map<string, string>,
    success: bool)

  const Initial := FormState(map[], "", "", map[], false)

  // ---------------------------------------------------------------------
  // Error keys and messages
  // ---------------------------------------------------------------------

  const KeyType := "typeProspection"
  const KeyGeneral := "general"

  /** The key under which a question's error is stored. */
  function ErrorKey(id: int): (k: string)
    ensures k != KeyType && k != KeyGeneral
  {
    assert ("question_" + IntToString(id))[0] == 'q';
    "question_" + IntToString(id)
  }

  lemma ErrorKeyInjective(a: int, b: int)
    requires ErrorKey(a) == ErrorKey(b)
    ensures a == b
  {
    assert IntToString(a) == ErrorKey(a)[9..];
    assert IntToString(b) == ErrorKey(b)[9..];
    IntToStringInjective(a, b);
  }

  const MsgTypeObligatoire := "Le type de prospection est obligatoire"
  const MsgQuestionObligatoire := "Cette question est obligatoire"
  const MsgEmailInvalide := "Format email invalide"
  const MsgPhoneInvalide := "Le num\U{E9}ro doit commencer par 06 ou 07 et contenir 10 chiffres"
  const MsgNombreInvalide := "Veuillez saisir un nombre valide"
  const MsgEnregistrement := "Erreur lors de l'enregistrement"
  const MsgConnexion := "Erreur de connexion"

  // ---------------------------------------------------------------------
  // validerFormulaire
  // ---------------------------------------------------------------------

  /** No answer, or an answer that is empty or only blanks (`!valeur ||
      valeur.trim() === ''`). */
  predicate Unanswered(rep: map<int, string>, id: int) {
    id !in rep || IsJsBlank(rep[id])
  }

  /** The error, if any, the page records for one question. Only required
      questions are checked, and the format checks see the untrimmed value. */
  function QuestionError(q: ClientQuestion, rep: map<int, string>): (r: Option<string>)
    ensures !q.obligatoire ==> r.None?
    ensures q.obligatoire && Unanswered(rep, q.id) ==> r == Some(MsgQuestionObligatoire)
    ensures q.obligatoire && !Unanswered(rep, q.id) ==>
              && (r == Some(MsgEmailInvalide) <==> q.qtype == CEmail && !IsEmail(rep[q.id]))
              && (r == Some(MsgPhoneInvalide) <==> q.qtype == CPhone && !IsPhone(rep[q.id]))
              && (r == Some(MsgNombreInvalide) <==> q.qtype == CNumber && !IsDigits(rep[q.id]))
              && (r.None? <==> !(q.qtype == CEmail && !IsEmail(rep[q.id])) && !(q.qtype == CPhone && !IsPhone(rep[q.id]))
                                && !(q.qtype == CNumber && !IsDigits(rep[q.id])))
  {
    if !q.obligatoire then None
    else if Unanswered(rep, q.id) then Some(MsgQuestionObligatoire)
    else
      var v := rep[q.id];
      if q.qtype == CEmail && !IsEmail(v) then Some(MsgEmailInvalide)
      else if q.qtype == CPhone && !IsPhone(v) then Some(MsgPhoneInvalide)
      else if q.qtype == CNumber && !IsDigits(v) then Some(MsgNombreInvalide)
      else None
  }

  predicate Flagged(q: ClientQuestion, rep: map<int, string>) {
    QuestionError(q, rep).Some?
  }

  /** The question errors written over `base`, one question after another. */
  function CollectErrors(base: map<string, string>, qs: seq<ClientQuestion>, rep: map<int, string>)
    : (r: map<string, string>)
    ensures forall k :: k in r <==>
              k in base || exists i :: 0 <= i < |qs| && Flagged(qs[i], rep) && k == ErrorKey(qs[i].id)
    decreases |qs|
  {
    if qs == [] then base
    else
      var init := qs[..|qs| - 1];
      var last := qs[|qs| - 1];
      var e := CollectErrors(base, init, rep);
      assert forall i :: 0 <= i < |init| ==> init[i] == qs[i];
      match QuestionError(last, rep)
      case None => e
      case Some(msg) => e[ErrorKey(last.id) := msg]
  }

  /** Entries of `base` that no question overwrites keep their value. */
  lemma {:induction false} CollectErrorsKeepsBase(base: map<string, string>, qs: seq<ClientQuestion>, rep: map<int, string>, k: string)
    requires k in base && forall i :: 0 <= i < |qs| ==> ErrorKey(qs[i].id) != k
    ensures CollectErrors(base, qs, rep)[k] == base[k]
    decreases |qs|
  {
    if qs != [] {
      var init := qs[..|qs| - 1];
      assert forall i :: 0 <= i < |init| ==> init[i] == qs[i];
      CollectErrorsKeepsBase(base, init, rep, k);
    }
  }

  /** One more question either leaves the errors as they were or writes
      its own entry. */
  lemma CollectErrorsStep(base: map<string, string>, qs: seq<ClientQuestion>, rep: map<int, string>)
    requires qs != []
    ensures var e := CollectErrors(base, qs[..|qs| - 1], rep);
            var last := qs[|qs| - 1];
            CollectErrors(base, qs, rep)
              == if Flagged(last, rep) then e[ErrorKey(last.id) := QuestionError(last, rep).value] else e
  {
  }

  /** With distinct ids, each flagged question's entry holds its own message. */
  lemma {:induction false} CollectErrorsOwnMessage(base: map<string, string>, qs: seq<ClientQuestion>, rep: map<int, string>, i: nat)
    requires IdsDistinct(qs) && i < |qs| && Flagged(qs[i], rep)
    ensures CollectErrors(base, qs, rep)[ErrorKey(qs[i].id)] == QuestionError(qs[i], rep).value
    decreases |qs|
  {
    var init := qs[..|qs| - 1];
    var last := qs[|qs| - 1];
    var e := CollectErrors(base, init, rep);
    var r := CollectErrors(base, qs, rep);
    var k := ErrorKey(qs[i].id);
    CollectErrorsStep(base, qs, rep);
    if i < |init| {
      assert init[i] == qs[i];
      assert IdsDistinct(init) by {
        assert forall a :: 0 <= a < |init| ==> init[a] == qs[a];
      }
      CollectErrorsOwnMessage(base, init, rep, i);
      assert k in e && e[k] == QuestionError(qs[i], rep).value;
      assert k != ErrorKey(last.id) by {
        assert qs[i].id != last.id;
        if k == ErrorKey(last.id) {
          ErrorKeyInjective(qs[i].id, last.id);
        }
      }
      assert r[k] == e[k];
    } else {
      assert qs[i] == last;
      assert r == e[k := QuestionError(last, rep).value];
    }
  }

  /** `validerFormulaire`: the new error map replaces the old one, and the
      result is whether it is empty. A missing form checks no question. */
  function ValiderFormulaire(s: FormState, formulaire: Option<seq<ClientQuestion>>): (r: (bool, FormState))
    ensures r.1 == s.(errors := r.1.errors)
    ensures KeyType in r.1.errors <==> s.typeProspection == ""
    ensures KeyType in r.1.errors ==> r.1.errors[KeyType] == MsgTypeObligatoire
    ensures KeyGeneral !in r.1.errors
    ensures r.0 <==> r.1.errors == map[]
  {
    var qs := formulaire.GetOr([]);
    var base := if s.typeProspection == "" then map[KeyType := MsgTypeObligatoire] else map[];
    var errors := CollectErrors(base, qs, s.reponses);
    assert KeyType in base ==> errors[KeyType] == MsgTypeObligatoire by {
      if KeyType in base {
        CollectErrorsKeepsBase(base, qs, s.reponses, KeyType);
      }
    }
    var ok := |errors| == 0;
    assert ok <==> errors == map[] by {
      if !ok {
        assert errors.Keys != {};
      }
    }
    (ok, s.(errors := errors))
  }

  /** The form passes exactly when a category is chosen and no question of
      the form is flagged. */
  lemma ValidationPassesIff(s: FormState, formulaire: Option<seq<ClientQuestion>>)
    ensures ValiderFormulaire(s, formulaire).0 <==>
              s.typeProspection != "" &&
              (formulaire.Some? ==> forall i :: 0 <= i < |formulaire.value| ==> !Flagged(formulaire.value[i], s.reponses))
  {
    var qs := formulaire.GetOr([]);
    var errors := ValiderFormulaire(s, formulaire).1.errors;
    if s.typeProspection != "" && forall i :: 0 <= i < |qs| ==> !Flagged(qs[i], s.reponses) {
      assert forall k :: k !in errors;
    }
    if exists i :: 0 <= i < |qs| && Flagged(qs[i], s.reponses) {
      var i :| 0 <= i < |qs| && Flagged(qs[i], s.reponses);
      assert ErrorKey(qs[i].id) in errors;
    }
  }

  /** With distinct question ids, each required question has its own error
      exactly when it is unanswered or fails its format check, and an
      optional question never has one. */
  lemma ValidationErrorsPerQuestion(s: FormState, qs: seq<ClientQuestion>, i: nat)
    requires IdsDistinct(qs) && i < |qs|
    ensures var errors := ValiderFormulaire(s, Some(qs)).1.errors;
            && (ErrorKey(qs[i].id) in errors <==> Flagged(qs[i], s.reponses))
            && (Flagged(qs[i], s.reponses) ==> errors[ErrorKey(qs[i].id)] == QuestionError(qs[i], s.reponses).value)
            && (!qs[i].obligatoire ==> ErrorKey(qs[i].id) !in errors)
            && (qs[i].obligatoire && Unanswered(s.reponses, qs[i].id) ==> errors[ErrorKey(qs[i].id)] == MsgQuestionObligatoire)
  {
    var errors := ValiderFormulaire(s, Some(qs)).1.errors;
    if Flagged(qs[i], s.reponses) {
      CollectErrorsOwnMessage(if s.typeProspection == "" then map[KeyType := MsgTypeObligatoire] else map[], qs, s.reponses, i);
    }
    if ErrorKey(qs[i].id) in errors {
      var j :| 0 <= j < |qs| && Flagged(qs[j], s.reponses) && ErrorKey(qs[i].id) == ErrorKey(qs[j].id);
      ErrorKeyInjective(qs[i].id, qs[j].id);
      assert i == j;
    }
  }

  /** The client and the server disagree about numbers: the client wants
      unsigned digits of any length, the server a signed 32-bit value. */
  lemma NumberCheckDisagreement()
    ensures !IsDigits("-7") && JavaInt.ParseInt("-7").Some?
    ensures IsDigits("2147483648") && JavaInt.ParseInt("2147483648").None?
  {
    JavaInt.ParseIntAcceptsOptionalSign();
    JavaInt.ParseIntBounds();
    assert !IsAsciiDigit("-7"[0]);
  }

  /** A malformed answer to an optional question passes the page. */
  lemma OptionalQuestionsUnchecked(s: FormState, q: ClientQuestion)
    requires s.typeProspection != "" && !q.obligatoire
    ensures ValiderFormulaire(s, Some([q])).0
  {
  }

  // ---------------------------------------------------------------------
  // Answer edits
  // ---------------------------------------------------------------------

  /** `handleReponseChange`: the answer is replaced and its error, if any,
      dropped. */
  function HandleReponseChange(s: FormState, id: int, v: string): (r: FormState)
    ensures r.reponses.Keys == s.reponses.Keys + {id} && r.reponses[id] == v
    ensures forall j :: j in s.reponses && j != id ==> r.reponses[j] == s.reponses[j]
    ensures r.errors.Keys == s.errors.Keys - {ErrorKey(id)}
    ensures forall k :: k in r.errors ==> r.errors[k] == s.errors[k]
    ensures r.typeProspection == s.typeProspection && r.commentaire == s.commentaire && r.success == s.success
  {
    var errors := if ErrorKey(id) in s.errors then s.errors - {ErrorKey(id)} else s.errors;
    s.(reponses := s.reponses[id := v], errors := errors)
  }

  /** The selections encoded in a multiple-choice answer (`valeur ?
      valeur.split(',') : []`). */
  function Selections(v: string): (r: seq<string>)
    ensures forall i :: 0 <= i < |r| ==> ',' !in r[i]
    ensures v == "" <==> r == []
  {
    if v == "" then [] else SplitAll(v, ',')
  }

  /** The new answer when the checkbox of option `opt` changes to `checked`. */
  function Toggle(v: string, opt: string, checked: bool): string {
    var sel := Selections(v);
    Join(if checked then sel + [opt] else Without(sel, opt), ",")
  }

  /** Joining comma-free pieces and reading them back gives the pieces,
      except that a lone empty piece reads back as no selection. */
  lemma SelectionsOfJoin(xs: seq<string>)
    requires forall i :: 0 <= i < |xs| ==> ',' !in xs[i]
    ensures Selections(Join(xs, ",")) == if xs == [] || xs == [""] then [] else xs
  {
    if |xs| >= 2 {
      var s := Join(xs, ",");
      assert s == xs[0] + "," + Join(xs[1..], ",");
      assert s[|xs[0]|] == ',';
      SplitAllJoin(xs, ',');
    } else if |xs| == 1 && xs[0] != "" {
      assert Join(xs, ",") == xs[0];
    }
  }

  /** Checking an option appends it to the encoded answer. */
  lemma ToggleOnAppends(v: string, opt: string)
    ensures Toggle(v, opt, true) == if v == "" then opt else v + "," + opt
  {
    if v != "" {
      JoinAppend(SplitAll(v, ','), opt, ",");
      JoinSplitAll(v, ',');
    }
  }

  /** Unchecking an option removes every occurrence of it, keeps every
      other non-empty selection, and adds none. */
  lemma ToggleOffRemoves(v: string, opt: string)
    ensures opt !in Selections(Toggle(v, opt, false))
    ensures forall x :: x != opt && x != "" ==> (x in Selections(Toggle(v, opt, false)) <==> x in Selections(v))
  {
    var w := Without(Selections(v), opt);
    assert forall i :: 0 <= i < |w| ==> ',' !in w[i] by {
      forall i | 0 <= i < |w| ensures ',' !in w[i] {
        assert w[i] in w;
      }
    }
    SelectionsOfJoin(w);
  }

  /** For a comma-free option not yet selected, checking then unchecking
      gives the answer back. */
  lemma ToggleOnOffRestores(v: string, opt: string)
    requires ',' !in opt && opt !in Selections(v)
    ensures Toggle(Toggle(v, opt, true), opt, false) == v
  {
    var sel := Selections(v);
    var on := Toggle(v, opt, true);
    assert forall i :: 0 <= i < |sel + [opt]| ==> ',' !in (sel + [opt])[i];
    SelectionsOfJoin(sel + [opt]);
    if sel + [opt] == [""] {
      assert v == "" && on == "";
    } else {
      assert Selections(on) == sel + [opt];
      WithoutAppend(sel, opt);
      if v != "" { JoinSplitAll(v, ','); }
    }
  }

  // ---------------------------------------------------------------------
  // Submission and reset
  // ---------------------------------------------------------------------

  /** The request body: the comment is trimmed, and sent as `null` when
      nothing is left. */
  datatype Payload = Payload(typeProspection: string, reponses: map<int, string>, commentaire: Option<string>)

  /** The server's reply as the page reads it, or a failure to reach the
      server or to read its body. */
  datatype Reply =
    | Reply(ok: bool, status: int, success: bool, kind: Option<string>, message: Option<string>)
    | Unreachable

  predicate IsDuplicateWarning(reply: Reply) {
    reply.Reply? && !(reply.ok && reply.success) && reply.status == 409 && reply.kind == Some("DUPLICATE_WARNING")
  }

  /** `soumettre`: validation first; on success of the request the answers,
      the category and the comment are cleared and the banner shown; a
      duplicate warning changes nothing; any other failure becomes the
      general error. */
  function Soumettre(s: FormState, formulaire: Option<seq<ClientQuestion>>, reply: Reply)
    : (r: (FormState, Option<Payload>))
    ensures !ValiderFormulaire(s, formulaire).0 ==> r == (ValiderFormulaire(s, formulaire).1, None)
    ensures ValiderFormulaire(s, formulaire).0 ==>
              && r.1.Some?
              && r.1.value.typeProspection == s.typeProspection && r.1.value.reponses == s.reponses
              && (r.1.value.commentaire.None? <==> IsJsBlank(s.commentaire))
              && (r.1.value.commentaire.Some? ==> r.1.value.commentaire.value == JsTrim(s.commentaire))
    ensures ValiderFormulaire(s, formulaire).0 && reply.Reply? && reply.ok && reply.success ==>
              r.0 == FormState(map[], "", "", map[], true)
    ensures ValiderFormulaire(s, formulaire).0 && IsDuplicateWarning(reply) ==>
              r.0 == s.(errors := map[])
    ensures ValiderFormulaire(s, formulaire).0 && reply.Reply? && !(reply.ok && reply.success) && !IsDuplicateWarning(reply) ==>
              r.0 == s.(errors := map[KeyGeneral := if reply.message.Some? && reply.message.value != "" then reply.message.value else MsgEnregistrement])
    ensures ValiderFormulaire(s, formulaire).0 && reply.Unreachable? ==>
              r.0 == s.(errors := map[KeyGeneral := MsgConnexion])
  {
    var (ok, validated) := ValiderFormulaire(s, formulaire);
    if !ok then (validated, None)
    else
      var comment := JsTrim(s.commentaire);
      var payload := Payload(s.typeProspection, s.reponses, if comment == "" then None else Some(comment));
      match reply
      case Unreachable => (validated.(errors := map[KeyGeneral := MsgConnexion]), Some(payload))
      case Reply(okStatus, status, success, kind, message) =>
        if okStatus && success then
          (validated.(success := true, reponses := map[], typeProspection := "", commentaire := ""), Some(payload))
        else if status == 409 && kind == Some("DUPLICATE_WARNING") then
          (validated, Some(payload))
        else
          var text := if message.Some? && message.value != "" then message.value else MsgEnregistrement;
          (validated.(errors := map[KeyGeneral := text]), Some(payload))
  }

  /** A successful submission leaves a form that cannot be submitted again
      as is: the category must be chosen anew. */
  lemma SubmittedFormMustBeRefilled(s: FormState, formulaire: Option<seq<ClientQuestion>>, reply: Reply)
    requires ValiderFormulaire(s, formulaire).0 && reply.Reply? && reply.ok && reply.success
    ensures Soumettre(Soumettre(s, formulaire, reply).0, formulaire, reply).1.None?
  {
  }

  /** The reset button: answers, category, comment and errors cleared. */
  function Reinitialiser(s: FormState): (r: FormState)
    ensures r.reponses == map[] && r.typeProspection == "" && r.commentaire == "" && r.errors == map[]
    ensures r.success == s.success
  {
    s.(reponses := map[], typeProspection := "", commentaire := "", errors := map[])
  }

  /** After a reset, validation fails on the category and flags every
      required question. */
  lemma ResetThenValidate(s: FormState, qs: seq<ClientQuestion>, i: nat)
    requires IdsDistinct(qs) && i < |qs| && qs[i].obligatoire
    ensures var r := ValiderFormulaire(Reinitialiser(s), Some(qs));
            !r.0 && r.1.errors[KeyType] == MsgTypeObligatoire &&
            r.1.errors[ErrorKey(qs[i].id)] == MsgQuestionObligatoire
  {
    ValidationErrorsPerQuestion(Reinitialiser(s), qs, i);
  }
}

=== FILE: javaint.dfy ===
/** Java's `Integer.parseInt(String)`: an optional `+` or `-` followed by
    at least one decimal digit, the value within the 32-bit signed range;
    anything else throws `NumberFormatException` (here: `None`). */
module JavaInt {
  import opened Wrappers
  import opened Strings

  const MinInt: int := -0x8000_0000
  const MaxInt: int := 0x7FFF_FFFF

  predicate AllDigits(s: string) {
    forall i :: 0 <= i < |s| ==> IsAsciiDigit(s[i])
  }

  /** Value of a string of decimal digits, most significant first. */
  function DigitsValue(s: string): (v: nat)
    requires AllDigits(s)
  {
    if s == [] then 0
    else 10 * DigitsValue(s[..|s| - 1]) + (s[|s| - 1] as int - '0' as int)
  }

  function ParseInt(s: string): (r: Option<int>)
    ensures r.Some? ==> MinInt <= r.value <= MaxInt
    ensures r.Some? ==> |s| >= 1 && (IsAsciiDigit(s[0]) || s[0] == '-' || s[0] == '+')
    ensures r.Some? ==> AllDigits(s[1..]) && |s| >= (if IsAsciiDigit(s[0]) then 1 else 2)
    ensures r.Some? && r.value < 0 ==> s[0] == '-'
    ensures r.Some? <==>
              || (|s| >= 1 && AllDigits(s) && DigitsValue(s) <= MaxInt)
              || (|s| >= 2 && s[0] == '+' && AllDigits(s[1..]) && DigitsValue(s[1..]) <= MaxInt)
              || (|s| >= 2 && s[0] == '-' && AllDigits(s[1..]) && DigitsValue(s[1..]) <= -MinInt)
    ensures r.Some? && AllDigits(s) ==> r.value == DigitsValue(s)
    ensures r.Some? && s[0] == '+' ==> r.value == DigitsValue(s[1..])
    ensures r.Some? && s[0] == '-' ==> r.value == -(DigitsValue(s[1..]) as int)
  {
    if |s| == 0 then None
    else
      var k := if s[0] == '-' || s[0] == '+' then 1 else 0;
      var digits := s[k..];
      if |digits| == 0 || !AllDigits(digits) then None
      else
        var v: int := DigitsValue(digits);
        var n := if s[0] == '-' then -v else v;
        if MinInt <= n <= MaxInt then Some(n) else None
  }

  /** Decimal rendering then parsing gives the number back, for every
      non-negative value in range. */
  lemma {:induction false} DigitsValueOfNatToString(n: nat)
    ensures AllDigits(NatToString(n)) && DigitsValue(NatToString(n)) == n
  {
    var s := NatToString(n);
    if n >= 10 {
      DigitsValueOfNatToString(n / 10);
      assert s[..|s| - 1] == NatToString(n / 10);
    }
  }

  lemma ParseIntOfNatToString(n: nat)
    requires n <= MaxInt
    ensures ParseInt(NatToString(n)) == Some(n)
  {
    DigitsValueOfNatToString(n);
    var s := NatToString(n);
    assert s[0..] == s;
  }

  lemma ParseIntAcceptsOptionalSign()
    ensures ParseInt("42") == Some(42)
    ensures ParseInt("-7") == Some(-7)
    ensures ParseInt("+7") == Some(7)
  {
    assert "42"[0..] == "42" && "42"[..1] == "4" && "4"[..0] == "";
    assert DigitsValue("4") == 4;
    assert DigitsValue("42") == 42;
    assert "-7"[1..] == "7";
    assert "+7"[1..] == "7";
  }

  /** Leading zeros and a signed zero are accepted, as in Java. */
  lemma ParseIntLeadingZeros()
    ensures ParseInt("007") == Some(7)
    ensures ParseInt("-0") == Some(0)
  {
    assert "007"[..2] == "00" && "00"[..1] == "0" && "0"[..0] == "";
    assert DigitsValue("007") == 7;
    assert "-0"[1..] == "0";
  }

  lemma ParseIntRejects()
    ensures ParseInt("") == None
    ensures ParseInt("-") == None
    ensures ParseInt("12a") == None
    ensures ParseInt(" 1") == None
  {
    assert !IsAsciiDigit("12a"[2]);
    assert !IsAsciiDigit(" 1"[0]);
  }

  lemma DigitsValueOfMax()
    ensures AllDigits("2147483647") && DigitsValue("2147483647") == MaxInt
  {
    var m := "2147483647";
    assert m[..9] == "214748364" && m[..8] == "21474836" && m[..7] == "2147483";
    assert m[..6] == "214748" && m[..5] == "21474" && m[..4] == "2147";
    assert m[..3] == "214" && m[..2] == "21" && m[..1] == "2";
    assert DigitsValue(m[..1]) == 2;
    assert m[..2][..1] == m[..1];
    assert DigitsValue(m[..2]) == 21;
    assert m[..3][..2] == m[..2];
    assert DigitsValue(m[..3]) == 214;
    assert m[..4][..3] == m[..3];
    assert DigitsValue(m[..4]) == 2147;
    assert m[..5][..4] == m[..4];
    assert DigitsValue(m[..5]) == 21474;
    assert m[..6][..5] == m[..5];
    assert DigitsValue(m[..6]) == 214748;
    assert m[..7][..6] == m[..6];
    assert DigitsValue(m[..7]) == 2147483;
    assert m[..8][..7] == m[..7];
    assert DigitsValue(m[..8]) == 21474836;
    assert m[..9][..8] == m[..8];
    assert DigitsValue(m[..9]) == 214748364;
    assert m[..9] == m[..9];
    assert DigitsValue(m) == 2147483647;
  }

  /** The 32-bit bounds are exact. */
  lemma ParseIntBounds()
    ensures ParseInt("2147483647") == Some(MaxInt)
    ensures ParseInt("-2147483648") == Some(MinInt)
    ensures ParseInt("2147483648") == None
  {
    DigitsValueOfMax();
    var m := "2147483647";
    var m2 := "2147483648";
    assert m[0..] == m && m2[0..] == m2;
    assert m2[..9] == m[..9];
    assert m[..9] == "214748364";
    var m3 := "-2147483648";
    assert m3[1..] == m2;
  }
}

=== FILE: localstore.dfy ===
/** The browser's `localStorage`, as a map from keys to strings. */
module LocalStore {
  import opened Wrappers

  type Store = map<string, string>

  /** `getItem(key)`: `None` stands for `null`. */
  function GetItem(store: Store, key: string): (r: Option<string>)
    ensures r.Some? <==> key in store
    ensures r.Some? ==> r.value == store[key]
  {
    if key in store then Some(store[key]) else None
  }

  /** `getItem(key)` read for its truthiness: present and non-empty. */
  function Item(store: Store, key: string): (r: Option<string>)
    ensures r.Some? <==> key in store && store[key] != ""
    ensures r.Some? ==> r.value == store[key]
  {
    if key in store && store[key] != "" then Some(store[key]) else None
  }

  /** Writing a key then reading it gives the value back; other keys are
      not affected; removing a key makes it read as `null`. */
  lemma SetGetRemove(store: Store, key: string, other: string, v: string)
    requires other != key
    ensures GetItem(store[key := v], key) == Some(v)
    ensures GetItem(store[key := v], other) == GetItem(store, other)
    ensures GetItem(store - {key}, key).None?
    ensures GetItem(store - {key}, other) == GetItem(store, other)
  {
  }
}

/** The older session store (`services/AuthService.ts`), still read by the
    intake page. It keeps the token under `auth_token` and the user under
    `auth_user`. */
module LegacySession {
  import opened Wrappers
  import opened LocalStore

  const KeyToken := "auth_token"
  const KeyUser := "auth_user"

  /** `saveToken`. */
  function SaveToken(store: Store, token: string): (r: Store)
    ensures GetItem(r, KeyToken) == Some(token)
    ensures forall k :: k != KeyToken ==> GetItem(r, k) == GetItem(store, k)
  {
    store[KeyToken := token]
  }

  /** `getToken`. */
  function GetToken(store: Store): Option<string> {
    GetItem(store, KeyToken)
  }

  /** `saveUser`; the serialised user is kept opaque. */
  function SaveUser(store: Store, user: string): (r: Store)
    ensures GetItem(r, KeyUser) == Some(user)
    ensures forall k :: k != KeyUser ==> GetItem(r, k) == GetItem(store, k)
  {
    store[KeyUser := user]
  }

  /** `getUser`: `null` unless a non-empty value is stored. */
  function GetUser(store: Store): Option<string> {
    Item(store, KeyUser)
  }

  /** `logout`: the two keys of this store are removed, nothing else. */
  function Logout(store: Store): (r: Store)
    ensures KeyToken !in r && KeyUser !in r
    ensures forall k :: k != KeyToken && k != KeyUser ==> GetItem(r, k) == GetItem(store, k)
  {
    store - {KeyToken, KeyUser}
  }

  /** `isAuthenticated`: `!!getToken()`. */
  predicate IsAuthenticated(store: Store) {
    Item(store, KeyToken).Some?
  }

  /** A saved token is read back; the session counts as authenticated
      exactly when that token is non-empty. */
  lemma SaveThenGet(store: Store, token: string)
    ensures GetToken(SaveToken(store, token)) == Some(token)
    ensures IsAuthenticated(SaveToken(store, token)) <==> token != ""
  {
  }

  /** After `logout` no session and no user remain, and the tokens of the
      newer store are left where they were. */
  lemma LogoutEndsSession(store: Store)
    ensures !IsAuthenticated(Logout(store)) && GetUser(Logout(store)).None?
    ensures GetItem(Logout(store), "access_token") == GetItem(store, "access_token")
    ensures GetItem(Logout(store), "refresh_token") == GetItem(store, "refresh_token")
  {
  }
}

=== FILE: mesprospections.dfy ===
/** The agent's record list (`MesProspections.tsx`): the search box and the
    two select filters, and the "n sur m" counter. Records are the fields
    the filter reads; optional fields are `None` when undefined. */
module MyRecords {
  import opened Wrappers
  import opened Strings
  import opened Collections

  datatype Listed = Listed(
    id: int,
    typeProspection: string,
    statut: string,
    nomProspect: Option<string>,
    prenomProspect: Option<string>,
    telephoneProspect: Option<string>,
    emailProspect: Option<string>)

  /** `field?.toLowerCase().includes(term.toLowerCase())`: an undefined
      field never matches. */
  predicate MatchesIgnoringCase(field: Option<string>, term: string) {
    field.Some? && Contains(ToLower(field.value), ToLower(term))
  }

  /** The search test: an empty term matches everything; otherwise the
      names and e-mail match without regard to case, the phone with it. */
  predicate MatchSearch(p: Listed, term: string) {
    || term == ""
    || MatchesIgnoringCase(p.nomProspect, term)
    || MatchesIgnoringCase(p.prenomProspect, term)
    || (p.telephoneProspect.Some? && Contains(p.telephoneProspect.value, term))
    || MatchesIgnoringCase(p.emailProspect, term)
  }

  /** A select filter: the empty choice lets everything through. */
  predicate MatchChoice(value: string, choice: string) {
    choice == "" || value == choice
  }

  predicate Shown(p: Listed, term: string, statut: string, typ: string) {
    MatchSearch(p, term) && MatchChoice(p.statut, statut) && MatchChoice(p.typeProspection, typ)
  }

  /** `prospectionsFiltrees`. */
  function Filtered(ps: seq<Listed>, term: string, statut: string, typ: string): (r: seq<Listed>)
    ensures forall p :: p in r <==> p in ps && Shown(p, term, statut, typ)
    ensures forall p :: p in r && statut != "" ==> p.statut == statut
    ensures forall p :: p in r && typ != "" ==> p.typeProspection == typ
  {
    Filter(ps, p => Shown(p, term, statut, typ))
  }

  /** The list shown keeps the loaded order, and with no search and no
      filter it is the whole loaded list. */
  lemma FilteredKeepsOrder(ps: seq<Listed>, term: string, statut: string, typ: string)
    ensures SubsequenceOf(Filtered(ps, term, statut, typ), ps)
    ensures Filtered(ps, "", "", "") == ps
  {
    FilterIsSelect(ps, p => Shown(p, term, statut, typ));
    FilterIsSelect(ps, p => Shown(p, "", "", ""));
  }

  /** The counter: records shown out of records loaded. */
  function Counter(ps: seq<Listed>, term: string, statut: string, typ: string): (r: (nat, nat))
    ensures r.0 <= r.1 && r.1 == |ps|
    ensures r.0 == |ps| <== term == "" && statut == "" && typ == ""
  {
    FilteredKeepsOrder(ps, term, statut, typ);
    (|Filtered(ps, term, statut, typ)|, |ps|)
  }

  /** Lower-casing twice is lower-casing once. */
  lemma ToLowerIdempotent(s: string)
    ensures ToLower(ToLower(s)) == ToLower(s)
  {
  }

  /** For a record without a phone, the case of the search term does not
      matter. */
  lemma SearchIgnoresTermCase(p: Listed, term: string)
    requires p.telephoneProspect.None?
    ensures MatchSearch(p, term) <==> MatchSearch(p, ToLower(term))
  {
    ToLowerIdempotent(term);
  }

  /** "DUP" finds "Dupont" by name, "1234" finds the phone "0612345678",
      and a record with no name, phone or e-mail matches no non-empty term. */
  lemma SearchExamples()
    ensures MatchSearch(Listed(1, "PLANNING_AGENT", "NOUVEAU", Some("Dupont"), None, None, None), "DUP")
    ensures MatchSearch(Listed(2, "PLANNING_AGENT", "NOUVEAU", None, None, Some("0612345678"), None), "1234")
    ensures !MatchSearch(Listed(3, "PLANNING_AGENT", "NOUVEAU", None, None, None, None), "a")
  {
    assert OccursAt(ToLower("Dupont"), ToLower("DUP"), 0);
    assert OccursAt("0612345678", "1234", 2);
  }
}

=== FILE: patterns.dfy ===
/** The regular expressions of the system, each written as an explicit
    character predicate. The same three patterns appear verbatim in the
    intake page (`isValidEmail`, `isValidPhone`, `isValidNumber`), in the
    client service (`validateEmail`, `validatePhone`, `validateNumber`)
    and, for the phone and digit patterns, in the server; each is defined
    once here. All `\d` classes are ASCII-only in both runtimes. */
module Patterns {
  import opened Strings
  import JavaInt

  /** `^(06|07)\d{8}$` */
  predicate IsPhone(s: string) {
    && |s| == 10
    && s[0] == '0' && (s[1] == '6' || s[1] == '7')
    && forall i :: 2 <= i < 10 ==> IsAsciiDigit(s[i])
  }

  /** `^\d+$` */
  predicate IsDigits(s: string) {
    |s| >= 1 && JavaInt.AllDigits(s)
  }

  /** Characters of `[A-Za-z0-9+_.-]`, the local part of an address. */
  predicate IsLocalChar(c: char) {
    IsAsciiLetter(c) || IsAsciiDigit(c) || c == '+' || c == '_' || c == '.' || c == '-'
  }

  /** Characters of `[A-Za-z0-9.-]`, the domain part of an address. */
  predicate IsDomainChar(c: char) {
    IsAsciiLetter(c) || IsAsciiDigit(c) || c == '.' || c == '-'
  }

  /** `[A-Za-z0-9.-]+\.[A-Za-z]{2,}` matched against the whole of `d`:
      some dot, not first, with only domain characters before it and at
      least two letters, and nothing else, after it. */
  predicate IsDomain(d: string) {
    exists k :: 1 <= k && k + 3 <= |d| && DotSplitsDomain(d, k)
  }

  predicate DotSplitsDomain(d: string, k: int)
    requires 1 <= k && k + 3 <= |d|
  {
    && d[k] == '.'
    && (forall i :: 0 <= i < k ==> IsDomainChar(d[i]))
    && (forall i :: k < i < |d| ==> IsAsciiLetter(d[i]))
  }

  /** `^[A-Za-z0-9+_.-]+@[A-Za-z0-9.-]+\.[A-Za-z]{2,}$` */
  predicate IsEmail(s: string) {
    exists k :: 1 <= k < |s| && AtSplitsEmail(s, k)
  }

  predicate AtSplitsEmail(s: string, k: int)
    requires 1 <= k < |s|
  {
    && s[k] == '@'
    && (forall i :: 0 <= i < k ==> IsLocalChar(s[i]))
    && IsDomain(s[k + 1..])
  }

  /** Every accepted phone number is all digits, so also a valid client NUMBER. */
  lemma PhoneIsDigits(s: string)
    requires IsPhone(s)
    ensures IsDigits(s)
  {
  }

  lemma PhoneExamples()
    ensures IsPhone("0612345678")
    ensures IsPhone("0798765432")
    ensures !IsPhone("0512345678")
    ensures !IsPhone("061234567")
    ensures !IsPhone("06123456789")
    ensures !IsPhone("06 2345678")
  {
    assert !IsAsciiDigit("06 2345678"[2]);
  }

  /** The shape of every accepted address: one '@' with a non-empty local
      part before it, a dot at least two places after it followed only by
      two or more letters, and no character outside the two classes. */
  lemma {:induction false} EmailShape(s: string)
    requires IsEmail(s)
    ensures exists k :: 1 <= k < |s| && s[k] == '@' && (forall i :: 0 <= i < |s| && s[i] == '@' ==> i == k)
    ensures exists k, d :: 1 <= k && k + 1 < d && d + 3 <= |s| && s[k] == '@' && s[d] == '.' &&
              (forall i :: d < i < |s| ==> IsAsciiLetter(s[i]))
    ensures forall i :: 0 <= i < |s| ==> IsLocalChar(s[i]) || s[i] == '@'
  {
    var k :| 1 <= k < |s| && AtSplitsEmail(s, k);
    var dom := s[k + 1..];
    var j :| 1 <= j && j + 3 <= |dom| && DotSplitsDomain(dom, j);
    var d := k + 1 + j;
    forall i | 0 <= i < |s| && i != k ensures s[i] != '@' {
      if i > k {
        assert s[i] == dom[i - k - 1];
      }
    }
    assert s[d] == dom[j];
    forall i | d < i < |s| ensures IsAsciiLetter(s[i]) {
      assert s[i] == dom[i - k - 1];
    }
    forall i | k < i < |s| ensures IsLocalChar(s[i]) {
      assert s[i] == dom[i - k - 1];
    }
  }

  lemma EmailExamples()
    ensures IsEmail("a@b.co")
    ensures !IsEmail("a@b")
    ensures !IsEmail("@b.co")
    ensures !IsEmail("a@b.c")
  {
    var e := "a@b.co";
    assert DotSplitsDomain(e[2..], 1);
    assert AtSplitsEmail(e, 1);
    var f := "a@b";
    forall k | 1 <= k < |f| ensures !AtSplitsEmail(f, k) {
      if k == 1 { assert |f[2..]| == 1; }
    }
    var h := "a@b.c";
    forall k | 1 <= k < |h| ensures !AtSplitsEmail(h, k) {
      if k == 1 { assert |h[2..]| == 3; }
      else { assert h[k] != '@'; }
    }
  }
}

=== FILE: phoneformat.dfy ===
/** The display form of a ten-character phone number, written in pairs
    separated by spaces ("06 12 34 56 78"). The server's answer
    formatting and the client's `formatPhone` use the same rule. */
module PhoneFormat {

  /** Five pairs separated by single spaces when `s` has ten characters;
      any other string is shown unchanged. */
  function FormatPhone(s: string): (r: string)
    ensures |s| != 10 ==> r == s
    ensures |s| == 10 ==> |r| == 14
    ensures |s| == 10 ==> forall i :: 0 <= i < 14 ==>
              r[i] == if i % 3 == 2 then ' ' else s[i - i / 3]
  {
    if |s| == 10 then
      var r := s[0..2] + " " + s[2..4] + " " + s[4..6] + " " + s[6..8] + " " + s[8..10];
      assert forall i :: 0 <= i < 14 ==> r[i] == if i % 3 == 2 then ' ' else s[i - i / 3];
      r
    else s
  }

  /** `s` with every occurrence of `c` removed. */
  function Remove(s: string, c: char): (r: string)
    ensures c !in r
  {
    if s == [] then [] else (if s[0] == c then [] else [s[0]]) + Remove(s[1..], c)
  }

  lemma {:induction false} RemoveAbsent(s: string, c: char)
    requires c !in s
    ensures Remove(s, c) == s
  {
    if s != [] {
      RemoveAbsent(s[1..], c);
    }
  }

  lemma {:induction false} RemoveConcat(a: string, b: string, c: char)
    ensures Remove(a + b, c) == Remove(a, c) + Remove(b, c)
  {
    if a == [] {
      assert a + b == b;
    } else {
      assert (a + b)[0] == a[0] && (a + b)[1..] == a[1..] + b;
      RemoveConcat(a[1..], b, c);
    }
  }

  /** Appending a piece without `c`, after a `c`, to a string whose
      removal is known. */
  lemma RemoveStep(acc: string, piece: string, c: char)
    requires c !in piece
    ensures Remove(acc + [c] + piece, c) == Remove(acc, c) + piece
  {
    var x := acc + [c];
    RemoveConcat(x, piece, c);
    RemoveConcat(acc, [c], c);
    RemoveAbsent(piece, c);
    assert [c][1..] == [];
    assert Remove([c], c) == [];
    assert Remove(x, c) == Remove(acc, c);
  }

  /** Taking the spaces out of a formatted ten-character number without
      spaces gives the number back. */
  lemma FormatPhoneRoundTrip(s: string)
    requires |s| == 10 && ' ' !in s
    ensures Remove(FormatPhone(s), ' ') == s
  {
    var p0, p1, p2, p3, p4 := s[0..2], s[2..4], s[4..6], s[6..8], s[8..10];
    assert ' ' !in p0 && ' ' !in p1 && ' ' !in p2 && ' ' !in p3 && ' ' !in p4;
    RemoveAbsent(p0, ' ');
    var a1 := p0 + " " + p1;
    RemoveStep(p0, p1, ' ');
    var a2 := a1 + " " + p2;
    RemoveStep(a1, p2, ' ');
    var a3 := a2 + " " + p3;
    RemoveStep(a2, p3, ' ');
    var a4 := a3 + " " + p4;
    RemoveStep(a3, p4, ' ');
    assert FormatPhone(s) == a4;
    assert p0 + p1 + p2 + p3 + p4 == s;
  }
}

=== FILE: prospections.dfy ===
/** The prospection service of the server (`ProspectionService`): the
    validation of a submitted questionnaire, the creation of a prospection
    record with its stored answers, the record's initial assignment,
    who may see a record, and an agent's own list of records. */
module Prospections {
  import opened Wrappers
  import opened Strings
  import opened Roles
  import opened Statuts
  import opened ProspectionTypes
  import opened QuestionTypes
  import opened QuestionEntity
  import opened Answers
  import opened Sorting
  import opened Collections
  import Users
  import JavaInt
  import Patterns
  import QC = QuestionCatalogue

  /** A prospection record; `dateCreation` is the creation instant as a
      number (later is larger). */
  datatype Prospection = Prospection(
    id: int,
    dateCreation: int,
    typeProspection: TypeProspection,
    statut: Statut,
    createur: Users.Utilisateur,
    agentAssigne: Option<Users.Utilisateur>,
    branche: Option<Users.Branche>,
    supervision: Option<Users.Supervision>,
    region: Option<Users.Region>,
    commentaire: Option<string>)

  /** One entry of the submitted answer map: a question key and its value,
      which may be `null`. The map is given in its iteration order. */
  datatype Entry = Entry(questionId: int, valeur: Option<string>)
  type AnswerMap = seq<Entry>

  predicate KeysDistinct(m: AnswerMap) {
    forall i, j :: 0 <= i < j < |m| ==> m[i].questionId != m[j].questionId
  }

  /** `reponses.get(id)`: `None` when the key is absent or maps to `null`. */
  function Get(m: AnswerMap, id: int): (r: Option<string>)
    ensures r.Some? ==> exists i :: 0 <= i < |m| && m[i].questionId == id && m[i].valeur == r
    ensures (forall i :: 0 <= i < |m| ==> m[i].questionId != id) ==> r.None?
  {
    if m == [] then None
    else if m[0].questionId == id then m[0].valeur
    else Get(m[1..], id)
  }

  // ---------------------------------------------------------------------
  // Messages
  // ---------------------------------------------------------------------

  const MsgCreationInterdite := "Vous n'avez pas le droit de cr\U{E9}er une prospection"
  const MsgTypeObligatoire := "Le type de prospection est obligatoire"
  const MsgReponseRequise := "Au moins une r\U{E9}ponse est requise"
  const MsgListeReservee := "Seuls les agents peuvent consulter leurs prospections"

  function MsgQuestionObligatoire(text: string): string {
    "La question '" + text + "' est obligatoire"
  }

  function MsgQuestionNonTrouvee(id: int): string {
    "Question non trouv\U{E9}e: " + IntToString(id)
  }

  function MsgFormatInvalide(text: string): string {
    "Format invalide pour la question: " + text
  }

  function MsgReponseInvalide(text: string): string {
    "R\U{E9}ponse invalide pour la question: " + text
  }

  // ---------------------------------------------------------------------
  // validerDonneesProspection / validerReponseSelonType
  // ---------------------------------------------------------------------

  /** `validerReponseSelonType`: the value is checked as submitted,
      without trimming; TEXT is accepted as is. */
  predicate ValiderReponseSelonType(q: Question, v: string) {
    match q.qtype
    case Phone => Patterns.IsPhone(v)
    case Number => JavaInt.ParseInt(v).Some?
    case Choice => HasOptionValue(q, v)
    case MultipleChoice => AllSelectionsAreOptions(q, v)
    case Text => true
  }

  /** The question with key `id` has a non-blank answer in `m`. */
  predicate Answered(m: AnswerMap, id: int) {
    Get(m, id).Some? && !IsJavaBlank(Get(m, id).value)
  }

  /** An entry passes the per-type check: blank and `null` values are not
      checked; a checked value needs a known question. */
  predicate FormatOk(t: QC.Table, e: Entry) {
    e.valeur.None? || IsJavaBlank(e.valeur.value) ||
    (QC.IndexOfId(t, e.questionId).Some? && ValiderReponseSelonType(t[QC.IndexOfId(t, e.questionId).value], e.valeur.value))
  }

  /** The error raised for an entry failing `FormatOk`. */
  function FormatError(t: QC.Table, e: Entry): Error {
    match QC.IndexOfId(t, e.questionId)
    case None => IllegalArgument(MsgQuestionNonTrouvee(e.questionId))
    case Some(k) => IllegalArgument(MsgFormatInvalide(t[k].text))
  }

  /** The active required questions, by position in the form. */
  function RequiredActives(t: QC.Table): (r: seq<Question>)
    ensures forall q :: q in r <==> q in t && q.actif && q.obligatoire
  {
    Filter(QC.ActiveByOrdre(t), (q: Question) => q.obligatoire)
  }

  /** Every question of `qs` has an answer in `m`. */
  predicate AllAnswered(qs: seq<Question>, m: AnswerMap) {
    forall k :: 0 <= k < |qs| ==> Answered(m, qs[k].id)
  }

  /** The loop over the required questions: the first one, in the order
      given, without an answer is reported. */
  function RequiredCheck(qs: seq<Question>, m: AnswerMap): (r: Result<()>)
    ensures r.Success? <==> AllAnswered(qs, m)
    ensures r.Failure? ==>
              exists k :: 0 <= k < |qs| && !Answered(m, qs[k].id) &&
                (forall j :: 0 <= j < k ==> Answered(m, qs[j].id)) &&
                r == Failure(IllegalArgument(MsgQuestionObligatoire(qs[k].text)))
  {
    match FirstFailing(qs, (q: Question) => Answered(m, q.id))
    case Some(k) => Failure(IllegalArgument(MsgQuestionObligatoire(qs[k].text)))
    case None => Success(())
  }

  /** The loop over the entries: the first one failing its per-type check
      is reported. */
  function FormatCheck(t: QC.Table, m: AnswerMap): (r: Result<()>)
    ensures r.Success? <==> forall i :: 0 <= i < |m| ==> FormatOk(t, m[i])
    ensures r.Failure? ==>
              exists i :: 0 <= i < |m| && !FormatOk(t, m[i]) &&
                (forall j :: 0 <= j < i ==> FormatOk(t, m[j])) &&
                r == Failure(FormatError(t, m[i]))
  {
    match FirstFailing(m, (e: Entry) => FormatOk(t, e))
    case Some(i) => Failure(FormatError(t, m[i]))
    case None => Success(())
  }

  /** Answering the listed required questions is answering every active
      required question. */
  lemma RequiredActivesAnswered(t: QC.Table, m: AnswerMap)
    ensures AllAnswered(RequiredActives(t), m) <==>
              forall q :: q in t && q.actif && q.obligatoire ==> Answered(m, q.id)
  {
    var reqs := RequiredActives(t);
    if AllAnswered(reqs, m) {
      forall q | q in t && q.actif && q.obligatoire ensures Answered(m, q.id) {
        assert q in reqs;
        var k :| 0 <= k < |reqs| && reqs[k] == q;
      }
    }
  }

  /** `validerDonneesProspection`. `None` stands for a Java `null`. */
  function ValiderDonnees(t: QC.Table, typ: Option<TypeProspection>, m: Option<AnswerMap>): (r: Result<()>)
    ensures typ.None? ==> r == Failure(IllegalArgument(MsgTypeObligatoire))
    ensures typ.Some? && (m.None? || m.value == []) ==> r == Failure(IllegalArgument(MsgReponseRequise))
    ensures typ.Some? && m.Some? && m.value != [] && !AllAnswered(RequiredActives(t), m.value) ==>
              exists k :: 0 <= k < |RequiredActives(t)| && !Answered(m.value, RequiredActives(t)[k].id) &&
                (forall j :: 0 <= j < k ==> Answered(m.value, RequiredActives(t)[j].id)) &&
                r == Failure(IllegalArgument(MsgQuestionObligatoire(RequiredActives(t)[k].text)))
    ensures typ.Some? && m.Some? && m.value != [] &&
            (forall q :: q in t && q.actif && q.obligatoire ==> Answered(m.value, q.id)) &&
            (exists i :: 0 <= i < |m.value| && !FormatOk(t, m.value[i])) ==>
              exists i :: 0 <= i < |m.value| && !FormatOk(t, m.value[i]) &&
                (forall j :: 0 <= j < i ==> FormatOk(t, m.value[j])) &&
                r == Failure(FormatError(t, m.value[i]))
    ensures r.Success? <==>
              && typ.Some? && m.Some? && m.value != []
              && (forall q :: q in t && q.actif && q.obligatoire ==> Answered(m.value, q.id))
              && (forall i :: 0 <= i < |m.value| ==> FormatOk(t, m.value[i]))
  {
    if typ.None? then Failure(IllegalArgument(MsgTypeObligatoire))
    else if m.None? || m.value == [] then Failure(IllegalArgument(MsgReponseRequise))
    else
      RequiredActivesAnswered(t, m.value);
      match RequiredCheck(RequiredActives(t), m.value)
      case Failure(e) => Failure(e)
      case Success(_) => FormatCheck(t, m.value)
  }

  // ---------------------------------------------------------------------
  // creerReponses
  // ---------------------------------------------------------------------

  /** The entry gives rise to a stored answer: its question is known and
      its value is present and either non-blank or required. */
  predicate Keep(t: QC.Table, e: Entry) {
    && QC.IndexOfId(t, e.questionId).Some?
    && e.valeur.Some?
    && (!IsJavaBlank(e.valeur.value) || t[QC.IndexOfId(t, e.questionId).value].obligatoire)
  }

  /** The answer stored for a kept entry: the value trimmed. */
  function Stored(t: QC.Table, e: Entry): Reponse
    requires QC.IndexOfId(t, e.questionId).Some? && e.valeur.Some?
  {
    Reponse(Some(t[QC.IndexOfId(t, e.questionId).value]), Some(JavaTrim(e.valeur.value)))
  }

  /** The entry is acceptable to `creerReponses`. */
  predicate EntryOk(t: QC.Table, e: Entry) {
    QC.IndexOfId(t, e.questionId).Some? && (Keep(t, e) ==> EstValide(Stored(t, e)))
  }

  function EntryError(t: QC.Table, e: Entry): Error {
    match QC.IndexOfId(t, e.questionId)
    case None => IllegalArgument(MsgQuestionNonTrouvee(e.questionId))
    case Some(k) => IllegalArgument(MsgReponseInvalide(t[k].text))
  }

  /** The answers kept from `m`, stored in the map's order. */
  function KeptAnswers(t: QC.Table, m: AnswerMap): (r: seq<Reponse>)
    ensures |r| <= |m|
  {
    if m == [] then []
    else if Keep(t, m[0]) then [Stored(t, m[0])] + KeptAnswers(t, m[1..])
    else KeptAnswers(t, m[1..])
  }

  /** An answer is kept exactly when some entry of the map gives it. */
  lemma {:induction false} KeptAnswersMembers(t: QC.Table, m: AnswerMap)
    ensures forall a :: a in KeptAnswers(t, m) <==> exists i :: 0 <= i < |m| && Keep(t, m[i]) && a == Stored(t, m[i])
  {
    if m != [] {
      KeptAnswersMembers(t, m[1..]);
      assert forall i :: 1 <= i < |m| ==> m[i] == m[1..][i - 1];
      assert forall i :: 0 <= i < |m[1..]| ==> m[1..][i] == m[i + 1];
    }
  }

  /** `creerReponses`: either the first unknown key or invalid answer
      aborts, or every kept entry is stored. */
  function CreerReponses(t: QC.Table, m: AnswerMap): (r: Result<seq<Reponse>>)
    ensures r.Success? <==> forall i :: 0 <= i < |m| ==> EntryOk(t, m[i])
    ensures r.Failure? ==>
              exists i :: 0 <= i < |m| && !EntryOk(t, m[i]) &&
                (forall j :: 0 <= j < i ==> EntryOk(t, m[j])) && r.error == EntryError(t, m[i])
    ensures r.Success? ==> r.value == KeptAnswers(t, m)
  {
    if m == [] then Success([])
    else
      var e := m[0];
      match QC.IndexOfId(t, e.questionId)
      case None => Failure(IllegalArgument(MsgQuestionNonTrouvee(e.questionId)))
      case Some(k) =>
        if Keep(t, e) && !EstValide(Stored(t, e)) then
          Failure(IllegalArgument(MsgReponseInvalide(t[k].text)))
        else
          var tail := CreerReponses(t, m[1..]);
          assert forall i :: 1 <= i < |m| ==> m[i] == m[1..][i - 1];
          if tail.Failure? then
            ghost var i :| 0 <= i < |m[1..]| && !EntryOk(t, m[1..][i]) &&
              (forall j :: 0 <= j < i ==> EntryOk(t, m[1..][j])) && tail.error == EntryError(t, m[1..][i]);
            assert m[i + 1] == m[1..][i];
            Failure(tail.error)
          else
            Success(if Keep(t, e) then [Stored(t, e)] + tail.value else tail.value)
  }

  /** Every stored answer passes the entity's own check and comes from an
      entry of the map. */
  lemma CreerReponsesSound(t: QC.Table, m: AnswerMap)
    requires CreerReponses(t, m).Success?
    ensures forall a :: a in CreerReponses(t, m).value ==> EstValide(a)
    ensures forall a :: a in CreerReponses(t, m).value <==>
              exists i :: 0 <= i < |m| && Keep(t, m[i]) && a == Stored(t, m[i])
  {
    KeptAnswersMembers(t, m);
    forall a | a in CreerReponses(t, m).value ensures EstValide(a) {
      var i :| 0 <= i < |m| && Keep(t, m[i]) && a == Stored(t, m[i]);
      assert EntryOk(t, m[i]);
    }
  }

  /** The value of every stored answer is already trimmed. */
  lemma StoredValuesTrimmed(t: QC.Table, e: Entry)
    requires Keep(t, e)
    ensures Stored(t, e).valeur == Some(JavaTrim(Stored(t, e).valeur.value))
  {
    TrimIdempotent(e.valeur.value, IsJavaSpace);
  }

  /** Every answer names a question, and no question is named twice. */
  predicate OnePerQuestion(rs: seq<Reponse>) {
    && (forall k :: 0 <= k < |rs| ==> rs[k].question.Some?)
    && (forall a, b :: 0 <= a < b < |rs| ==> rs[a].question.value.id != rs[b].question.value.id)
  }

  /** The questions of the kept answers are keys of the map. */
  lemma {:induction false} KeptAnswersKeys(t: QC.Table, m: AnswerMap)
    ensures forall k :: 0 <= k < |KeptAnswers(t, m)| ==>
              KeptAnswers(t, m)[k].question.Some? &&
              exists i :: 0 <= i < |m| && m[i].questionId == KeptAnswers(t, m)[k].question.value.id
  {
    if m != [] {
      var tl := m[1..];
      KeptAnswersKeys(t, tl);
      var rest := KeptAnswers(t, tl);
      var r := KeptAnswers(t, m);
      forall k | 0 <= k < |r|
        ensures r[k].question.Some? && exists i :: 0 <= i < |m| && m[i].questionId == r[k].question.value.id
      {
        if Keep(t, m[0]) && k == 0 {
          assert r[0] == Stored(t, m[0]);
          assert m[0].questionId == r[k].question.value.id;
        } else {
          var k' := if Keep(t, m[0]) then k - 1 else k;
          assert r[k] == rest[k'];
          var i :| 0 <= i < |tl| && tl[i].questionId == rest[k'].question.value.id;
          assert m[i + 1] == tl[i];
        }
      }
    }
  }

  /** With unique keys in the map, no question receives two stored answers
      (the `uk_question_prospection` constraint). */
  lemma {:induction false} KeptAnswersOnePerQuestion(t: QC.Table, m: AnswerMap)
    requires KeysDistinct(m)
    ensures OnePerQuestion(KeptAnswers(t, m))
  {
    if m != [] {
      var tl := m[1..];
      assert KeysDistinct(tl) by {
        assert forall i :: 0 <= i < |tl| ==> tl[i] == m[i + 1];
      }
      KeptAnswersOnePerQuestion(t, tl);
      KeptAnswersKeys(t, tl);
      var rest := KeptAnswers(t, tl);
      if Keep(t, m[0]) {
        var rs := [Stored(t, m[0])] + rest;
        assert rs[0].question.value.id == m[0].questionId;
        forall b | 0 < b < |rs| ensures rs[0].question.value.id != rs[b].question.value.id {
          assert rs[b] == rest[b - 1];
          var i :| 0 <= i < |tl| && tl[i].questionId == rest[b - 1].question.value.id;
          assert tl[i] == m[i + 1];
        }
        forall a, b | 0 < a < b < |rs| ensures rs[a].question.value.id != rs[b].question.value.id {
          assert rs[a] == rest[a - 1] && rs[b] == rest[b - 1];
        }
      }
    }
  }

  /** Free text passes the service's type check but not the entity's, so a
      prospection answering a TEXT question with words is refused when the
      answers are stored. */
  lemma TextAcceptedByServiceRefusedByEntity(q: Question)
    requires q.qtype == Text
    ensures ValiderReponseSelonType(q, "Bonjour")
    ensures FormatOk([q], Entry(q.id, Some("Bonjour")))
    ensures CreerReponses([q], [Entry(q.id, Some("Bonjour"))]) == Failure(IllegalArgument(MsgReponseInvalide(q.text)))
  {
    TextAnswerMustBeNumeric(q);
    assert !IsJavaBlank("Bonjour") by { assert !IsJavaSpace("Bonjour"[0]); }
    assert QC.IndexOfId([q], q.id) == Some(0);
    assert JavaTrim("Bonjour") == "Bonjour" by { TrimNoop("Bonjour", IsJavaSpace); }
    assert Stored([q], Entry(q.id, Some("Bonjour"))) == Reponse(Some(q), Some("Bonjour"));
  }

  /** Every option value of `q` is its own trim, as stored options are. */
  predicate OptionsTrimmed(q: Question) {
    forall k :: 0 <= k < |q.options| ==> JavaTrim(q.options[k].valeur) == q.options[k].valeur
  }

  /** For PHONE, NUMBER and CHOICE (with trimmed options), a non-blank
      value the service accepts is stored as a valid answer. */
  lemma ServiceCheckImpliesEntityCheck(q: Question, v: string)
    requires q.qtype == Phone || q.qtype == Number || (q.qtype == Choice && OptionsTrimmed(q))
    requires !IsJavaBlank(v) && ValiderReponseSelonType(q, v)
    ensures EstValide(Reponse(Some(q), Some(JavaTrim(v))))
  {
    if q.qtype == Phone || q.qtype == Number {
      assert !IsJavaSpace(v[0]) && !IsJavaSpace(v[|v| - 1]);
      TrimNoop(v, IsJavaSpace);
    } else {
      var k :| 0 <= k < |q.options| && q.options[k].valeur == v;
      assert JavaTrim(v) == v;
    }
    TrimIdempotent(v, IsJavaSpace);
  }

  /** The service checks a phone number untrimmed, the entity trimmed:
      padding is refused by the first and accepted by the second. */
  lemma PhonePaddingDisagreement(q: Question)
    requires q.qtype == Phone
    ensures !ValiderReponseSelonType(q, " 0612345678")
    ensures EstValide(Reponse(Some(q), Some(" 0612345678")))
  {
    var w := "0612345678";
    var v := " " + w;
    assert v == " 0612345678";
    TrimPaddedLeft(' ', w, IsJavaSpace);
    assert !IsJavaBlank(v);
    assert Patterns.IsPhone("0612345678");
  }

  // ---------------------------------------------------------------------
  // creerProspection
  // ---------------------------------------------------------------------

  /** `assignerSelonType`: a PLANNING_AGENT record goes straight to its
      creator; the other types wait, unassigned and new. */
  function AssignerSelonType(p: Prospection, typ: TypeProspection): (r: Prospection)
    ensures r == p.(agentAssigne := r.agentAssigne, statut := r.statut)
    ensures typ == PlanningAgent ==> r.agentAssigne == Some(p.createur) && r.statut == Assigne
    ensures typ != PlanningAgent ==> r.agentAssigne.None? && r.statut == Nouveau
  {
    match typ
    case PlanningAgent => p.(agentAssigne := Some(p.createur), statut := Assigne)
    case CampagneProspection => p.(agentAssigne := None, statut := Nouveau)
    case EvenementCulturel => p.(agentAssigne := None, statut := Nouveau)
  }

  /** The service assigns a record at creation exactly for the type whose
      initial assignee is the agent, and the status it sets is reachable
      from NOUVEAU. */
  lemma AssignmentAgreesWithType(p: Prospection, typ: TypeProspection)
    ensures AssignerSelonType(p, typ).agentAssigne.Some? <==> AssignationInitiale(typ) == "AGENT"
    ensures var s := AssignerSelonType(p, typ).statut;
            s == Nouveau || CanTransition(Nouveau, s)
  {
    AssignationRoles();
  }

  /** `creerProspection` by `createur`; `id` and `date` are the key and
      instant the database and the clock supply. */
  function CreerProspection(t: QC.Table, createur: Users.Utilisateur, typ: Option<TypeProspection>,
                            m: Option<AnswerMap>, commentaire: Option<string>, id: int, date: int)
    : (r: Result<(Prospection, seq<Reponse>)>)
    ensures createur.role != Agent ==> r == Failure(AccessDenied(MsgCreationInterdite))
    ensures createur.role == Agent && ValiderDonnees(t, typ, m).Failure? ==>
              r == Failure(ValiderDonnees(t, typ, m).error)
    ensures createur.role == Agent && ValiderDonnees(t, typ, m).Success? && CreerReponses(t, m.value).Failure? ==>
              r == Failure(CreerReponses(t, m.value).error)
    ensures r.Success? <==>
              createur.role == Agent && ValiderDonnees(t, typ, m).Success? && CreerReponses(t, m.value).Success?
    ensures r.Success? ==>
              var (p, answers) := r.value;
              && p.id == id && p.dateCreation == date
              && p.typeProspection == typ.value && p.createur == createur && p.commentaire == commentaire
              && p.branche == createur.branche && p.supervision == createur.supervision && p.region == createur.region
              && (typ.value == PlanningAgent ==> p.agentAssigne == Some(createur) && p.statut == Assigne)
              && (typ.value != PlanningAgent ==> p.agentAssigne.None? && p.statut == Nouveau)
              && answers == KeptAnswers(t, m.value)
  {
    if createur.role != Agent then Failure(AccessDenied(MsgCreationInterdite))
    else match ValiderDonnees(t, typ, m)
      case Failure(e) => Failure(e)
      case Success(_) =>
        var base := Prospection(id, date, typ.value, Nouveau, createur, None,
                                createur.branche, createur.supervision, createur.region, commentaire);
        var p := AssignerSelonType(base, typ.value);
        match CreerReponses(t, m.value)
        case Failure(e) => Failure(e)
        case Success(answers) => Success((p, answers))
  }

  // ---------------------------------------------------------------------
  // peutVoirProspection
  // ---------------------------------------------------------------------

  /** `peutVoirProspection`. Comparing the branch, supervision or region
      of a record or user that has none is a null dereference. */
  function PeutVoir(p: Prospection, u: Users.Utilisateur): (r: Result<bool>)
    ensures u.role == Siege ==> r == Success(true)
    ensures u.role == Agent ==>
              r == Success(p.createur.id == u.id || (p.agentAssigne.Some? && p.agentAssigne.value.id == u.id))
    ensures u.role == ChefBranche && p.branche.Some? && u.branche.Some? ==>
              r == Success(p.branche.value.id == u.branche.value.id)
    ensures u.role == Superviseur && p.supervision.Some? && u.supervision.Some? ==>
              r == Success(p.supervision.value.id == u.supervision.value.id)
    ensures u.role == ChefAnimationRegional && p.region.Some? && u.region.Some? ==>
              r == Success(p.region.value.id == u.region.value.id)
    ensures u.role == ChefBranche && (p.branche.None? || u.branche.None?) ==> r == Failure(NullReference)
    ensures u.role == Superviseur && (p.supervision.None? || u.supervision.None?) ==> r == Failure(NullReference)
    ensures u.role == ChefAnimationRegional && (p.region.None? || u.region.None?) ==> r == Failure(NullReference)
  {
    match u.role
    case Agent => Success(p.createur.id == u.id || (p.agentAssigne.Some? && p.agentAssigne.value.id == u.id))
    case ChefBranche =>
      if p.branche.None? || u.branche.None? then Failure(NullReference)
      else Success(p.branche.value.id == u.branche.value.id)
    case Superviseur =>
      if p.supervision.None? || u.supervision.None? then Failure(NullReference)
      else Success(p.supervision.value.id == u.supervision.value.id)
    case ChefAnimationRegional =>
      if p.region.None? || u.region.None? then Failure(NullReference)
      else Success(p.region.value.id == u.region.value.id)
    case Siege => Success(true)
  }

  /** A record created by an agent placed in a branch is visible to that
      agent and to each manager of the agent's branch, supervision and
      region, and to headquarters. */
  lemma CreatedRecordVisibleUpTheHierarchy(
    t: QC.Table, agent: Users.Utilisateur, typ: Option<TypeProspection>, m: Option<AnswerMap>,
    commentaire: Option<string>, id: int, date: int, viewer: Users.Utilisateur)
    requires Users.HierarchyConsistent(agent) && agent.branche.Some?
    requires CreerProspection(t, agent, typ, m, commentaire, id, date).Success?
    requires || viewer == agent
             || viewer.role == Siege
             || (viewer.role == ChefBranche && viewer.branche == agent.branche)
             || (viewer.role == Superviseur && viewer.supervision == agent.supervision)
             || (viewer.role == ChefAnimationRegional && viewer.region == agent.region)
    ensures PeutVoir(CreerProspection(t, agent, typ, m, commentaire, id, date).value.0, viewer) == Success(true)
  {
  }

  // ---------------------------------------------------------------------
  // getProspectionsAgent
  // ---------------------------------------------------------------------

  predicate AssignedTo(p: Prospection, agentId: int) {
    p.agentAssigne.Some? && p.agentAssigne.value.id == agentId
  }

  predicate CreatedBy(p: Prospection, agentId: int) {
    p.createur.id == agentId
  }

  function NegDate(p: Prospection): int { -p.dateCreation }

  /** The records of `all` assigned to or created by the agent, each once. */
  function AgentRecords(all: seq<Prospection>, agentId: int): (r: seq<Prospection>)
    ensures Distinct(r)
    ensures forall p :: p in r <==> p in all && (AssignedTo(p, agentId) || CreatedBy(p, agentId))
  {
    var assignees := Filter(all, (p: Prospection) => AssignedTo(p, agentId));
    var crees := Filter(all, (p: Prospection) => CreatedBy(p, agentId));
    Dedupe(assignees + crees)
  }

  /** Sorting by descending instant keeps the records and their uniqueness. */
  lemma NewestFirstKeepsRecords(xs: seq<Prospection>)
    requires Distinct(xs)
    ensures Distinct(SortBy(xs, NegDate))
    ensures forall p :: p in SortBy(xs, NegDate) <==> p in xs
  {
    var sorted := SortBy(xs, NegDate);
    DistinctPermutation(xs, sorted);
    assert forall p :: p in sorted <==> p in multiset(sorted);
    assert forall p :: p in xs <==> p in multiset(xs);
  }

  /** `getProspectionsAgent`: the records assigned to or created by the
      agent, each once, newest first. Records with equal instants appear
      in some order the model fixes. */
  function ProspectionsAgent(all: seq<Prospection>, agent: Users.Utilisateur): (r: Result<seq<Prospection>>)
    ensures agent.role != Agent ==> r == Failure(AccessDenied(MsgListeReservee))
    ensures agent.role == Agent ==> r.Success?
    ensures r.Success? ==> Distinct(r.value)
    ensures r.Success? ==> forall p :: p in r.value <==> p in all && (AssignedTo(p, agent.id) || CreatedBy(p, agent.id))
    ensures r.Success? ==> forall i, j :: 0 <= i < j < |r.value| ==> r.value[i].dateCreation >= r.value[j].dateCreation
  {
    if agent.role != Agent then Failure(AccessDenied(MsgListeReservee))
    else
      var uniques := AgentRecords(all, agent.id);
      var sorted := SortBy(uniques, NegDate);
      NewestFirstKeepsRecords(uniques);
      assert forall i, j :: 0 <= i < j < |sorted| ==> NegDate(sorted[i]) <= NegDate(sorted[j]);
      Success(sorted)
  }
}

=== FILE: question.dfy ===
/** The question entity (`Question`) with its ordered option list. */
module QuestionEntity {
  import opened Wrappers
  import opened QuestionTypes
  import opened Collections

  /** An option object; `obj` is its identity as a Java object and
      `question` the back-reference to its owner's id (`None` for Java's
      `null`). `QuestionOption` declares no `equals`, so two options are
      the same exactly when their `obj` agree, whatever their fields. */
  datatype QuestionOption = QuestionOption(obj: nat, valeur: string, ordreOption: int, question: Option<int>)

  datatype Question = Question(
    id: int,
    text: string,
    description: Option<string>,
    qtype: QuestionType,
    ordre: int,
    actif: bool,
    obligatoire: bool,
    createurId: int,
    options: seq<QuestionOption>)

  /** A freshly constructed question: the field initialisers make it
      active, not required and without options. */
  function NewQuestion(id: int, text: string, description: Option<string>, qtype: QuestionType,
                       ordre: int, createurId: int): (q: Question)
    ensures q.actif && !q.obligatoire && q.options == []
    ensures q.id == id && q.text == text && q.qtype == qtype && q.ordre == ordre
  {
    Question(id, text, description, qtype, ordre, true, false, createurId, [])
  }

  /** `hasOptions`. */
  predicate HasOptions(q: Question) {
    q.qtype == Choice || q.qtype == MultipleChoice
  }

  lemma HasOptionsAgreesWithType(q: Question)
    ensures HasOptions(q) <==> RequiresOptions(q.qtype)
  {
  }

  /** `addOption`: the option, now pointing back at `q`, goes at the end. */
  function AddOption(q: Question, o: QuestionOption): (r: (Question, QuestionOption))
    ensures r.1 == o.(question := Some(q.id))
    ensures r.0 == q.(options := q.options + [r.1])
    ensures |r.0.options| == |q.options| + 1 && r.0.options[|q.options|] == r.1
  {
    var attached := o.(question := Some(q.id));
    (q.(options := q.options + [attached]), attached)
  }

  /** The identities of the options in `xs`, in order. */
  function Objects(xs: seq<QuestionOption>): (r: seq<nat>)
    ensures |r| == |xs| && forall i :: 0 <= i < |xs| ==> r[i] == xs[i].obj
  {
    seq(|xs|, i requires 0 <= i < |xs| => xs[i].obj)
  }

  /** `removeOption`: `List.remove` drops the first element that is the
      same object as `o`, and `o` loses its back-reference. */
  function RemoveOption(q: Question, o: QuestionOption): (r: (Question, QuestionOption))
    ensures r.1 == o.(question := None)
    ensures (forall i :: 0 <= i < |q.options| ==> q.options[i].obj != o.obj) ==> r.0 == q
    ensures forall i :: 0 <= i < |q.options| && q.options[i].obj == o.obj &&
                        (forall j :: 0 <= j < i ==> q.options[j].obj != o.obj) ==>
              r.0 == q.(options := q.options[..i] + q.options[i + 1..])
  {
    var objs := Objects(q.options);
    if o.obj in objs then
      var k := FirstIndex(objs, o.obj);
      forall i | 0 <= i < |q.options| && q.options[i].obj == o.obj &&
                 (forall j :: 0 <= j < i ==> q.options[j].obj != o.obj)
        ensures i == k
      {
        FirstIndexUnique(objs, o.obj, i);
      }
      (q.(options := q.options[..k] + q.options[k + 1..]), o.(question := None))
    else
      (q, o.(question := None))
  }

  /** Adding an option object not yet in the list and removing it again
      restores the question. */
  lemma AddThenRemoveOption(q: Question, o: QuestionOption)
    requires forall i :: 0 <= i < |q.options| ==> q.options[i].obj != o.obj
    ensures var (q1, o1) := AddOption(q, o);
            RemoveOption(q1, o1).0 == q
  {
    var (q1, o1) := AddOption(q, o);
    assert q1.options[..|q.options|] == q.options;
  }

  /** Removal goes by identity, not by value: of two options with equal
      fields, removing the later object keeps the earlier one. */
  lemma {:induction false} RemoveByIdentity(q: Question, a: QuestionOption, b: QuestionOption, a2: QuestionOption)
    requires a2 == a.(obj := a2.obj) && a2.obj != a.obj && b.obj != a2.obj
    requires q.options == [a, b, a2]
    ensures RemoveOption(q, a2).0.options == [a, b]
  {
    assert q.options[2].obj == a2.obj;
  }
}

=== FILE: questionform.dfy ===
/** The question-creation form of the administration page
    (`CreateQuestionForm` in `QuestionManagement.tsx`): the option-list
    editor, the checks made before sending, the payload sent and the reset
    after success; and the inactive-question count shown beside it. */
module QuestionForm {
  import opened Wrappers
  import opened Strings
  import opened Collections
  import opened QuestionTypes
  import QC = QuestionCatalogue
  import Users
  import QuestionEntity
  import Roles

  /** The form's fields; `typ` is the selected type name. */
  datatype Form = Form(question: string, description: string, typ: string, obligatoire: bool,
                       options: seq<string>)

  /** The form as first shown and after a successful creation. */
  function InitialForm(): (f: Form)
    ensures f.typ == Name(Text) && !f.obligatoire && f.options == ["", ""]
    ensures f.question == "" && f.description == ""
  {
    Form("", "", "TEXT", false, ["", ""])
  }

  /** The type table the page loads: type name to `requiresOptions`. */
  type TypeTable = map<string, bool>

  /** The table the server's type endpoint sends: one entry per server
      type. */
  function ServerTypeTable(): (m: TypeTable)
    ensures forall t :: Name(t) in m && m[Name(t)] == RequiresOptions(t)
    ensures forall s :: s in m ==> FromName(s).Some?
  {
    map["TEXT" := false, "NUMBER" := false, "PHONE" := false, "CHOICE" := true, "MULTIPLE_CHOICE" := true]
  }

  /** `needsOptions`: false while the types are not loaded or for a name
      the table lacks. */
  predicate NeedsOptions(types: TypeTable, f: Form) {
    f.typ in types && types[f.typ]
  }

  /** With the server's table loaded, options are needed exactly for the
      two choice types. */
  lemma NeedsOptionsAgreesWithServer(f: Form)
    ensures NeedsOptions(ServerTypeTable(), f) <==> FromName(f.typ).Some? && RequiresOptions(FromName(f.typ).value)
  {
  }

  // ---------------------------------------------------------------------
  // Option editor
  // ---------------------------------------------------------------------

  /** `handleOptionChange` on a rendered entry. */
  function HandleOptionChange(f: Form, index: nat, value: string): (r: Form)
    requires index < |f.options|
    ensures |r.options| == |f.options| && r.options[index] == value
    ensures forall i :: 0 <= i < |f.options| && i != index ==> r.options[i] == f.options[i]
    ensures r.(options := f.options) == f
  {
    f.(options := f.options[index := value])
  }

  /** `addOption`. */
  function AddOption(f: Form): (r: Form)
    ensures |r.options| == |f.options| + 1 && r.options[..|f.options|] == f.options
    ensures r.options[|f.options|] == ""
    ensures r.(options := f.options) == f
  {
    f.(options := f.options + [""])
  }

  /** `removeOption`: only while more than two entries remain; an index
      outside the list removes nothing. */
  function RemoveOption(f: Form, index: int): (r: Form)
    ensures |f.options| <= 2 ==> r == f
    ensures |f.options| > 2 && 0 <= index < |f.options| ==>
              r.options == f.options[..index] + f.options[index + 1..]
    ensures !(0 <= index < |f.options|) ==> r == f
    ensures r.(options := f.options) == f
  {
    if |f.options| > 2 && 0 <= index < |f.options| then
      f.(options := f.options[..index] + f.options[index + 1..])
    else f
  }

  /** The option list never has fewer than two entries: the initial form
      has two and no edit goes below two. */
  lemma EditsKeepTwoOptions(f: Form, index: int, value: string)
    requires |f.options| >= 2
    ensures |InitialForm().options| == 2
    ensures 0 <= index < |f.options| ==> |HandleOptionChange(f, index, value).options| >= 2
    ensures |AddOption(f).options| >= 2
    ensures |RemoveOption(f, index).options| >= 2
  {
  }

  // ---------------------------------------------------------------------
  // Submission
  // ---------------------------------------------------------------------

  const MsgQuestionObligatoire := "La question est obligatoire"
  const MsgDeuxOptions := "Au moins 2 options sont requises"
  const MsgErreurGenerique := "Une erreur est survenue"

  /** The entries kept by `options.filter(opt => opt.trim())`, untrimmed. */
  function NonBlank(options: seq<string>): (r: seq<string>)
    ensures forall o :: o in r <==> o in options && !IsJsBlank(o)
  {
    Filter(options, o => !IsJsBlank(o))
  }

  /** The request body of `createQuestion`. */
  datatype Payload = Payload(question: string, description: string, typ: string, obligatoire: bool,
                             options: seq<string>)

  /** The checks made before sending: the problem message, or the payload. */
  function Prepare(types: TypeTable, f: Form): (r: Result<Payload>)
    ensures IsJsBlank(f.question) ==> r == Failure(Runtime(MsgQuestionObligatoire))
    ensures !IsJsBlank(f.question) && NeedsOptions(types, f) && |NonBlank(f.options)| < 2 ==>
              r == Failure(Runtime(MsgDeuxOptions))
    ensures r.Success? <==> !IsJsBlank(f.question) && (NeedsOptions(types, f) ==> |NonBlank(f.options)| >= 2)
    ensures r.Success? ==>
              && r.value.question == f.question && r.value.description == f.description
              && r.value.typ == f.typ && r.value.obligatoire == f.obligatoire
              && r.value.options == (if NeedsOptions(types, f) then NonBlank(f.options) else [])
  {
    if IsJsBlank(f.question) then Failure(Runtime(MsgQuestionObligatoire))
    else if NeedsOptions(types, f) && |NonBlank(f.options)| < 2 then Failure(Runtime(MsgDeuxOptions))
    else
      var opts := if NeedsOptions(types, f) then NonBlank(f.options) else [];
      Success(Payload(f.question, f.description, f.typ, f.obligatoire, opts))
  }

  /** The options sent are the non-blank entries in their order, at least
      two of them for a choice type, and none for the other types. */
  lemma SentOptions(types: TypeTable, f: Form)
    requires Prepare(types, f).Success?
    ensures var sent := Prepare(types, f).value.options;
            && SubsequenceOf(sent, if NeedsOptions(types, f) then f.options else [])
            && (forall o :: o in sent ==> !IsJsBlank(o))
            && (NeedsOptions(types, f) ==> |sent| >= 2)
            && (!NeedsOptions(types, f) ==> sent == [])
  {
    FilterIsSelect(f.options, o => !IsJsBlank(o));
    if !NeedsOptions(types, f) {
      var none: seq<string> := [];
      assert Select(none, []) == [];
    }
  }

  /** What the creation request does: succeed or fail with the server's
      message, or throw (with the message of an `Error`, or `None` for
      anything else thrown). */
  datatype CreateReply = Created(message: string) | Rejected(message: string) | Threw(error: Option<string>)

  /** The banner shown under the form. */
  datatype Message = Info(text: string) | Problem(text: string)

  /** `handleSubmit`: the form afterwards, the banner, and the payload sent
      (`None` when a check stopped it before any request). */
  function HandleSubmit(types: TypeTable, f: Form, reply: CreateReply): (r: (Form, Message, Option<Payload>))
    ensures Prepare(types, f).Failure? ==>
              r == (f, Problem(Prepare(types, f).error.message), None)
    ensures Prepare(types, f).Success? ==> r.2 == Some(Prepare(types, f).value)
    ensures r.0 != f ==> r.0 == InitialForm() && reply.Created?
    ensures Prepare(types, f).Success? && reply.Created? ==> r.0 == InitialForm() && r.1 == Info(reply.message)
    ensures Prepare(types, f).Success? && reply.Rejected? ==>
              r == (f, Problem(reply.message), Some(Prepare(types, f).value))
    ensures Prepare(types, f).Success? && reply.Threw? ==>
              r.1 == Problem(if reply.error.Some? then reply.error.value else MsgErreurGenerique)
  {
    match Prepare(types, f)
    case Failure(e) => (f, Problem(e.message), None)
    case Success(p) =>
      match reply
      case Created(m) => (InitialForm(), Info(m), Some(p))
      case Rejected(m) => (f, Problem(m), Some(p))
      case Threw(e) => (f, Problem(e.GetOr(MsgErreurGenerique)), Some(p))
  }

  /** The client does not look for repeated options: a choice question with
      the options "Oui" and "Oui" is sent as it is, and the service refuses
      those options. */
  lemma RepeatedOptionsPassTheForm(t: QC.Table, siege: Users.Utilisateur)
    requires siege.role == Roles.Siege
    ensures Prepare(ServerTypeTable(), Form("Satisfait ?", "", "CHOICE", true, ["Oui", "Oui"]))
            == Success(Payload("Satisfait ?", "", "CHOICE", true, ["Oui", "Oui"]))
    ensures QC.CreateQuestion(t, siege, Some("Satisfait ?"), Some(""), Choice, Some(true),
                              Some([Some("Oui"), Some("Oui")]))
            == Failure(IllegalArgument(QC.MsgOptionsDoublons))
  {
    var f := Form("Satisfait ?", "", "CHOICE", true, ["Oui", "Oui"]);
    TrimNoop("Oui", IsJsSpace);
    TrimNoop(f.question, IsJsSpace);
    TrimNoop(f.question, IsJavaSpace);
    assert NeedsOptions(ServerTypeTable(), f);
    assert NonBlank(f.options) == ["Oui", "Oui"];
    var opts := [Some("Oui"), Some("Oui")];
    assert opts[0] == opts[1];
  }

  // ---------------------------------------------------------------------
  // Statistics
  // ---------------------------------------------------------------------

  /** The statistics the page reads; a field may be missing. */
  datatype Stats = Stats(totalQuestions: Option<int>, questionsActives: Option<int>)

  /** `getStatistiques`: every row, and the active rows. */
  function Statistiques(t: QC.Table): (s: Stats)
    ensures s.totalQuestions == Some(|t|)
    ensures s.questionsActives == Some(|QC.Actives(t)|)
  {
    Stats(Some(|t|), Some(QC.CountActive(t)))
  }

  /** The displayed inactive count: a missing field reads as 0. */
  function InactiveCount(s: Stats): int {
    s.totalQuestions.GetOr(0) - s.questionsActives.GetOr(0)
  }

  /** The inactive rows of the table. */
  function Inactives(t: QC.Table): (r: seq<QuestionEntity.Question>)
    ensures forall q :: q in r <==> q in t && !q.actif
  {
    Filter(t, (q: QuestionEntity.Question) => !q.actif)
  }

  /** Every row is active or inactive, so the rows split in two. */
  lemma {:induction false} ActiveInactiveSplit(t: QC.Table)
    ensures |QC.Actives(t)| + |Inactives(t)| == |t|
  {
    if t != [] {
      ActiveInactiveSplit(t[1..]);
    }
  }

  /** The page's count is the number of inactive rows of the table. */
  lemma InactiveCountIsInactiveRows(t: QC.Table)
    ensures InactiveCount(Statistiques(t)) == |Inactives(t)|
    ensures InactiveCount(Statistiques(t)) >= 0
  {
    ActiveInactiveSplit(t);
  }
}

=== FILE: questiontype.dfy ===
/** The server's question types (enum `QuestionType`) and their
    validation metadata. */
module QuestionTypes {
  import opened Wrappers
  import Patterns

  datatype QuestionType = Text | Number | Phone | Choice | MultipleChoice

  const AllTypes: seq<QuestionType> := [Text, Number, Phone, Choice, MultipleChoice]

  function Name(t: QuestionType): string {
    match t
    case Text => "TEXT"
    case Number => "NUMBER"
    case Phone => "PHONE"
    case Choice => "CHOICE"
    case MultipleChoice => "MULTIPLE_CHOICE"
  }

  /** `QuestionType.valueOf`: only the five server names are accepted. */
  function FromName(s: string): (r: Option<QuestionType>)
    ensures r.Some? ==> Name(r.value) == s
    ensures r.None? ==> forall t :: Name(t) != s
  {
    if s == "TEXT" then Some(Text)
    else if s == "NUMBER" then Some(Number)
    else if s == "PHONE" then Some(Phone)
    else if s == "CHOICE" then Some(Choice)
    else if s == "MULTIPLE_CHOICE" then Some(MultipleChoice)
    else None
  }

  /** There are exactly five server types, each listed once. */
  lemma ExactlyFiveTypes()
    ensures |AllTypes| == 5
    ensures forall t :: t in AllTypes
    ensures forall i, j :: 0 <= i < j < |AllTypes| ==> AllTypes[i] != AllTypes[j]
  {
    forall t ensures t in AllTypes {
      match t
      case Text => assert AllTypes[0] == t;
      case Number => assert AllTypes[1] == t;
      case Phone => assert AllTypes[2] == t;
      case Choice => assert AllTypes[3] == t;
      case MultipleChoice => assert AllTypes[4] == t;
    }
  }

  predicate RequiresOptions(t: QuestionType) {
    t == Choice || t == MultipleChoice
  }

  /** The two regular expressions `getValidationPattern` can return. */
  datatype Pattern = PhonePattern | DigitsPattern {
    /** The pattern's source text, as the server sends it to the client. */
    function Source(): string {
      match this
      case PhonePattern => "^(06|07)\\d{8}$"
      case DigitsPattern => "^\\d+$"
    }

    /** What the pattern accepts. */
    predicate Matches(s: string) {
      match this
      case PhonePattern => Patterns.IsPhone(s)
      case DigitsPattern => Patterns.IsDigits(s)
    }
  }

  /** `getValidationPattern`; `None` is Java's `null`. */
  function ValidationPattern(t: QuestionType): (r: Option<Pattern>)
    ensures r.Some? <==> t == Phone || t == Number
    ensures r.Some? ==> forall s :: r.value.Matches(s) ==> Patterns.IsDigits(s)
    ensures t == Phone ==> forall s :: r.value.Matches(s) <==> Patterns.IsPhone(s)
    ensures t == Number ==> forall s :: r.value.Matches(s) <==> Patterns.IsDigits(s)
  {
    match t
    case Phone =>
      assert forall s :: Patterns.IsPhone(s) ==> Patterns.IsDigits(s) by {
        forall s | Patterns.IsPhone(s) ensures Patterns.IsDigits(s) {
          Patterns.PhoneIsDigits(s);
        }
      }
      Some(PhonePattern)
    case Number => Some(DigitsPattern)
    case _ => None
  }

  const DefaultValidationMessage: string := "Format invalide"

  /** `getValidationMessage`. */
  function ValidationMessage(t: QuestionType): (m: string)
    ensures m == DefaultValidationMessage <==> ValidationPattern(t).None?
  {
    match t
    case Phone => "Le numéro doit commencer par 06 ou 07 et contenir 10 chiffres"
    case Number => "Veuillez saisir un nombre entier"
    case _ => DefaultValidationMessage
  }
}

=== FILE: registration.dfy ===
/** The sign-up form of the application shell (`RegisterForm` in
    `App.tsx`): which hierarchy level each role must pick, when the form
    may be sent, and the cascade that clears the lower choices when a
    higher one changes. Effects are taken as running right after the
    change that triggers them; the lists a lookup loads are parameters. */
module Registration {
  import opened Roles

  /** The roles the form asks a region, a supervision, a branch of. */
  predicate NeedsRegion(r: Role) { r in [ChefAnimationRegional, Superviseur, Agent, ChefBranche] }
  predicate NeedsSupervision(r: Role) { r in [Superviseur, Agent, ChefBranche] }
  predicate NeedsBranche(r: Role) { r in [Agent, ChefBranche] }

  /** The three requirements are nested, follow the role levels, and the
      headquarters role needs none of them. */
  lemma NeedsAreNested(r: Role)
    ensures NeedsBranche(r) ==> NeedsSupervision(r)
    ensures NeedsSupervision(r) ==> NeedsRegion(r)
    ensures !NeedsRegion(Siege)
    ensures NeedsBranche(r) <==> Level(r) <= 2
    ensures NeedsSupervision(r) <==> Level(r) <= 3
    ensures NeedsRegion(r) <==> Level(r) <= 4
  {
  }

  /** The form's fields; ids are the selected option values, empty when
      none is selected; the lists are the ids offered in each select. */
  datatype Form = Form(
    nom: string, prenom: string, email: string, motDePasse: string,
    role: Role,
    regionId: string, supervisionId: string, brancheId: string,
    supervisions: seq<string>, branches: seq<string>)

  /** The form as first shown and after a successful sign-up. */
  function Initial(): (f: Form)
    ensures f.role == Agent && f.regionId == "" && f.supervisionId == "" && f.brancheId == ""
  {
    Form("", "", "", "", Agent, "", "", "", [], [])
  }

  /** `isFormValid`, as written in the form. */
  predicate IsFormValid(f: Form) {
    && f.nom != "" && f.prenom != "" && f.email != "" && f.motDePasse != ""
    && (|| f.role == Siege
        || (NeedsBranche(f.role) && f.brancheId != "")
        || (NeedsSupervision(f.role) && !NeedsBranche(f.role) && f.supervisionId != "")
        || (NeedsRegion(f.role) && !NeedsSupervision(f.role) && f.regionId != ""))
  }

  /** The deepest hierarchy choice a role must make, if any. */
  function DeepestChoice(f: Form): (id: string)
  {
    match f.role
    case Agent => f.brancheId
    case ChefBranche => f.brancheId
    case Superviseur => f.supervisionId
    case ChefAnimationRegional => f.regionId
    case Siege => "-"
  }

  /** The form may be sent exactly when the four text fields are filled
      and the deepest choice the role needs is made. */
  lemma IsFormValidIff(f: Form)
    ensures IsFormValid(f) <==>
              f.nom != "" && f.prenom != "" && f.email != "" && f.motDePasse != "" && DeepestChoice(f) != ""
  {
  }

  /** A region change: the region is set; when it really changed to a
      region, the supervision and branch choices are cleared, the branch
      list emptied and the supervision list loaded (`loaded`). A change to
      no region only empties the two lists: the choices stay as they were. */
  function ChangeRegion(f: Form, v: string, loaded: seq<string>): (r: Form)
    ensures r.regionId == v
    ensures r.nom == f.nom && r.prenom == f.prenom && r.email == f.email && r.motDePasse == f.motDePasse && r.role == f.role
    ensures v == f.regionId ==> r == f
    ensures v != f.regionId ==> r.branches == [] && r.supervisions == (if v == "" then [] else loaded)
    ensures v != f.regionId && v != "" ==> r.supervisionId == "" && r.brancheId == ""
    ensures v != f.regionId && v == "" ==> r.supervisionId == f.supervisionId && r.brancheId == f.brancheId
  {
    if v == f.regionId then f
    else if v == "" then f.(regionId := v, supervisions := [], branches := [])
    else f.(regionId := v, supervisionId := "", brancheId := "", supervisions := loaded, branches := [])
  }

  /** A supervision change: when it really changed to a supervision, the
      branch choice is cleared and the branch list loaded (`loaded`); a
      change to none only empties the branch list. */
  function ChangeSupervision(f: Form, v: string, loaded: seq<string>): (r: Form)
    ensures r.supervisionId == v
    ensures r.regionId == f.regionId && r.supervisions == f.supervisions && r.role == f.role
    ensures v == f.supervisionId ==> r == f
    ensures v != f.supervisionId ==> r.branches == (if v == "" then [] else loaded)
    ensures v != f.supervisionId ==> r.brancheId == (if v == "" then f.brancheId else "")
  {
    if v == f.supervisionId then f
    else if v == "" then f.(supervisionId := v, branches := [])
    else f.(supervisionId := v, brancheId := "", branches := loaded)
  }

  /** Moving to another region never leaves a branch chosen, so a role
      that needs a branch cannot be sent right after it. */
  lemma RegionChangeBlocksBranchRoles(f: Form, v: string, loaded: seq<string>)
    requires v != f.regionId && v != "" && NeedsBranche(f.role)
    ensures !IsFormValid(ChangeRegion(f, v, loaded))
  {
  }

  /** Clearing the region keeps the branch chosen before, so an agent's
      form is still sendable with no region selected and no branch
      offered. */
  lemma ClearedRegionKeepsStaleBranch(f: Form, loaded: seq<string>)
    requires f.role == Agent && f.nom != "" && f.prenom != "" && f.email != "" && f.motDePasse != ""
    requires f.regionId != "" && f.brancheId != ""
    ensures var g := ChangeRegion(f, "", loaded);
            IsFormValid(g) && g.regionId == "" && g.branches == [] && g.brancheId == f.brancheId
  {
  }

  /** After a region change, choosing a supervision then a branch makes
      the form sendable again for an agent with filled text fields. */
  lemma CascadeCanBeCompleted(f: Form, region: string, sup: string, branche: string,
                              sups: seq<string>, branches: seq<string>)
    requires f.role == Agent && f.nom != "" && f.prenom != "" && f.email != "" && f.motDePasse != ""
    requires region != "" && sup != "" && branche != ""
    ensures var g := ChangeSupervision(ChangeRegion(f, region, sups), sup, branches).(brancheId := branche);
            IsFormValid(g)
  {
  }

  /** The reply to the sign-up request. */
  datatype Reply = Success(message: string) | Refused(message: string) | Unreachable

  /** The banner shown under the form. */
  datatype Message = Info(text: string) | Problem(text: string)

  const MsgConnexionServeur := "Erreur de connexion au serveur"

  /** `handleSubmit` of the sign-up form: on success the form returns to
      its initial state, otherwise it is kept and the error is shown. */
  function Submit(f: Form, reply: Reply): (r: (Form, Message))
    ensures reply.Success? ==> r == (Initial(), Info(reply.message))
    ensures reply.Refused? ==> r == (f, Problem(reply.message))
    ensures reply.Unreachable? ==> r == (f, Problem(MsgConnexionServeur))
  {
    match reply
    case Success(m) => (Initial(), Info(m))
    case Refused(m) => (f, Problem(m))
    case Unreachable => (f, Problem(MsgConnexionServeur))
  }

  /** After a successful sign-up the form cannot be sent again without
      being filled in anew. */
  lemma SubmittedFormIsCleared(f: Form, m: string)
    ensures !IsFormValid(Submit(f, Success(m)).0)
  {
  }
}

/** Which parts of the signed-in dashboard (`Dashboard` in `App.tsx`) a
    role is offered and shown. */
module DashboardViews {
  import opened Roles

  datatype View = Overview | Questions | AgentArea

  /** The view shown first. */
  const InitialView := Overview

  /** The navigation buttons offered to a role, in order. */
  function Navigation(role: Role): (r: seq<View>)
    ensures |r| >= 1 && r[0] == Overview
    ensures AgentArea in r <==> role == Agent
    ensures Questions in r <==> role == Siege
  {
    [Overview] + (if role == Agent then [AgentArea] else []) + (if role == Siege then [Questions] else [])
  }

  /** The content rendered for a current view and role: each part is drawn
      only when the view is current and the role allows it. */
  function Rendered(current: View, role: Role): (r: set<View>)
    ensures Overview in r <==> current == Overview
    ensures AgentArea in r <==> current == AgentArea && role == Agent
    ensures Questions in r <==> current == Questions && role == Siege
  {
    (if current == Overview then {Overview} else {})
    + (if current == AgentArea && role == Agent then {AgentArea} else {})
    + (if current == Questions && role == Siege then {Questions} else {})
  }

  /** Whatever view is reached through the offered buttons, what is drawn
      is that view, so a role never sees a part it is not offered. */
  lemma RenderedIsOffered(role: Role, v: View)
    requires v in Navigation(role)
    ensures Rendered(v, role) == {v}
  {
  }
}

=== FILE: role.dfy ===
/** The five user roles and their hierarchy (enum `Role`). */
module Roles {
  import opened Wrappers

  datatype Role = Agent | ChefBranche | Superviseur | ChefAnimationRegional | Siege

  /** The constants in declaration order, as `Role.values()` returns them. */
  const AllRoles: seq<Role> := [Agent, ChefBranche, Superviseur, ChefAnimationRegional, Siege]

  function Level(r: Role): nat {
    match r
    case Agent => 1
    case ChefBranche => 2
    case Superviseur => 3
    case ChefAnimationRegional => 4
    case Siege => 5
  }

  /** The constant's name, as `name()` and the client's role strings spell it. */
  function Name(r: Role): string {
    match r
    case Agent => "AGENT"
    case ChefBranche => "CHEF_BRANCHE"
    case Superviseur => "SUPERVISEUR"
    case ChefAnimationRegional => "CHEF_ANIMATION_REGIONAL"
    case Siege => "SIEGE"
  }

  /** `Role.valueOf`: the role with that exact name, if any. */
  function FromName(s: string): (r: Option<Role>)
    ensures r.Some? ==> Name(r.value) == s
    ensures r.None? ==> forall x :: Name(x) != s
  {
    if s == "AGENT" then Some(Agent)
    else if s == "CHEF_BRANCHE" then Some(ChefBranche)
    else if s == "SUPERVISEUR" then Some(Superviseur)
    else if s == "CHEF_ANIMATION_REGIONAL" then Some(ChefAnimationRegional)
    else if s == "SIEGE" then Some(Siege)
    else None
  }

  predicate IsHigherThan(a: Role, b: Role) { Level(a) > Level(b) }
  predicate IsLowerThan(a: Role, b: Role) { Level(a) < Level(b) }

  /** Declaration order is hierarchy order: the i-th constant has level i + 1. */
  lemma LevelsFollowDeclarationOrder()
    ensures forall i :: 0 <= i < |AllRoles| ==> Level(AllRoles[i]) == i + 1
    ensures forall r :: r in AllRoles
  {
    forall r ensures r in AllRoles {
      assert AllRoles[Level(r) - 1] == r;
    }
  }

  lemma NameRoundTrip(r: Role)
    ensures FromName(Name(r)) == Some(r)
  {
  }

  /** `isHigherThan` is a strict total order. */
  lemma HigherIsStrictTotalOrder()
    ensures forall a :: !IsHigherThan(a, a)
    ensures forall a, b :: IsHigherThan(a, b) ==> !IsHigherThan(b, a)
    ensures forall a, b, c :: IsHigherThan(a, b) && IsHigherThan(b, c) ==> IsHigherThan(a, c)
    ensures forall a, b :: a != b ==> IsHigherThan(a, b) || IsHigherThan(b, a)
  {
  }

  lemma LowerIsConverseOfHigher(a: Role, b: Role)
    ensures IsLowerThan(a, b) <==> IsHigherThan(b, a)
  {
  }

  /** The roles of `rs`, in order, whose level is below `level`. */
  function FilterBelow(rs: seq<Role>, level: nat): (r: seq<Role>)
    ensures forall x :: x in r <==> x in rs && Level(x) < level
    ensures |r| <= |rs|
  {
    if rs == [] then []
    else if Level(rs[0]) < level then [rs[0]] + FilterBelow(rs[1..], level)
    else FilterBelow(rs[1..], level)
  }

  /** `getLowerRoles`: every constant, in declaration order, with a smaller level. */
  function LowerRoles(r: Role): seq<Role>
  {
    FilterBelow(AllRoles, Level(r))
  }

  /** The lower roles are exactly the strictly lower ones, never the role
      itself, and, because declaration order is level order, they are the
      first `Level(r) - 1` constants. */
  lemma LowerRolesExact(r: Role)
    ensures forall x :: x in LowerRoles(r) <==> IsLowerThan(x, r)
    ensures r !in LowerRoles(r)
    ensures LowerRoles(r) == AllRoles[..Level(r) - 1]
    ensures |LowerRoles(r)| == Level(r) - 1
  {
    LevelsFollowDeclarationOrder();
    FilterBelowOfLevels(AllRoles, 1, Level(r));
  }

  /** On constants listed by consecutive levels from `start`, the ones below
      `level` form a prefix. */
  lemma {:induction false} FilterBelowOfLevels(rs: seq<Role>, start: nat, level: nat)
    requires forall i :: 0 <= i < |rs| ==> Level(rs[i]) == start + i
    requires start <= level <= start + |rs|
    ensures FilterBelow(rs, level) == rs[..level - start]
  {
    if rs != [] {
      if Level(rs[0]) < level {
        FilterBelowOfLevels(rs[1..], start + 1, level);
        assert rs[..level - start] == [rs[0]] + rs[1..][..level - start - 1];
      } else {
        FilterBelowNone(rs[1..], level);
      }
    }
  }

  /** No constant is kept when none lies below `level`. */
  lemma {:induction false} FilterBelowNone(rs: seq<Role>, level: nat)
    requires forall i :: 0 <= i < |rs| ==> Level(rs[i]) >= level
    ensures FilterBelow(rs, level) == []
  {
    if rs != [] {
      FilterBelowNone(rs[1..], level);
    }
  }

  lemma LowerRolesExtremes()
    ensures LowerRoles(Agent) == []
    ensures LowerRoles(Siege) == [Agent, ChefBranche, Superviseur, ChefAnimationRegional]
  {
    LowerRolesExact(Agent);
    LowerRolesExact(Siege);
  }
}

=== FILE: sorting.dfy ===
/** A stable insertion sort on sequences, ordering by an integer key. It
    stands for the `ORDER BY` clauses of the repository queries and for
    the comparator sort of the agent's record list. */
module Sorting {

  predicate SortedBy<T>(xs: seq<T>, key: T -> int) {
    forall i, j :: 0 <= i < j < |xs| ==> key(xs[i]) <= key(xs[j])
  }

  /** A sorted sequence splits into a first element no larger than any
      later one and a sorted rest. */
  lemma SortedUncons<T>(xs: seq<T>, key: T -> int)
    requires SortedBy(xs, key) && xs != []
    ensures SortedBy(xs[1..], key)
    ensures forall y :: y in xs[1..] ==> key(xs[0]) <= key(y)
  {
    forall y | y in xs[1..] ensures key(xs[0]) <= key(y) {
      var j :| 0 <= j < |xs[1..]| && xs[1..][j] == y;
      assert y == xs[j + 1];
    }
  }

  /** An element no larger than any element of a sorted sequence may be
      put in front of it. */
  lemma SortedCons<T>(h: T, xs: seq<T>, key: T -> int)
    requires SortedBy(xs, key)
    requires forall y :: y in xs ==> key(h) <= key(y)
    ensures SortedBy([h] + xs, key)
  {
    var r := [h] + xs;
    forall i, j | 0 <= i < j < |r| ensures key(r[i]) <= key(r[j]) {
      assert r[j] == xs[j - 1];
      if i > 0 { assert r[i] == xs[i - 1]; } else { assert xs[j - 1] in xs; }
    }
  }

  function Insert<T>(x: T, xs: seq<T>, key: T -> int): (r: seq<T>)
    requires SortedBy(xs, key)
    ensures SortedBy(r, key)
    ensures forall y :: y in r ==> y == x || y in xs
    ensures multiset(r) == multiset(xs) + multiset{x}
    ensures |r| == |xs| + 1
  {
    if xs == [] then [x]
    else if key(x) <= key(xs[0]) then
      SortedUncons(xs, key);
      assert xs == [xs[0]] + xs[1..];
      SortedCons(x, xs, key);
      [x] + xs
    else
      SortedUncons(xs, key);
      var rest := Insert(x, xs[1..], key);
      assert xs == [xs[0]] + xs[1..];
      SortedCons(xs[0], rest, key);
      [xs[0]] + rest
  }

  /** `xs` ordered by ascending `key`, as a permutation of `xs`. */
  function SortBy<T>(xs: seq<T>, key: T -> int): (r: seq<T>)
    ensures SortedBy(r, key)
    ensures multiset(r) == multiset(xs)
    ensures |r| == |xs|
  {
    if xs == [] then []
    else
      assert xs == [xs[0]] + xs[1..];
      Insert(xs[0], SortBy(xs[1..], key), key)
  }
}

=== FILE: statut.dfy ===
/** The prospection status life cycle (enum `StatutProspection`). */
module Statuts {
  import opened Wrappers

  datatype Statut = Nouveau | Assigne | EnCours | Converti | Abandonne

  const AllStatuts: seq<Statut> := [Nouveau, Assigne, EnCours, Converti, Abandonne]

  function Name(s: Statut): string {
    match s
    case Nouveau => "NOUVEAU"
    case Assigne => "ASSIGNE"
    case EnCours => "EN_COURS"
    case Converti => "CONVERTI"
    case Abandonne => "ABANDONNE"
  }

  /** The `cssClass` each constant carries. */
  function CssClass(s: Statut): string {
    match s
    case Nouveau => "bg-blue-100 text-blue-800"
    case Assigne => "bg-yellow-100 text-yellow-800"
    case EnCours => "bg-orange-100 text-orange-800"
    case Converti => "bg-green-100 text-green-800"
    case Abandonne => "bg-red-100 text-red-800"
  }

  /** `peutTransitionnerVers`. */
  predicate CanTransition(from: Statut, to: Statut) {
    match from
    case Nouveau => to == Assigne || to == Abandonne
    case Assigne => to == EnCours || to == Converti || to == Abandonne
    case EnCours => to == Converti || to == Abandonne
    case Converti => false
    case Abandonne => to == EnCours
  }

  /** `getTransitionsPossibles`, written as its own table. */
  function TransitionsPossibles(from: Statut): (r: seq<Statut>)
    ensures forall i, j :: 0 <= i < j < |r| ==> r[i] != r[j]
    ensures forall t :: t in r <==> CanTransition(from, t)
  {
    match from
    case Nouveau => [Assigne, Abandonne]
    case Assigne => [EnCours, Converti, Abandonne]
    case EnCours => [Converti, Abandonne]
    case Converti => []
    case Abandonne => [EnCours]
  }

  predicate EstFinal(s: Statut) { s == Converti }
  predicate EstActif(s: Statut) { s != Converti && s != Abandonne }

  /** No status moves to itself, and nothing ever returns to NOUVEAU. */
  lemma NoSelfLoopNoReturnToNouveau(s: Statut, t: Statut)
    ensures !CanTransition(s, s)
    ensures !CanTransition(t, Nouveau)
  {
  }

  /** CONVERTI, the final status, is exactly the one without a way out;
      ABANDONNE is inactive but can still be reopened. */
  lemma FinalIffNoTransition(s: Statut)
    ensures EstFinal(s) <==> TransitionsPossibles(s) == []
    ensures EstFinal(s) ==> !EstActif(s)
    ensures CanTransition(Abandonne, EnCours) && !EstActif(Abandonne)
  {
  }

  /** The life cycle cannot dead-end: every status reaches CONVERTI in at
      most two transitions. */
  lemma ConvertiReachable(s: Statut)
    ensures s == Converti || CanTransition(s, Converti)
         || exists m :: CanTransition(s, m) && CanTransition(m, Converti)
  {
    if s == Nouveau { assert CanTransition(Nouveau, Assigne); }
    if s == Abandonne { assert CanTransition(Abandonne, EnCours); }
  }

  /** The five colour classes are pairwise distinct. */
  lemma CssClassInjective(a: Statut, b: Statut)
    requires CssClass(a) == CssClass(b)
    ensures a == b
  {
    assert CssClass(a)[3] == CssClass(b)[3];
    assert CssClass(a)[4] == CssClass(b)[4];
  }
}

=== FILE: strings.dfy ===
/** String primitives with the exact semantics of the two runtimes the
    system is written for: Java (`String.trim`, `String.split(",")`,
    `equalsIgnoreCase`) and JavaScript (`String.prototype.trim`,
    `split(",")`, `join`, `includes`, `toLowerCase`). */
module Strings {

  // ---------------------------------------------------------------------
  // Whitespace and trimming
  // ---------------------------------------------------------------------

  /** Java's `String.trim` removes every character whose code is at most U+0020. */
  predicate IsJavaSpace(c: char) {
    c <= ' '
  }

  /** ECMAScript's WhiteSpace and LineTerminator code points, which
      `String.prototype.trim` removes. */
  predicate IsJsSpace(c: char) {
    || c == '\t' || c == '\n' || c == '\U{B}' || c == '\U{C}' || c == '\r'
    || c == ' ' || c == '\U{A0}' || c == '\U{1680}'
    || ('\U{2000}' <= c <= '\U{200A}')
    || c == '\U{2028}' || c == '\U{2029}' || c == '\U{202F}' || c == '\U{205F}'
    || c == '\U{3000}' || c == '\U{FEFF}'
  }

  /** Number of leading characters of `s` satisfying `ws`. */
  function LeadingCount(s: string, ws: char -> bool): (n: nat)
    ensures n <= |s|
    ensures forall i :: 0 <= i < n ==> ws(s[i])
    ensures n < |s| ==> !ws(s[n])
  {
    if s == [] || !ws(s[0]) then 0 else 1 + LeadingCount(s[1..], ws)
  }

  /** Number of trailing characters of `s` satisfying `ws`. */
  function TrailingCount(s: string, ws: char -> bool): (n: nat)
    ensures n <= |s|
    ensures forall i :: |s| - n <= i < |s| ==> ws(s[i])
    ensures n < |s| ==> !ws(s[|s| - n - 1])
  {
    if s == [] || !ws(s[|s| - 1]) then 0 else 1 + TrailingCount(s[..|s| - 1], ws)
  }

  /** `s` with its leading and trailing `ws` characters removed. */
  function TrimBy(s: string, ws: char -> bool): (r: string)
    ensures r == [] <==> forall i :: 0 <= i < |s| ==> ws(s[i])
    ensures r != [] ==> !ws(r[0]) && !ws(r[|r| - 1])
  {
    var a := LeadingCount(s, ws);
    if a == |s| then
      assert s[a..a] == [];
      []
    else
      var b := |s| - TrailingCount(s, ws);
      assert !ws(s[a]);
      s[a..b]
  }

  /** The trimmed string is a slice of the original with only `ws`
      characters cut on either side. */
  lemma TrimIsSlice(s: string, ws: char -> bool)
    ensures exists a, b :: 0 <= a <= b <= |s| && TrimBy(s, ws) == s[a..b]
                           && (forall i :: 0 <= i < a ==> ws(s[i]))
                           && (forall i :: b <= i < |s| ==> ws(s[i]))
  {
    var a := LeadingCount(s, ws);
    if a == |s| {
      assert TrimBy(s, ws) == s[a..a];
    } else {
      var b := |s| - TrailingCount(s, ws);
      assert TrimBy(s, ws) == s[a..b];
    }
  }

  /** Java's `String.trim`: strips every character up to U+0020. */
  function JavaTrim(s: string): (r: string)
    ensures r == [] <==> forall i :: 0 <= i < |s| ==> IsJavaSpace(s[i])
    ensures r != [] ==> !IsJavaSpace(r[0]) && !IsJavaSpace(r[|r| - 1])
  {
    TrimBy(s, IsJavaSpace)
  }

  /** JavaScript's `String.prototype.trim`: strips white space and line
      terminators. */
  function JsTrim(s: string): (r: string)
    ensures r == [] <==> forall i :: 0 <= i < |s| ==> IsJsSpace(s[i])
    ensures r != [] ==> !IsJsSpace(r[0]) && !IsJsSpace(r[|r| - 1])
  {
    TrimBy(s, IsJsSpace)
  }

  /** Java's `s.trim().isEmpty()`. */
  predicate IsJavaBlank(s: string) { JavaTrim(s) == "" }
  /** JavaScript's `s.trim() === ''`. */
  predicate IsJsBlank(s: string) { JsTrim(s) == "" }

  /** Trimming twice is trimming once. */
  lemma TrimIdempotent(s: string, ws: char -> bool)
    ensures TrimBy(TrimBy(s, ws), ws) == TrimBy(s, ws)
  {
    var r := TrimBy(s, ws);
    if r != [] {
      TrimNoop(r, ws);
    }
  }

  /** A string that neither starts nor ends with a `ws` character is its
      own trim. */
  lemma TrimNoop(s: string, ws: char -> bool)
    requires s == [] || (!ws(s[0]) && !ws(s[|s| - 1]))
    ensures TrimBy(s, ws) == s
  {
    if s != [] {
      assert LeadingCount(s, ws) == 0;
      assert TrailingCount(s, ws) == 0;
      assert s[0..|s|] == s;
    }
  }

  /** Trimming cuts exactly one padding character on each side of an
      unpadded core. */
  lemma TrimPadded(c: char, m: string, d: char, ws: char -> bool)
    requires ws(c) && ws(d) && m != [] && !ws(m[0]) && !ws(m[|m| - 1])
    ensures TrimBy([c] + m + [d], ws) == m
  {
    var s := [c] + m + [d];
    assert s[1..] == m + [d];
    assert LeadingCount(s[1..], ws) == 0;
    assert LeadingCount(s, ws) == 1;
    assert s[..|s| - 1] == [c] + m;
    assert TrailingCount(s[..|s| - 1], ws) == 0;
    assert TrailingCount(s, ws) == 1;
    assert s[1..|s| - 1] == m;
  }

  /** Trimming cuts one leading padding character off an unpadded core. */
  lemma TrimPaddedLeft(c: char, m: string, ws: char -> bool)
    requires ws(c) && m != [] && !ws(m[0]) && !ws(m[|m| - 1])
    ensures TrimBy([c] + m, ws) == m
  {
    var s := [c] + m;
    assert s[1..] == m;
    assert LeadingCount(s[1..], ws) == 0;
    assert LeadingCount(s, ws) == 1;
    assert TrailingCount(s, ws) == 0;
    assert s[1..|s|] == m;
  }

  /** The two runtimes disagree on blankness: a no-break space is blank
      for JavaScript and not for Java, a U+0001 control is blank for
      Java and not for JavaScript. */
  lemma BlanknessDisagrees()
    ensures IsJsBlank("\U{A0}") && !IsJavaBlank("\U{A0}")
    ensures IsJavaBlank("\U{1}") && !IsJsBlank("\U{1}")
  {
    assert !IsJavaSpace("\U{A0}"[0]);
    assert !IsJsSpace("\U{1}"[0]);
  }

  // ---------------------------------------------------------------------
  // Prefixes, substrings, ASCII case
  // ---------------------------------------------------------------------

  /** Java `startsWith` / JavaScript `startsWith`: case-sensitive prefix test. */
  predicate StartsWith(s: string, prefix: string) {
    |prefix| <= |s| && s[..|prefix|] == prefix
  }

  /** Java `contains` / JavaScript `includes`: case-sensitive substring test. */
  predicate Contains(s: string, part: string) {
    exists i :: 0 <= i <= |s| - |part| && OccursAt(s, part, i)
  }

  predicate OccursAt(s: string, part: string, i: int)
    requires 0 <= i <= |s| - |part|
  {
    s[i..i + |part|] == part
  }

  lemma ContainsEmpty(s: string)
    ensures Contains(s, "")
  {
    assert OccursAt(s, "", 0);
  }

  predicate IsAsciiUpper(c: char) { 'A' <= c <= 'Z' }
  predicate IsAsciiLower(c: char) { 'a' <= c <= 'z' }
  predicate IsAsciiLetter(c: char) { IsAsciiUpper(c) || IsAsciiLower(c) }
  predicate IsAsciiDigit(c: char) { '0' <= c <= '9' }

  function ToLowerChar(c: char): (d: char)
    ensures IsAsciiUpper(c) ==> IsAsciiLower(d) && d as int == c as int + 32
    ensures !IsAsciiUpper(c) ==> d == c
  {
    if IsAsciiUpper(c) then (c as int + 32) as char else c
  }

  /** Lower-casing, restricted to the ASCII letters. */
  function ToLower(s: string): (r: string)
    ensures |r| == |s|
    ensures forall i :: 0 <= i < |s| ==> r[i] == ToLowerChar(s[i])
  {
    seq(|s|, i requires 0 <= i < |s| => ToLowerChar(s[i]))
  }

  /** Java's `equalsIgnoreCase`, restricted to the ASCII letters. */
  predicate EqualsIgnoreCase(a: string, b: string) {
    ToLower(a) == ToLower(b)
  }

  // ---------------------------------------------------------------------
  // Splitting and joining
  // ---------------------------------------------------------------------

  /** Index of the first occurrence of `c` in `s`. */
  function IndexOf(s: string, c: char): (k: nat)
    requires c in s
    ensures k < |s| && s[k] == c && c !in s[..k]
  {
    if s[0] == c then 0 else 1 + IndexOf(s[1..], c)
  }

  /** JavaScript's `s.split(sep)` for a one-character separator: every
      piece, empty ones included; `"".split(",")` is `[""]`. */
  function SplitAll(s: string, sep: char): (r: seq<string>)
    ensures |r| >= 1
    ensures forall i :: 0 <= i < |r| ==> sep !in r[i]
    ensures sep !in s ==> r == [s]
    decreases |s|
  {
    if sep !in s then [s]
    else
      var k := IndexOf(s, sep);
      [s[..k]] + SplitAll(s[k + 1..], sep)
  }

  /** JavaScript's `xs.join(sep)` and Java's `String.join(sep, xs)`. */
  function Join(xs: seq<string>, sep: string): string
  {
    if |xs| == 0 then ""
    else if |xs| == 1 then xs[0]
    else xs[0] + sep + Join(xs[1..], sep)
  }

  lemma {:induction false} JoinAppend(xs: seq<string>, x: string, sep: string)
    requires |xs| >= 1
    ensures Join(xs + [x], sep) == Join(xs, sep) + sep + x
    decreases |xs|
  {
    if |xs| == 1 {
      assert xs + [x] == [xs[0], x];
    } else {
      assert (xs + [x])[1..] == xs[1..] + [x];
      JoinAppend(xs[1..], x, sep);
    }
  }

  /** Joining the pieces of a split with the same separator restores the string. */
  lemma {:induction false} JoinSplitAll(s: string, sep: char)
    ensures Join(SplitAll(s, sep), [sep]) == s
    decreases |s|
  {
    if sep in s {
      var k := IndexOf(s, sep);
      JoinSplitAll(s[k + 1..], sep);
      assert s == s[..k] + [sep] + s[k + 1..];
    }
  }

  /** Splitting a join of separator-free pieces gives the pieces back. */
  lemma {:induction false} SplitAllJoin(xs: seq<string>, sep: char)
    requires |xs| >= 1
    requires forall i :: 0 <= i < |xs| ==> sep !in xs[i]
    ensures SplitAll(Join(xs, [sep]), sep) == xs
    decreases |xs|
  {
    if |xs| > 1 {
      var s := Join(xs, [sep]);
      assert s == xs[0] + [sep] + Join(xs[1..], [sep]);
      assert s[|xs[0]|] == sep;
      assert s[..|xs[0]|] == xs[0];
      assert IndexOf(s, sep) == |xs[0]|;
      assert s[|xs[0]| + 1..] == Join(xs[1..], [sep]);
      SplitAllJoin(xs[1..], sep);
    }
  }

  /** `xs` without its trailing empty strings. */
  function DropTrailingEmpty(xs: seq<string>): (r: seq<string>)
    ensures |r| <= |xs| && r == xs[..|r|]
    ensures r == [] || r[|r| - 1] != ""
    ensures forall i :: |r| <= i < |xs| ==> xs[i] == ""
  {
    if xs == [] || xs[|xs| - 1] != "" then xs else DropTrailingEmpty(xs[..|xs| - 1])
  }

  /** Java's `s.split(",")` for a one-character literal separator: the
      string itself when the separator does not occur, otherwise every
      piece with the trailing empty ones removed (so `",".split(",")` is
      empty and `"".split(",")` is `[""]`). */
  function JavaSplit(s: string, sep: char): (r: seq<string>)
    ensures forall i :: 0 <= i < |r| ==> sep !in r[i]
    ensures sep !in s ==> r == [s]
    ensures sep in s ==> r == [] || r[|r| - 1] != ""
  {
    if sep !in s then [s] else DropTrailingEmpty(SplitAll(s, sep))
  }

  /** A trailing separator after separator-free pieces, the last one not
      empty, is dropped by Java's split: the pieces come back. */
  lemma JavaSplitTrailingSeparator(xs: seq<string>, sep: char)
    requires |xs| >= 1 && xs[|xs| - 1] != ""
    requires forall i :: 0 <= i < |xs| ==> sep !in xs[i]
    ensures JavaSplit(Join(xs, [sep]) + [sep], sep) == xs
  {
    var s := Join(xs, [sep]) + [sep];
    SplitAllTrailingSeparator(xs, sep);
    assert sep in s by { assert s[|s| - 1] == sep; }
    var ys := xs + [""];
    assert ys[..|ys| - 1] == xs;
  }

  /** The pieces of a join followed by one more separator: the pieces and
      a last empty one. */
  lemma SplitAllTrailingSeparator(xs: seq<string>, sep: char)
    requires |xs| >= 1
    requires forall i :: 0 <= i < |xs| ==> sep !in xs[i]
    ensures SplitAll(Join(xs, [sep]) + [sep], sep) == xs + [""]
  {
    var ys := xs + [""];
    JoinAppend(xs, "", [sep]);
    assert Join(xs, [sep]) + [sep] + "" == Join(xs, [sep]) + [sep];
    forall i | 0 <= i < |ys| ensures sep !in ys[i] {
      if i < |xs| { assert ys[i] == xs[i]; }
    }
    SplitAllJoin(ys, sep);
  }

  /** A string made only of separators splits, in Java, into no piece at all. */
  lemma {:induction false} JavaSplitOfSeparatorsIsEmpty(n: nat, sep: char)
    requires n >= 1
    ensures JavaSplit(seq(n, _ => sep), sep) == []
  {
    var s := seq(n, _ => sep);
    assert s[0] == sep;
    AllPiecesEmpty(s, sep);
    DropAllEmpty(SplitAll(s, sep));
  }

  lemma {:induction false} AllPiecesEmpty(s: string, sep: char)
    requires forall i :: 0 <= i < |s| ==> s[i] == sep
    ensures forall i :: 0 <= i < |SplitAll(s, sep)| ==> SplitAll(s, sep)[i] == ""
    decreases |s|
  {
    if s != [] {
      assert s[0] == sep;
      var k := IndexOf(s, sep);
      assert k == 0;
      AllPiecesEmpty(s[1..], sep);
    }
  }

  lemma {:induction false} DropAllEmpty(xs: seq<string>)
    requires forall i :: 0 <= i < |xs| ==> xs[i] == ""
    ensures DropTrailingEmpty(xs) == []
    decreases |xs|
  {
    if xs != [] {
      DropAllEmpty(xs[..|xs| - 1]);
    }
  }

  /** `xs` without any entry equal to `x` (JavaScript `filter(s => s !== x)`). */
  function Without(xs: seq<string>, x: string): (r: seq<string>)
    ensures |r| <= |xs|
    ensures x !in r
    ensures forall y :: y != x ==> (y in r <==> y in xs)
  {
    if xs == [] then []
    else if xs[0] == x then Without(xs[1..], x)
    else [xs[0]] + Without(xs[1..], x)
  }

  lemma {:induction false} WithoutAbsent(xs: seq<string>, x: string)
    requires x !in xs
    ensures Without(xs, x) == xs
  {
    if xs != [] {
      WithoutAbsent(xs[1..], x);
    }
  }

  lemma {:induction false} WithoutAppend(xs: seq<string>, x: string)
    requires x !in xs
    ensures Without(xs + [x], x) == xs
  {
    if xs == [] {
    } else {
      assert (xs + [x])[1..] == xs[1..] + [x];
      WithoutAppend(xs[1..], x);
    }
  }

  // ---------------------------------------------------------------------
  // Decimal rendering of identifiers
  // ---------------------------------------------------------------------

  function DigitChar(d: nat): (c: char)
    requires d < 10
    ensures IsAsciiDigit(c)
  {
    ('0' as int + d) as char
  }

  /** JavaScript's rendering of a non-negative integer id in a template string. */
  function NatToString(n: nat): (r: string)
    ensures |r| >= 1
    ensures n >= 10 ==> |r| >= 2
    ensures forall i :: 0 <= i < |r| ==> IsAsciiDigit(r[i])
  {
    if n < 10 then [DigitChar(n)] else NatToString(n / 10) + [DigitChar(n % 10)]
  }

  /** Distinct ids render to distinct strings. */
  lemma {:induction false} NatToStringInjective(a: nat, b: nat)
    requires NatToString(a) == NatToString(b)
    ensures a == b
    decreases a
  {
    var s := NatToString(a);
    if a < 10 && b < 10 {
      assert s[0] == DigitChar(a) && s[0] == DigitChar(b);
    } else if a >= 10 && b >= 10 {
      assert s[|s| - 1] == DigitChar(a % 10) && s[|s| - 1] == DigitChar(b % 10);
      assert NatToString(a / 10) == s[..|s| - 1] == NatToString(b / 10);
      NatToStringInjective(a / 10, b / 10);
    }
  }

  /** Decimal rendering of a possibly negative integer, as Java's string
      concatenation writes a `Long`. */
  function IntToString(n: int): (r: string)
    ensures |r| >= 1 && (r[0] == '-' <==> n < 0)
  {
    if n >= 0 then NatToString(n) else "-" + NatToString(-n)
  }

  /** Distinct integers render to distinct strings. */
  lemma IntToStringInjective(a: int, b: int)
    requires IntToString(a) == IntToString(b)
    ensures a == b
  {
    var s := IntToString(a);
    if a >= 0 && b >= 0 {
      NatToStringInjective(a, b);
    } else if a < 0 && b < 0 {
      assert NatToString(-a) == s[1..] == NatToString(-b);
      NatToStringInjective(-a, -b);
    }
  }
}

=== FILE: tokens.dfy ===
/** The server's revoked-token set (`TokenBlacklistService`): a set of
    token strings that only grows. */
module TokenBlacklist {
  import opened Wrappers

  type Blacklist = set<string>

  /** The set as the service is created. */
  const Empty: Blacklist := {}

  /** `isTokenBlacklisted`; a query is a pure function of the set, so it
      leaves the set as it is. */
  predicate IsTokenBlacklisted(b: Blacklist, token: string) {
    token in b
  }

  /** `blacklistToken`. */
  function BlacklistToken(b: Blacklist, token: string): (r: Blacklist)
    ensures IsTokenBlacklisted(r, token)
    ensures forall t :: IsTokenBlacklisted(r, t) <==> IsTokenBlacklisted(b, t) || t == token
  {
    b + {token}
  }

  /** `blacklistTokens`: each argument that is not null is added. */
  function BlacklistTokens(b: Blacklist, access: Option<string>, refresh: Option<string>): (r: Blacklist)
    ensures access.Some? ==> IsTokenBlacklisted(r, access.value)
    ensures refresh.Some? ==> IsTokenBlacklisted(r, refresh.value)
    ensures forall t :: IsTokenBlacklisted(r, t) <==>
              IsTokenBlacklisted(b, t) || access == Some(t) || refresh == Some(t)
  {
    var withAccess := if access.Some? then BlacklistToken(b, access.value) else b;
    if refresh.Some? then BlacklistToken(withAccess, refresh.value) else withAccess
  }

  /** No operation removes a token, adding one twice is adding it once, and
      two null arguments change nothing. */
  lemma BlacklistOnlyGrows(b: Blacklist, token: string, access: Option<string>, refresh: Option<string>)
    ensures b <= BlacklistToken(b, token) && b <= BlacklistTokens(b, access, refresh)
    ensures BlacklistToken(BlacklistToken(b, token), token) == BlacklistToken(b, token)
    ensures BlacklistTokens(b, None, None) == b
    ensures BlacklistTokens(b, Some(token), None) == BlacklistToken(b, token)
  {
  }
}

/** `JwtUtil.extractTokenFromHeader`: the `Authorization: Bearer` scheme of
    section 2.1 of RFC 6750, with the scheme name matched case-sensitively
    and followed by exactly one space. */
module BearerHeader {
  import opened Wrappers
  import opened Strings

  const Scheme := "Bearer "

  /** `None` stands for a null header and for the null result. */
  function ExtractTokenFromHeader(header: Option<string>): (r: Option<string>)
    ensures r.Some? <==> header.Some? && StartsWith(header.value, Scheme)
    ensures r.Some? ==> header.value == Scheme + r.value
  {
    if header.Some? && StartsWith(header.value, Scheme) then Some(header.value[7..]) else None
  }

  /** Every token is recovered from the header built from it, even the
      empty one. */
  lemma ExtractBuiltHeader(token: string)
    ensures ExtractTokenFromHeader(Some(Scheme + token)) == Some(token)
  {
    assert (Scheme + token)[..7] == Scheme;
    assert (Scheme + token)[7..] == token;
  }

  /** A lower-case scheme, the scheme without its space, and no header all
      give no token. */
  lemma ExtractRejects()
    ensures ExtractTokenFromHeader(None).None?
    ensures ExtractTokenFromHeader(Some("bearer x")).None?
    ensures ExtractTokenFromHeader(Some("Bearer")).None?
  {
    assert "bearer x"[..7] != Scheme by { assert "bearer x"[0] != Scheme[0]; }
  }
}

/** The request filter (`JwtAuthenticationFilter`): which requests skip
    token checking, and when an authenticated principal is installed. The
    JWT library is replaced by two function parameters: the subject a token
    yields (`None` when reading it throws or gives null) and whether the
    signature check passes. */
module JwtFilter {
  import opened Wrappers
  import opened Strings
  import opened TokenBlacklist
  import opened BearerHeader
  import Users

  /** `shouldNotFilter`. */
  predicate ShouldNotFilter(path: string, verb: string) {
    || path == "/api/auth/login" || path == "/auth/login"
    || path == "/api/auth/register" || path == "/auth/register"
    || path == "/api/auth/ping" || path == "/auth/ping"
    || StartsWith(path, "/structure/")
    || StartsWith(path, "/h2-console")
    || path == "/actuator/health"
    || path == "/error"
    || verb == "OPTIONS"
  }

  /** The paths that bypass the filter for every method. */
  const PublicPaths := {"/api/auth/login", "/auth/login", "/api/auth/register", "/auth/register",
                        "/api/auth/ping", "/auth/ping", "/actuator/health", "/error"}

  /** The filter is skipped exactly for preflight requests, the listed
      paths and the two public prefixes; in particular the refresh and
      logout endpoints and the client's `/api/structure/` lookups are
      filtered. */
  lemma ShouldNotFilterCases(path: string, verb: string)
    ensures ShouldNotFilter(path, verb) <==>
              verb == "OPTIONS" || path in PublicPaths
              || StartsWith(path, "/structure/") || StartsWith(path, "/h2-console")
    ensures verb != "OPTIONS" ==> !ShouldNotFilter("/api/auth/refresh", verb)
    ensures verb != "OPTIONS" ==> !ShouldNotFilter("/api/auth/logout", verb)
    ensures verb != "OPTIONS" ==> !ShouldNotFilter("/api/structure/regions", verb)
  {
    if verb != "OPTIONS" {
      assert "/api/structure/regions"[1] != "/structure/"[1];
      assert "/api/structure/regions"[1] != "/h2-console"[1];
      assert "/api/auth/refresh"[1] != "/structure/"[1] && "/api/auth/refresh"[1] != "/h2-console"[1];
      assert "/api/auth/logout"[1] != "/structure/"[1] && "/api/auth/logout"[1] != "/h2-console"[1];
    }
  }

  /** The parts of the JWT library the filter relies on. */
  datatype Jwt = Jwt(subject: string -> Option<string>, verifies: string -> bool)

  /** `doFilterInternal`: the authentication in the security context after
      the filter, given the one before it (`existing`), the users by e-mail
      and the blacklist. The request always continues down the chain. */
  function DoFilter(path: string, verb: string, header: Option<string>, b: Blacklist,
                    jwt: Jwt, users: map<string, Users.Utilisateur>,
                    existing: Option<Users.Utilisateur>): (r: Option<Users.Utilisateur>)
    ensures r != existing ==> existing.None? && r.Some?
    ensures r != existing ==>
              && !ShouldNotFilter(path, verb)
              && ExtractTokenFromHeader(header).Some?
              && !IsTokenBlacklisted(b, ExtractTokenFromHeader(header).value)
  {
    if ShouldNotFilter(path, verb) then existing
    else match ExtractTokenFromHeader(header)
      case None => existing
      case Some(token) =>
        if IsTokenBlacklisted(b, token) then existing
        else match jwt.subject(token)
          case None => existing
          case Some(username) =>
            if existing.Some? then existing
            else if username !in users then existing
            else if !jwt.verifies(token) then existing
            else Some(users[username])
  }

  /** A principal is installed exactly when none was present and the
      request is filtered, carries a bearer token that is not revoked,
      names a known user and passes the signature check; the principal is
      that user. */
  lemma DoFilterAuthenticatesIff(path: string, verb: string, header: Option<string>, b: Blacklist,
                                 jwt: Jwt, users: map<string, Users.Utilisateur>)
    ensures var r := DoFilter(path, verb, header, b, jwt, users, None);
            var token := ExtractTokenFromHeader(header);
            r.Some? <==>
              && !ShouldNotFilter(path, verb) && token.Some? && !IsTokenBlacklisted(b, token.value)
              && jwt.subject(token.value).Some? && jwt.subject(token.value).value in users
              && jwt.verifies(token.value)
    ensures var r := DoFilter(path, verb, header, b, jwt, users, None);
            var token := ExtractTokenFromHeader(header);
            r.Some? ==> r == Some(users[jwt.subject(token.value).value])
  {
  }

  /** A revoked token never authenticates, whatever it verifies to. */
  lemma RevokedTokenNeverAuthenticates(path: string, verb: string, token: string, b: Blacklist,
                                       jwt: Jwt, users: map<string, Users.Utilisateur>,
                                       existing: Option<Users.Utilisateur>)
    requires IsTokenBlacklisted(b, token)
    ensures DoFilter(path, verb, Some(Scheme + token), b, jwt, users, existing) == existing
  {
    ExtractBuiltHeader(token);
  }

  /** Once both tokens of a session are passed to `blacklistTokens`, the
      access token no longer authenticates anyone. */
  lemma RevokedSessionRejected(path: string, verb: string, access: string, refresh: Option<string>,
                               b: Blacklist, jwt: Jwt, users: map<string, Users.Utilisateur>)
    ensures DoFilter(path, verb, Some(Scheme + access), BlacklistTokens(b, Some(access), refresh),
                     jwt, users, None).None?
  {
    RevokedTokenNeverAuthenticates(path, verb, access, BlacklistTokens(b, Some(access), refresh),
                                   jwt, users, None);
  }
}

=== FILE: typeprospection.dfy ===
/** The three prospection categories (enum `TypeProspection`). */
module ProspectionTypes {
  import opened Wrappers
  import Roles

  datatype TypeProspection = CampagneProspection | PlanningAgent | EvenementCulturel

  const AllTypes: seq<TypeProspection> := [CampagneProspection, PlanningAgent, EvenementCulturel]

  function Name(t: TypeProspection): string {
    match t
    case CampagneProspection => "CAMPAGNE_PROSPECTION"
    case PlanningAgent => "PLANNING_AGENT"
    case EvenementCulturel => "EVENEMENT_CULTUREL"
  }

  function FromName(s: string): (r: Option<TypeProspection>)
    ensures r.Some? ==> Name(r.value) == s
    ensures r.None? ==> forall t :: Name(t) != s
  {
    if s == "CAMPAGNE_PROSPECTION" then Some(CampagneProspection)
    else if s == "PLANNING_AGENT" then Some(PlanningAgent)
    else if s == "EVENEMENT_CULTUREL" then Some(EvenementCulturel)
    else None
  }

  /** `getAssignationInitiale`: the name of the role a new record of this
      category first goes to. */
  function AssignationInitiale(t: TypeProspection): (r: string)
    ensures Roles.FromName(r).Some?
    ensures r == Roles.Name(Roles.Agent) <==> t == PlanningAgent
  {
    match t
    case CampagneProspection => "CHEF_BRANCHE"
    case PlanningAgent => "AGENT"
    case EvenementCulturel => "CHEF_ANIMATION_REGIONAL"
  }

  /** The role each category's initial assignation names. */
  lemma AssignationRoles()
    ensures Roles.FromName(AssignationInitiale(CampagneProspection)) == Some(Roles.ChefBranche)
    ensures Roles.FromName(AssignationInitiale(PlanningAgent)) == Some(Roles.Agent)
    ensures Roles.FromName(AssignationInitiale(EvenementCulturel)) == Some(Roles.ChefAnimationRegional)
  {
  }

  /** `getWorkflow`, total over the three categories. */
  function Workflow(t: TypeProspection): (r: string)
    ensures r != ""
    ensures t == PlanningAgent <==> r == "Agent \U{2192} Direct"
  {
    match t
    case CampagneProspection => "Agent \U{2192} Chef Branche \U{2192} Agent"
    case PlanningAgent => "Agent \U{2192} Direct"
    case EvenementCulturel => "Région \U{2192} Branche \U{2192} Agent"
  }
}

=== FILE: userregistration.dfy ===
/** Account creation (`UserRegistrationService.createUser`): the duplicate
    e-mail check, the defaults, and the hierarchy links set from the role.
    The repositories are sequences of stored rows; the password encoder is
    a function parameter; the creation date is left out. */
module UserRegistration {
  import opened Wrappers
  import opened Roles
  import opened Users

  /** The rows the service reads: users, regions, supervisions, branches. */
  datatype Directory = Directory(
    users: seq<Utilisateur>, regions: seq<Region>, supervisions: seq<Supervision>, branches: seq<Branche>)

  const MsgEmailExiste := "Un utilisateur avec cet email existe d\U{E9}j\U{E0}"
  const TelephoneParDefaut := "0000000000"

  /** `existsByEmail`. */
  predicate EmailTaken(users: seq<Utilisateur>, email: string) {
    exists i :: 0 <= i < |users| && users[i].email == email
  }

  /** `findById` of a repository, on a possibly null id: the first row
      whose key is `id`. */
  function FindById<T(==)>(rows: seq<T>, id: Option<int>, key: T -> int): (r: Option<T>)
    ensures r.Some? ==> id.Some? && r.value in rows && key(r.value) == id.value
    ensures r.None? <==> id.None? || forall x :: x in rows ==> key(x) != id.value
  {
    if id.None? || |rows| == 0 then None
    else if key(rows[0]) == id.value then Some(rows[0])
    else FindById(rows[1..], id, key)
  }

  function RegionKey(x: Region): int { x.id }
  function SupervisionKey(x: Supervision): int { x.id }
  function BrancheKey(x: Branche): int { x.id }

  /** The links a branch implies: itself, its supervision, that region. */
  function LinksOfBranche(b: Option<Branche>): (Option<Region>, Option<Supervision>, Option<Branche>)
  {
    if b.None? then (None, None, None)
    else (Some(b.value.supervision.region), Some(b.value.supervision), b)
  }

  function LinksOfSupervision(s: Option<Supervision>): (Option<Region>, Option<Supervision>, Option<Branche>)
  {
    if s.None? then (None, None, None) else (Some(s.value.region), s, None)
  }

  /** The region, supervision and branch set by the role switch: each role
      reads only the id of its own level, and an id that is null or not
      found leaves every link null. */
  function Placement(d: Directory, role: Role, regionId: Option<int>, supervisionId: Option<int>,
                     brancheId: Option<int>): (r: (Option<Region>, Option<Supervision>, Option<Branche>))
    ensures role in {Agent, ChefBranche} ==> r == LinksOfBranche(FindById(d.branches, brancheId, BrancheKey))
    ensures role == Superviseur ==> r == LinksOfSupervision(FindById(d.supervisions, supervisionId, SupervisionKey))
    ensures role == ChefAnimationRegional ==> r == (FindById(d.regions, regionId, RegionKey), None, None)
    ensures role == Siege ==> r == (None, None, None)
  {
    match role
    case Agent => LinksOfBranche(FindById(d.branches, brancheId, BrancheKey))
    case ChefBranche => LinksOfBranche(FindById(d.branches, brancheId, BrancheKey))
    case Superviseur => LinksOfSupervision(FindById(d.supervisions, supervisionId, SupervisionKey))
    case ChefAnimationRegional => (FindById(d.regions, regionId, RegionKey), None, None)
    case Siege => (None, None, None)
  }

  /** `createUser`; a null role makes the role switch throw. The user is
      returned as saved, with the identifier `id` the store assigns. */
  function CreateUser(d: Directory, nom: string, prenom: string, email: string, telephone: Option<string>,
                      motDePasse: string, encode: string -> string, role: Option<Role>,
                      regionId: Option<int>, supervisionId: Option<int>, brancheId: Option<int>,
                      id: int): (r: Result<Utilisateur>)
    ensures EmailTaken(d.users, email) ==> r == Failure(Runtime(MsgEmailExiste))
    ensures !EmailTaken(d.users, email) && role.None? ==> r == Failure(NullReference)
    ensures r.Success? <==> !EmailTaken(d.users, email) && role.Some?
    ensures r.Success? ==>
              && r.value.id == id && r.value.nom == nom && r.value.prenom == prenom && r.value.email == email
              && r.value.telephone == (if telephone.Some? then telephone.value else TelephoneParDefaut)
              && r.value.motDePasse == encode(motDePasse)
              && r.value.role == role.value && r.value.actif
              && (r.value.region, r.value.supervision, r.value.branche)
                 == Placement(d, role.value, regionId, supervisionId, brancheId)
  {
    if EmailTaken(d.users, email) then Failure(Runtime(MsgEmailExiste))
    else if role.None? then Failure(NullReference)
    else
      var links := Placement(d, role.value, regionId, supervisionId, brancheId);
      Success(Utilisateur(id, nom, prenom, email, telephone.GetOr(TelephoneParDefaut), encode(motDePasse),
                          role.value, true, links.0, links.1, links.2))
  }

  /** A created user's links agree with each other, and the deepest one
      set is never below the role's level: a branch only for the two
      branch roles, a supervision only from the supervisor down, no link at
      all for headquarters. */
  lemma CreatedUserIsPlaced(d: Directory, nom: string, prenom: string, email: string, telephone: Option<string>,
                            motDePasse: string, encode: string -> string, role: Option<Role>,
                            regionId: Option<int>, supervisionId: Option<int>, brancheId: Option<int>, id: int)
    requires CreateUser(d, nom, prenom, email, telephone, motDePasse, encode, role,
                        regionId, supervisionId, brancheId, id).Success?
    ensures var u := CreateUser(d, nom, prenom, email, telephone, motDePasse, encode, role,
                                regionId, supervisionId, brancheId, id).value;
            && HierarchyConsistent(u)
            && (u.branche.Some? ==> Level(u.role) <= 2)
            && (u.supervision.Some? ==> Level(u.role) <= 3)
            && (u.region.Some? ==> Level(u.role) <= 4)
  {
  }

  /** A known id at the role's own level is always honoured: the user is
      linked to that row and to everything above it. */
  lemma KnownIdIsHonoured(d: Directory, role: Role, regionId: Option<int>, supervisionId: Option<int>,
                          brancheId: Option<int>, b: Branche)
    requires role in {Agent, ChefBranche} && brancheId == Some(b.id) && b in d.branches
    ensures var p := Placement(d, role, regionId, supervisionId, brancheId);
            p.2.Some? && p.2.value.id == b.id && p.1 == Some(p.2.value.supervision)
            && p.0 == Some(p.2.value.supervision.region)
  {
  }

  /** `save`: the new user joins the stored rows. */
  function Save(d: Directory, u: Utilisateur): (r: Directory)
    ensures r.users == d.users + [u] && r.regions == d.regions
    ensures r.supervisions == d.supervisions && r.branches == d.branches
  {
    d.(users := d.users + [u])
  }

  /** Once an account is saved, a second sign-up with the same e-mail is
      refused with the duplicate message, whatever else it carries. */
  lemma SecondSignUpRefused(d: Directory, nom: string, prenom: string, email: string, telephone: Option<string>,
                            motDePasse: string, encode: string -> string, role: Option<Role>,
                            regionId: Option<int>, supervisionId: Option<int>, brancheId: Option<int>, id: int,
                            nom2: string, prenom2: string, telephone2: Option<string>, motDePasse2: string,
                            role2: Option<Role>, id2: int)
    requires CreateUser(d, nom, prenom, email, telephone, motDePasse, encode, role,
                        regionId, supervisionId, brancheId, id).Success?
    ensures var d2 := Save(d, CreateUser(d, nom, prenom, email, telephone, motDePasse, encode, role,
                                         regionId, supervisionId, brancheId, id).value);
            CreateUser(d2, nom2, prenom2, email, telephone2, motDePasse2, encode, role2,
                       regionId, supervisionId, brancheId, id2) == Failure(Runtime(MsgEmailExiste))
  {
    var u := CreateUser(d, nom, prenom, email, telephone, motDePasse, encode, role,
                        regionId, supervisionId, brancheId, id).value;
    var d2 := Save(d, u);
    assert d2.users[|d.users|].email == email;
  }
}

=== FILE: users.dfy ===
/** The organisational hierarchy (Region > Supervision > Branche) and the
    user record (entity `Utilisateur`) as the services read them. */
module Users {
  import opened Wrappers
  import opened Roles

  datatype Region = Region(id: int)
  /** A supervision always belongs to a region (non-null join column). */
  datatype Supervision = Supervision(id: int, region: Region)
  /** A branch always belongs to a supervision (non-null join column). */
  datatype Branche = Branche(id: int, supervision: Supervision)

  datatype Utilisateur = Utilisateur(
    id: int,
    nom: string,
    prenom: string,
    email: string,
    telephone: string,
    motDePasse: string,
    role: Role,
    actif: bool,
    region: Option<Region>,
    supervision: Option<Supervision>,
    branche: Option<Branche>)

  /** The hierarchy links of a user agree with each other: a user's branch
      lies in the user's supervision, which lies in the user's region. */
  predicate HierarchyConsistent(u: Utilisateur) {
    && (u.branche.Some? ==> u.supervision == Some(u.branche.value.supervision))
    && (u.supervision.Some? ==> u.region == Some(u.supervision.value.region))
  }
}

=== FILE: wrappers.dfy ===
/** Failure-carrying datatypes shared by every module of the model.
    A Java method that either returns a value or throws becomes a function
    returning `Result`; a Java or JavaScript value that may be null or
    undefined becomes an `Option`. */
module Wrappers {

  datatype Option<+T> = None | Some(value: T) {
    function GetOr(default: T): T {
      match this
      case Some(v) => v
      case None => default
    }
  }

  /** The exceptions the backend services throw, with the message they carry. */
  datatype Error =
    | AccessDenied(message: string)       // Spring's AccessDeniedException
    | IllegalArgument(message: string)    // IllegalArgumentException
    | Runtime(message: string)            // a plain RuntimeException
    | NullReference                       // a NullPointerException on a missing link

  datatype Result<+R> = Success(value: R) | Failure(error: Error) {
    predicate IsFailure() { Failure? }

    function PropagateFailure<U>(): Result<U>
      requires Failure?
    {
      Failure(error)
    }

    function Extract(): R
      requires Success?
    {
      value
    }
  }
}
